=== FILE: README.md ===
# StarStack core, modelled in Dafny

StarStack is an Android app for browsing movies, rating and reviewing them,
and keeping a watch list. It gets movie data from the OMDb web API and keeps
accounts, reviews, ratings and watch lists in Firebase. This project models
the app's sequential logic and proves properties of that model.

- **OMDb field normalisation** (`OMDbClient`, `OMDbRepository`):
  - the poster fallback and the `Response == "True"` gate;
  - year and runtime parsing;
  - rescaling the 0–10 IMDb rating to 0–5;
  - splitting the ", "-separated cast and genre lists;
  - the two mappings from OMDb records to the app's `Movie`.
- **Firestore bookkeeping** (`FirebaseManager`). The document store is a
  value `Store`: one map per collection ("users", "movies", "reviews",
  "ratings", "watchlist"), plus the signed-in account. Each operation is a
  function from store to store:
  - user-profile creation;
  - the rating upsert under the `userId_movieId` key;
  - the aggregate-rating recomputation;
  - review add and delete with the per-user review counter;
  - like and unlike;
  - watch-list add, remove, membership and listing with the per-user counter;
  - the in-memory search filter.

  Each remote call that can fail takes a boolean saying whether it
  succeeded. An `update` of a missing document fails; a `delete` of one
  succeeds. A call that throws keeps the writes made before it.
- **Screen logic** (`MovieDetail`, `ReviewAdapter`, `MovieAdapter`,
  `SignUp`, `Login`):
  - the review guard and the author-name fallback;
  - the like and watch-list toggles;
  - the detail-fetch condition and the display fallbacks;
  - relative time stamps and button visibility in the review list;
  - the title filter of the movie list;
  - the two form validators and their error messages.
- **Support modules**:
  - `Options`: Kotlin nullable values;
  - `KtText`: the Kotlin string functions the code relies on (`trim`,
    `Char.isWhitespace`, `toIntOrNull`, `Int.toString`, `split`,
    `joinToString`, `replace`, `contains(ignoreCase = true)` over a case
    table, `toDoubleOrNull` on decimals, `String.length` in UTF-16 units);
  - `Collections`: filtering, Firestore's `arrayUnion` and `arrayRemove`,
    descending ordering, and sums over a map;
  - `Models`: the data classes.

**Drift is shown, not assumed away.** The counters (`likes`,
`totalReviews`, `watchlistCount`) are bumped unconditionally, so they match
the documents only when callers behave. The model proves both sides:

- The `...Keeps...` and `...InSync` lemmas show a counter stays accurate
  under the screens' own call discipline.
- The `...Drifts` lemmas show concrete ways it goes wrong:
  - adding an already-listed movie;
  - liking twice;
  - deleting a missing review;
  - a failed counter update;
  - a stale screen.

**Where the code surprises,** the model follows the code:

- **Year ranges with a real en dash.** `extractYear` splits on "-" and on
  the three-character string "â€“" (a UTF-8 en dash decoded as Windows-1252),
  so "2010–2015" with a real en dash gives 0, not 2010
  (`OMDbRepository.ExtractYearZeroExamples`).
- **Watch-list counter.** `addToWatchlist` writes the document and bumps
  `watchlistCount` on every call, not only when the movie was absent
  (`FirebaseManager.AddListedDrifts`).
- **Liking twice.** `likeReview` always increments `likes`, so a second
  like from the same user counts twice while `likedBy` grows once
  (`FirebaseManager.LikeTwiceDrifts`).
- **Deleting a review.** `deleteReview` decrements the signed-in user's
  `totalReviews`, whoever wrote the review, even when there was nothing to
  delete (`FirebaseManager.DeleteMissingReviewDrifts`). The delete button
  shows only on one's own reviews (`ReviewAdapter.DeleteButtonKeepsCounter`).
- **Empty stored display name.** The review author name uses the stored
  profile's `displayName` even when it is empty. It falls back to the
  account's name only when there is no stored profile.

## Model

| member | source | states |
|---|---|---|
| KtText.IsWhitespace | app/src/main/java/com/example/starstack/repository/OMDbMovieRepository.kt:132 | whitespace lies in U+0000–U+0020, is U+00A0, or lies in U+1680–U+3000; the no-break spaces U+00A0, U+2007 and U+202F count; no ASCII letter or digit does |
| KtText.Trim | app/src/main/java/com/example/starstack/repository/OMDbMovieRepository.kt:132 | the trimmed text neither starts nor ends with whitespace |
| KtText.TrimEmptyIff | app/src/main/java/com/example/starstack/SignUpActivity.kt:32-35 | a field trims to the empty string exactly when it holds nothing but whitespace |
| KtText.TrimIdempotent | app/src/main/java/com/example/starstack/SignUpActivity.kt:32-35 | trimming an already trimmed field changes nothing |
| KtText.ToIntOrNull | app/src/main/java/com/example/starstack/repository/OMDbMovieRepository.kt:132 | a number is read only from text without whitespace and only inside the 32-bit range; anything else is null |
| KtText.IntToString | app/src/main/java/com/example/starstack/MovieDetailActivity.kt:111 | a non-empty digit string without whitespace, led by "-" exactly for a negative number, whose digits have the number's magnitude as value |
| KtText.ParseRendered | app/src/main/java/com/example/starstack/repository/OMDbMovieRepository.kt:141 | every `Int` written in decimal reads back as itself |
| KtText.Split | app/src/main/java/com/example/starstack/repository/OMDbMovieRepository.kt:116-117 | the pieces join back to the input with the delimiter, and none of them contains it |
| KtText.SplitOfJoin | app/src/main/java/com/example/starstack/repository/OMDbMovieRepository.kt:116-117 | splitting a joined list on a delimiter that cannot overlap itself gives the pieces back, when no piece contains it |
| KtText.Join | app/src/main/java/com/example/starstack/MovieDetailActivity.kt:113-119 | no parts join to "", one part to itself |
| KtText.JoinLayout | app/src/main/java/com/example/starstack/MovieDetailActivity.kt:113-119 | a joined text starts with the first part, ends with the last, and is as long as all parts plus one separator between each pair of neighbours |
| KtText.ReplaceAll | app/src/main/java/com/example/starstack/repository/OMDbMovieRepository.kt:141 | text without the target comes back unchanged |
| KtText.ContainsIgnoreCaseFrom | app/src/main/java/com/example/starstack/firebase/FirebaseManager.kt:112-114 | under a case table, an occurrence of the query exists at or after the given position exactly when the scan finds one; characters match when equal, equal upper-cased, or equal upper- then lower-cased |
| KtText.CharEqualsIgnoreCaseOfUpper | app/src/main/java/com/example/starstack/MovieAdapter.kt:45 | when upper-casing is idempotent, upper-casing one character does not change whether two characters match ignoring case |
| KtText.QueryCaseIrrelevant | app/src/main/java/com/example/starstack/MovieAdapter.kt:45 | when upper-casing is idempotent, upper-casing the query does not change whether a text contains it |
| KtText.Latin1CasingUpperStable | app/src/main/java/com/example/starstack/MovieAdapter.kt:45 | upper-casing twice under the Latin-1 case table is the same as upper-casing once |
| KtText.AccentedTitleMatches | app/src/main/java/com/example/starstack/MovieAdapter.kt:45 | "AMÉLIE" contains "amélie" ignoring case under the Latin-1 table |
| KtText.EmptyQueryMatches | app/src/main/java/com/example/starstack/firebase/FirebaseManager.kt:112 | every text contains the empty query |
| KtText.DecimalOrNull | app/src/main/java/com/example/starstack/repository/OMDbMovieRepository.kt:108 | empty text is null, and a value read from text without a "-" is not negative |
| KtText.StripLowPadding | app/src/main/java/com/example/starstack/repository/OMDbMovieRepository.kt:108 | padding of characters up to U+0020 on both sides is stripped exactly, down to the first and last other character |
| KtText.DecimalOfBody | app/src/main/java/com/example/starstack/repository/OMDbMovieRepository.kt:108 | a number body read with an optional f/F/d/D suffix reads as the body alone |
| KtText.UnsignedDecimalOfFraction | app/src/main/java/com/example/starstack/repository/OMDbMovieRepository.kt:108 | digits, a point and at least one digit read as whole part plus fraction over the power of ten of its length |
| KtText.DecimalOfFraction | app/src/main/java/com/example/starstack/repository/OMDbMovieRepository.kt:108 | every decimal w.f, with or without a float suffix, reads as w + f / 10^|f| |
| KtText.TrimStart | app/src/main/java/com/example/starstack/repository/OMDbMovieRepository.kt:132 | drops exactly the leading whitespace: the result is a suffix of the input and everything cut is whitespace |
| KtText.TrimEnd | app/src/main/java/com/example/starstack/repository/OMDbMovieRepository.kt:132 | drops exactly the trailing whitespace: the result is a prefix of the input and everything cut is whitespace |
| KtText.Utf16Length | app/src/main/java/com/example/starstack/SignUpActivity.kt:81 | the UTF-16 length lies between the number of characters and twice that, and equals it when every character is in the Basic Multilingual Plane |
| KtText.Utf16LengthOfConcat | app/src/main/java/com/example/starstack/SignUpActivity.kt:81 | the UTF-16 length of a concatenation is the sum of the lengths |
| KtText.DecimalOfRendered | app/src/main/java/com/example/starstack/repository/OMDbMovieRepository.kt:108 | a whole number written in decimal reads as itself |
| KtText.ContainsImpliesIgnoreCase | app/src/main/java/com/example/starstack/MovieAdapter.kt:45 | an exact occurrence is also a case-insensitive one |
| Collections.FilterSeq | app/src/main/java/com/example/starstack/MovieAdapter.kt:45 | an element is kept exactly when it satisfies the test, as many times as the input holds it, order is kept, and nothing is added |
| Collections.ArrayUnion | app/src/main/java/com/example/starstack/firebase/FirebaseManager.kt:182 | the element is present afterwards, nothing else is added, and it is appended only when absent |
| Collections.ArrayRemove | app/src/main/java/com/example/starstack/firebase/FirebaseManager.kt:190 | every copy of the element is gone and every other element stays |
| Collections.ArrayRemovePresent | app/src/main/java/com/example/starstack/firebase/FirebaseManager.kt:190 | removing a present element from a duplicate-free array shortens it by one and keeps it duplicate-free |
| Collections.Where | app/src/main/java/com/example/starstack/firebase/FirebaseManager.kt:144 | an equality query: a document is kept exactly when the collection holds it and its field passes the test, and kept documents are unchanged |
| Collections.SortDesc | app/src/main/java/com/example/starstack/firebase/FirebaseManager.kt:145 | the result is ordered by the key, largest first, and is a permutation of the input |
| Collections.SortedValues | app/src/main/java/com/example/starstack/firebase/FirebaseManager.kt:143-148 | a query result: every document of the collection once, ordered by the key, largest first; each value appears as often as documents hold it |
| Collections.Listing | app/src/main/java/com/example/starstack/firebase/FirebaseManager.kt:143-148 | the documents of a collection as a list: one entry per document, each value as often as documents hold it |
| OMDbClient.PosterUrl | app/src/main/java/com/example/starstack/API/OMDbRetrofitClient.kt:20-26 | null, empty and "N/A" give the default poster; any other address is kept; the result is never empty or "N/A" |
| OMDbClient.PosterUrlIdempotent | app/src/main/java/com/example/starstack/API/OMDbRetrofitClient.kt:20-26 | cleaning an address twice is the same as cleaning it once |
| OMDbClient.PosterUrlIsInputOrDefault | app/src/main/java/com/example/starstack/API/OMDbRetrofitClient.kt:21-25 | the result is either the default poster or the given address unchanged |
| OMDbRepository.SearchMovies | app/src/main/java/com/example/starstack/repository/OMDbMovieRepository.kt:42-55 | the result list is returned only when `Response` is "True" (empty when it is absent); a refusal or a transport failure gives the empty list |
| OMDbRepository.GetMovieDetails | app/src/main/java/com/example/starstack/repository/OMDbMovieRepository.kt:57-84 | details are returned exactly when the answer arrived and its `Response` is "True" |
| OMDbRepository.ExtractYear | app/src/main/java/com/example/starstack/repository/OMDbMovieRepository.kt:129-136 | the year is always a 32-bit value |
| OMDbRepository.YearFieldEndsAt | app/src/main/java/com/example/starstack/repository/OMDbMovieRepository.kt:132 | the first piece of the split ends at the first "-" or at the misencoded dash |
| OMDbRepository.ExtractYearOfRendered | app/src/main/java/com/example/starstack/repository/OMDbMovieRepository.kt:129-136 | a year alone, or followed by "-" or by the three-character misencoded dash and anything, reads as that year |
| OMDbRepository.YearThenSeparator | app/src/main/java/com/example/starstack/repository/OMDbMovieRepository.kt:132 | a year followed by either separator and any text reads as that year |
| OMDbRepository.ExtractYearLeadingDash | app/src/main/java/com/example/starstack/repository/OMDbMovieRepository.kt:132 | text starting with "-" gives 0, since its first piece is empty |
| OMDbRepository.ExtractYearExamples | app/src/main/java/com/example/starstack/repository/OMDbMovieRepository.kt:131 | "2010" and "2010-2015" both give 2010 |
| OMDbRepository.ExtractYearZeroExamples | app/src/main/java/com/example/starstack/repository/OMDbMovieRepository.kt:132-135 | "N/A" and a range written with a real en dash give 0 |
| OMDbRepository.ExtractYearMissing | app/src/main/java/com/example/starstack/repository/OMDbMovieRepository.kt:113 | the empty string, used for a missing year, gives 0 |
| OMDbRepository.ExtractRuntime | app/src/main/java/com/example/starstack/repository/OMDbMovieRepository.kt:138-145 | the minutes are always a 32-bit value |
| OMDbRepository.StripMinutes | app/src/main/java/com/example/starstack/repository/OMDbMovieRepository.kt:141 | removing " min" from a number followed by " min" leaves the number |
| OMDbRepository.ExtractRuntimeOfRendered | app/src/main/java/com/example/starstack/repository/OMDbMovieRepository.kt:138-145 | any `Int`, with or without " min" after it, reads back as itself |
| OMDbRepository.ExtractRuntimeExamples | app/src/main/java/com/example/starstack/repository/OMDbMovieRepository.kt:140 | "148 min" gives 148 |
| OMDbRepository.ExtractRuntimeNotAvailable | app/src/main/java/com/example/starstack/repository/OMDbMovieRepository.kt:141-144 | "N/A" gives 0 |
| OMDbRepository.ExtractRuntimeMissing | app/src/main/java/com/example/starstack/repository/OMDbMovieRepository.kt:141-144 | the empty string, used for a missing runtime, gives 0 |
| OMDbRepository.NormalizedRating | app/src/main/java/com/example/starstack/repository/OMDbMovieRepository.kt:108-109 | a readable rating v becomes v / 2, so a value in 0..10 lands in 0..5; an absent or unreadable rating gives 0 |
| OMDbRepository.NormalizedRatingExample | app/src/main/java/com/example/starstack/repository/OMDbMovieRepository.kt:108-109 | "8.5" gives 4.25 |
| OMDbRepository.NormalizedRatingNotAvailable | app/src/main/java/com/example/starstack/repository/OMDbMovieRepository.kt:108 | "N/A" gives 0 |
| OMDbRepository.SplitList | app/src/main/java/com/example/starstack/repository/OMDbMovieRepository.kt:116-117 | a comma-separated list splits into at least one piece; the pieces join back to the text with ", " and none contains ", " |
| OMDbRepository.SearchResultToMovie | app/src/main/java/com/example/starstack/repository/OMDbMovieRepository.kt:87-104 | copies the id, the title and the raw year text; the year is the parsed "Year" text; director and description are empty, lists empty, duration, rating and review count 0; poster and backdrop are both the cleaned poster address; the language is "English" |
| OMDbRepository.SearchResultYear | app/src/main/java/com/example/starstack/repository/OMDbMovieRepository.kt:91 | a search result whose year is a number, alone or before a range, carries that number as its year |
| OMDbRepository.MovieDetailsToMovie | app/src/main/java/com/example/starstack/repository/OMDbMovieRepository.kt:107-127 | each field is the OMDb value or its fallback: id "", title and director "Unknown", plot "No description available", release date "", language "English"; cast and genres are the ", "-pieces of the text, or empty when absent; year and duration are the parsed values, or 0 when absent; poster and backdrop are the same usable address; the rating is the rescaled IMDb rating and the review count 0 |
| OMDbRepository.MovieDetailsDefaults | app/src/main/java/com/example/starstack/repository/OMDbMovieRepository.kt:112-125 | with every field absent: id "", title "Unknown", year 0, director "Unknown", no cast or genres, duration 0, description "No description available", default poster, rating 0, release date "", language "English" |
| OMDbRepository.ListField | app/src/main/java/com/example/starstack/repository/OMDbMovieRepository.kt:116-117 | an absent list text gives no names; a present one gives at least one piece, the pieces join back to the text with ", ", and none contains ", " |
| OMDbRepository.ListFieldOfJoin | app/src/main/java/com/example/starstack/repository/OMDbMovieRepository.kt:116-117 | names joined with ", " split back into the same names when no name contains ", " |
| OMDbRepository.MovieDetailsCastRoundTrip | app/src/main/java/com/example/starstack/repository/OMDbMovieRepository.kt:116 | a cast written as names joined with ", " comes back as the same names |
| OMDbRepository.MovieDetailsGenresRoundTrip | app/src/main/java/com/example/starstack/repository/OMDbMovieRepository.kt:117 | a genre text written as names joined with ", " comes back as the same names |
| OMDbRepository.YearField | app/src/main/java/com/example/starstack/repository/OMDbMovieRepository.kt:113 | a present "Year" text is parsed; an absent one gives 0 |
| OMDbRepository.RuntimeField | app/src/main/java/com/example/starstack/repository/OMDbMovieRepository.kt:118 | a present "Runtime" text is parsed; an absent one gives 0 |
| OMDbRepository.ExtractGenresFromMovies | app/src/main/java/com/example/starstack/repository/OMDbMovieRepository.kt:148-150 | a genre is in the result exactly when some movie lists it |
| FirebaseManager.CompositeKey | app/src/main/java/com/example/starstack/firebase/FirebaseManager.kt:198 | the rating or watchlist document id is the user id, an underscore, then the movie id |
| FirebaseManager.CompositeKeyInjective | app/src/main/java/com/example/starstack/firebase/FirebaseManager.kt:198 | for user ids without an underscore, different (user, movie) pairs get different document ids |
| FirebaseManager.CompositeKeyCollision | app/src/main/java/com/example/starstack/firebase/FirebaseManager.kt:260 | with underscores allowed in user ids, two different pairs share a document id |
| FirebaseManager.Increment | app/src/main/java/com/example/starstack/firebase/FirebaseManager.kt:133-135 | a counter update moves one counter of one existing profile by the given amount and nothing else; it throws on a missing profile |
| FirebaseManager.NewUser | app/src/main/java/com/example/starstack/firebase/FirebaseManager.kt:44-49 | a new profile has the given id, email, name and photo, an empty bio, the join time, and both counters at 0 |
| FirebaseManager.SignInWithEmail | app/src/main/java/com/example/starstack/firebase/FirebaseManager.kt:38-39 | a successful sign-in sets the current account and changes nothing else; a failed one changes nothing |
| FirebaseManager.SignUpWithEmail | app/src/main/java/com/example/starstack/firebase/FirebaseManager.kt:41-52 | creates the account, signs it in, then writes a fresh profile under its id; only the profile and the current account change |
| FirebaseManager.SignInWithGoogle | app/src/main/java/com/example/starstack/firebase/FirebaseManager.kt:54-72 | signs the account in and writes a profile only when none exists under its id |
| FirebaseManager.GoogleSignInKeepsProfiles | app/src/main/java/com/example/starstack/firebase/FirebaseManager.kt:60-61 | an existing profile is never overwritten, and a new one is created only for an account without one |
| FirebaseManager.SignOut | app/src/main/java/com/example/starstack/firebase/FirebaseManager.kt:74 | no account is signed in afterwards, and the documents are untouched |
| FirebaseManager.GetUserData | app/src/main/java/com/example/starstack/firebase/FirebaseManager.kt:78-84 | the stored profile when the read succeeds and one exists, otherwise null |
| FirebaseManager.SignUpThenRead | app/src/main/java/com/example/starstack/firebase/FirebaseManager.kt:41-52 | after a successful sign-up, reading the new id returns the new profile |
| FirebaseManager.ApplyUpdate | app/src/main/java/com/example/starstack/firebase/FirebaseManager.kt:86-88 | the given profile fields are replaced and every other field kept |
| FirebaseManager.UpdateUserProfile | app/src/main/java/com/example/starstack/firebase/FirebaseManager.kt:86-88 | updates one existing profile and no other; throws and changes nothing when it is missing |
| FirebaseManager.GetAllMovies | app/src/main/java/com/example/starstack/firebase/FirebaseManager.kt:92-98 | every stored movie, each as often as documents hold it; nothing when the read fails |
| FirebaseManager.GetMovieById | app/src/main/java/com/example/starstack/firebase/FirebaseManager.kt:100-106 | the stored movie when the read succeeds and it exists, otherwise null |
| FirebaseManager.SearchFilter | app/src/main/java/com/example/starstack/firebase/FirebaseManager.kt:111-115 | keeps a movie exactly when its title, director or one of its genres contains the query ignoring case under the case table, as often as the input holds it, in the original order |
| FirebaseManager.SearchMovies | app/src/main/java/com/example/starstack/firebase/FirebaseManager.kt:108-119 | every result is a stored matching movie; when the read succeeds, every stored matching movie is a result, as often as documents hold it; a failed read gives the empty list |
| FirebaseManager.SearchEmptyQueryKeepsAll | app/src/main/java/com/example/starstack/firebase/FirebaseManager.kt:111-115 | the empty query keeps every movie |
| FirebaseManager.UpdateMovieRating | app/src/main/java/com/example/starstack/firebase/FirebaseManager.kt:223-254 | with contributions, sets the movie's average to the mean of its rating documents and reviews and its review count to the number of reviews; otherwise, or on any failure, changes nothing; other documents never change |
| FirebaseManager.MeanOnStarScale | app/src/main/java/com/example/starstack/firebase/FirebaseManager.kt:240-243 | when every score is on the 0-5 scale, so is their mean |
| FirebaseManager.UpdateMovieRatingOnStarScale | app/src/main/java/com/example/starstack/firebase/FirebaseManager.kt:242-249 | recomputing keeps a movie's average on the 0-5 scale |
| FirebaseManager.AddReview | app/src/main/java/com/example/starstack/firebase/FirebaseManager.kt:123-139 | stores the review under the fresh id, then bumps the signed-in user's review counter by one and recomputes the reviewed movie from the new reviews; no other movie changes; returns the id; a failed write changes nothing |
| FirebaseManager.DeleteReview | app/src/main/java/com/example/starstack/firebase/FirebaseManager.kt:167-176 | removes the review document (a missing one too), decrements the signed-in user's review counter and recomputes the movie from the remaining reviews; no other movie changes |
| FirebaseManager.AddReviewKeepsCounter | app/src/main/java/com/example/starstack/firebase/FirebaseManager.kt:123-139 | adding one's own review keeps one's review counter equal to the number of one's reviews |
| FirebaseManager.DeleteReviewKeepsCounter | app/src/main/java/com/example/starstack/firebase/FirebaseManager.kt:167-176 | deleting one's own stored review keeps the counter equal to the number of one's reviews |
| FirebaseManager.DeleteMissingReviewDrifts | app/src/main/java/com/example/starstack/firebase/FirebaseManager.kt:168-174 | deleting an id that is not stored still decrements, so the counter falls below the real count |
| FirebaseManager.Liked | app/src/main/java/com/example/starstack/firebase/FirebaseManager.kt:180-183 | a like adds one to `likes` and the user to `likedBy` with set semantics; nothing else changes |
| FirebaseManager.Unliked | app/src/main/java/com/example/starstack/firebase/FirebaseManager.kt:188-191 | an unlike subtracts one from `likes` and removes the user from `likedBy`; nothing else changes |
| FirebaseManager.LikeReview | app/src/main/java/com/example/starstack/firebase/FirebaseManager.kt:178-184 | updates only the named review; throws and changes nothing when it is missing |
| FirebaseManager.UnlikeReview | app/src/main/java/com/example/starstack/firebase/FirebaseManager.kt:186-192 | updates only the named review; throws and changes nothing when it is missing |
| FirebaseManager.LikeKeepsConsistency | app/src/main/java/com/example/starstack/firebase/FirebaseManager.kt:178-184 | from `likes == |likedBy|`, a like keeps them equal exactly when the user had not liked the review |
| FirebaseManager.UnlikeKeepsConsistency | app/src/main/java/com/example/starstack/firebase/FirebaseManager.kt:186-192 | from `likes == |likedBy|`, an unlike keeps them equal exactly when the user had liked the review |
| FirebaseManager.LikeTwiceDrifts | app/src/main/java/com/example/starstack/firebase/FirebaseManager.kt:181-182 | liking twice counts two likes but records one liker |
| FirebaseManager.GetMovieReviews | app/src/main/java/com/example/starstack/firebase/FirebaseManager.kt:141-152 | exactly the movie's stored reviews, each as often as documents hold it, newest first; nothing when the read fails |
| FirebaseManager.GetUserReviews | app/src/main/java/com/example/starstack/firebase/FirebaseManager.kt:154-165 | exactly the user's stored reviews, each as often as documents hold it, newest first; nothing when the read fails |
| FirebaseManager.AddOrUpdateRating | app/src/main/java/com/example/starstack/firebase/FirebaseManager.kt:196-209 | without a signed-in user a no-op; otherwise writes the rating under the composite key, leaves every other rating document as it was, then recomputes the rated movie from the new ratings; no other movie changes |
| FirebaseManager.GetUserRating | app/src/main/java/com/example/starstack/firebase/FirebaseManager.kt:211-221 | null without a signed-in user or when the read fails; otherwise the rating stored under the composite key, if any |
| FirebaseManager.RatingReadsBack | app/src/main/java/com/example/starstack/firebase/FirebaseManager.kt:196-221 | after a rating is written, reading it back returns that rating |
| FirebaseManager.RatingLatestWins | app/src/main/java/com/example/starstack/firebase/FirebaseManager.kt:207-208 | rating twice leaves the same store as rating once with the second value |
| FirebaseManager.RatingCountsOnce | app/src/main/java/com/example/starstack/firebase/FirebaseManager.kt:198-207 | a user has at most one rating document per movie, so re-rating does not add a contribution |
| FirebaseManager.RatingsForUpsert | app/src/main/java/com/example/starstack/firebase/FirebaseManager.kt:198-207 | writing a rating document of a movie adds exactly that document to the movie's ratings and leaves the others as they were |
| FirebaseManager.UpdateMovieRatingOverwrites | app/src/main/java/com/example/starstack/firebase/FirebaseManager.kt:244-249 | the recomputed movie does not depend on the average or count it had before |
| FirebaseManager.AddToWatchlist | app/src/main/java/com/example/starstack/firebase/FirebaseManager.kt:258-279 | without a signed-in user returns false and changes nothing; otherwise writes the item under the composite key and bumps the watch-list counter on every call; true only when both steps succeed |
| FirebaseManager.RemoveFromWatchlist | app/src/main/java/com/example/starstack/firebase/FirebaseManager.kt:281-296 | without a signed-in user returns false and changes nothing; otherwise deletes the item and decrements the counter; true only when both succeed |
| FirebaseManager.IsInWatchlist | app/src/main/java/com/example/starstack/firebase/FirebaseManager.kt:298-307 | true exactly when a user is signed in, the read succeeds and the composite-key document exists |
| FirebaseManager.WatchlistItems | app/src/main/java/com/example/starstack/firebase/FirebaseManager.kt:309-318 | exactly the signed-in user's items, each as often as documents hold it, newest first; nothing without a user or when the read fails |
| FirebaseManager.GetWatchlist | app/src/main/java/com/example/starstack/firebase/FirebaseManager.kt:309-323 | the movie ids of those items, in the same order |
| FirebaseManager.WatchlistMembershipAgrees | app/src/main/java/com/example/starstack/firebase/FirebaseManager.kt:298-323 | a movie is listed by `getWatchlist` exactly when `isInWatchlist` says so |
| FirebaseManager.AddThenIsIn | app/src/main/java/com/example/starstack/firebase/FirebaseManager.kt:258-307 | after a successful write the movie is in the watch list |
| FirebaseManager.RemoveThenNotIn | app/src/main/java/com/example/starstack/firebase/FirebaseManager.kt:281-307 | after a successful delete the movie is not in the watch list |
| FirebaseManager.AddTwiceSameMembership | app/src/main/java/com/example/starstack/firebase/FirebaseManager.kt:269 | adding the same movie twice gives the same set of watch-list documents as adding it once |
| FirebaseManager.AddKeepsCounter | app/src/main/java/com/example/starstack/firebase/FirebaseManager.kt:269-273 | adding a movie that was not listed keeps the counter equal to the number of listed movies |
| FirebaseManager.AddListedDrifts | app/src/main/java/com/example/starstack/firebase/FirebaseManager.kt:269-273 | adding a movie that was already listed still bumps the counter, which then runs ahead |
| FirebaseManager.RemoveKeepsCounter | app/src/main/java/com/example/starstack/firebase/FirebaseManager.kt:286-290 | removing a listed movie keeps the counter equal to the number of listed movies |
| FirebaseManager.AddWithFailedCounterDrifts | app/src/main/java/com/example/starstack/firebase/FirebaseManager.kt:269-277 | when the counter update fails the item stays written, the call reports false, and the counter falls behind |
| MovieDetail.LoadCompleteDetails | app/src/main/java/com/example/starstack/MovieDetailActivity.kt:75-100 | details are fetched only when director or description is empty; a missing answer leaves the movie as it was, a found one replaces it |
| MovieDetail.LoadReviews | app/src/main/java/com/example/starstack/MovieDetailActivity.kt:165-190 | the loaded reviews are exactly the movie's stored reviews as getMovieReviews returns them (newest first, none on a failed read); the shown count is their number; the movie is otherwise unchanged |
| MovieDetail.DirectorLabel | app/src/main/java/com/example/starstack/MovieDetailActivity.kt:106-110 | "Directed by X" exactly when the director is neither empty nor "N/A" |
| MovieDetail.DurationLabel | app/src/main/java/com/example/starstack/MovieDetailActivity.kt:111 | "Duration N/A" exactly when the duration is not positive; otherwise the number followed by " min" |
| MovieDetail.DurationLabelReadsBack | app/src/main/java/com/example/starstack/MovieDetailActivity.kt:111 | the minutes shown read back as the duration |
| MovieDetail.GenresLabel | app/src/main/java/com/example/starstack/MovieDetailActivity.kt:112-116 | the genres joined by " • ", or "Genre not available" for none |
| MovieDetail.CastLabel | app/src/main/java/com/example/starstack/MovieDetailActivity.kt:118-122 | the cast joined by ", ", or "Cast information not available" for none |
| MovieDetail.CastLabelRoundTrip | app/src/main/java/com/example/starstack/MovieDetailActivity.kt:119 | the shown cast splits back into the same names |
| MovieDetail.ReviewSubmission | app/src/main/java/com/example/starstack/MovieDetailActivity.kt:270-279 | a review goes ahead exactly when the rating is positive and the text has a non-blank character, and then carries the trimmed text |
| MovieDetail.AuthorName | app/src/main/java/com/example/starstack/MovieDetailActivity.kt:298 | the stored display name, else the account's, else "Anonymous" |
| MovieDetail.AuthorPhoto | app/src/main/java/com/example/starstack/MovieDetailActivity.kt:299 | the stored photo, else the account's, else "" |
| MovieDetail.NewReview | app/src/main/java/com/example/starstack/MovieDetailActivity.kt:293-303 | the review names the movie and the author, starts with no likes, and is consistent |
| MovieDetail.SubmitReview | app/src/main/java/com/example/starstack/MovieDetailActivity.kt:284-320 | nothing without a signed-in user or when the guard rejects; otherwise the store after adding the built review (author name and photo from the profile read, movie title and poster, the current time, the trimmed text) under the new id, with its counter and movie effects |
| MovieDetail.SubmitReviewKeepsCounter | app/src/main/java/com/example/starstack/MovieDetailActivity.kt:284-320 | a submitted review keeps the author's review counter accurate |
| MovieDetail.SubmitRating | app/src/main/java/com/example/starstack/MovieDetailActivity.kt:155-161 | without a signed-in user nothing changes; otherwise the store becomes the one after the rating upsert: the submitted rating reads back, a failed write changes nothing, and only ratings and movies can change |
| MovieDetail.ToggleLike | app/src/main/java/com/example/starstack/MovieDetailActivity.kt:322-346 | nothing without a user; unlike exactly when the user is among the shown review's likers, like otherwise |
| MovieDetail.ToggleLikeKeepsConsistency | app/src/main/java/com/example/starstack/MovieDetailActivity.kt:331-335 | when the shown review is the stored one, toggling keeps `likes == |likedBy|` |
| MovieDetail.ToggleLikeTwiceRestores | app/src/main/java/com/example/starstack/MovieDetailActivity.kt:331-336 | toggling twice with a reload in between restores the reviews |
| MovieDetail.StaleLikeDrifts | app/src/main/java/com/example/starstack/MovieDetailActivity.kt:331-335 | a stale shown copy makes the toggle like again, and the count runs ahead of the likers |
| MovieDetail.ToggleWatchlist | app/src/main/java/com/example/starstack/MovieDetailActivity.kt:372-406 | nothing without a user; remove when the screen believes the movie is listed, add otherwise; the belief flips only on success |
| MovieDetail.ToggleWatchlistInSync | app/src/main/java/com/example/starstack/MovieDetailActivity.kt:381-389 | when the belief matches the store, toggling keeps it matching and keeps the counter accurate |
| MovieDetail.StaleWatchlistDrifts | app/src/main/java/com/example/starstack/MovieDetailActivity.kt:381-389 | a stale belief re-adds a listed movie and the counter runs ahead |
| ReviewAdapter.FormatDate | app/src/main/java/com/example/starstack/adapters/ReviewAdapter.kt:66-77 | under a minute (the future included) is "just now"; then whole minutes 1-59, hours 1-23, days 1-6; a week or more shows the date |
| ReviewAdapter.FormatDateMonotone | app/src/main/java/com/example/starstack/adapters/ReviewAdapter.kt:70-76 | an older review never shows a smaller age |
| ReviewAdapter.FormatDateReadsBack | app/src/main/java/com/example/starstack/adapters/ReviewAdapter.kt:72-74 | n whole units plus less than one more unit shows as n of that unit |
| ReviewAdapter.StampText | app/src/main/java/com/example/starstack/adapters/ReviewAdapter.kt:71-74 | "Just now", or the count followed by " minutes ago", " hours ago" or " days ago" |
| ReviewAdapter.StampTextInjective | app/src/main/java/com/example/starstack/adapters/ReviewAdapter.kt:71-74 | two different ages never show the same text |
| ReviewAdapter.DeleteVisible | app/src/main/java/com/example/starstack/adapters/ReviewAdapter.kt:46-50 | the delete button shows exactly when the viewer is signed in and wrote the review |
| ReviewAdapter.DeleteButtonKeepsCounter | app/src/main/java/com/example/starstack/adapters/ReviewAdapter.kt:46-50 | deleting through the button removes the viewer's own review, so the review counter stays accurate |
| ReviewAdapter.IsLiked | app/src/main/java/com/example/starstack/adapters/ReviewAdapter.kt:53-54 | the heart is filled exactly when a signed-in viewer is among the likers |
| ReviewAdapter.ToggleFlipsHeart | app/src/main/java/com/example/starstack/adapters/ReviewAdapter.kt:53-57 | tapping the heart of the stored review shows the opposite heart after the reload |
| ReviewAdapter.SameItem | app/src/main/java/com/example/starstack/adapters/ReviewAdapter.kt:81 | two rows are the same item exactly when their review ids agree |
| ReviewAdapter.SameContents | app/src/main/java/com/example/starstack/adapters/ReviewAdapter.kt:82 | two rows need no redraw exactly when the reviews are equal |
| ReviewAdapter.SameItemIsEquivalence | app/src/main/java/com/example/starstack/adapters/ReviewAdapter.kt:81-82 | equal contents imply the same item, and item identity is an equivalence |
| ReviewAdapter.LikeRedrawsInPlace | app/src/main/java/com/example/starstack/adapters/ReviewAdapter.kt:81-82 | a like or unlike keeps the item but changes its contents |
| MovieAdapter.NewAdapter | app/src/main/java/com/example/starstack/MovieAdapter.kt:11-14 | the shown list and the kept full list both start as the given movies |
| MovieAdapter.ItemCount | app/src/main/java/com/example/starstack/MovieAdapter.kt:38 | the row count is the length of the shown list, never more than the full list |
| MovieAdapter.Selected | app/src/main/java/com/example/starstack/MovieAdapter.kt:41-48 | the full list for the empty query; otherwise exactly the entries whose title contains the query ignoring case under the case table, as often as the full list holds them, in order |
| MovieAdapter.Filter | app/src/main/java/com/example/starstack/MovieAdapter.kt:41-48 | the shown list becomes the selection from the full list (the full list for the empty query, otherwise each matching entry as often as it is held), and the full list is kept unchanged |
| MovieAdapter.FiltersDoNotCompound | app/src/main/java/com/example/starstack/MovieAdapter.kt:41-48 | filtering twice is filtering once with the last query |
| MovieAdapter.EmptyQueryKeepsEverything | app/src/main/java/com/example/starstack/MovieAdapter.kt:42-45 | filtering by the empty query would also keep everything |
| MovieAdapter.FilterIgnoresQueryCase | app/src/main/java/com/example/starstack/MovieAdapter.kt:45 | when upper-casing is idempotent, the query's case does not change the rows shown |
| MovieAdapter.AccentedQueryShowsTitle | app/src/main/java/com/example/starstack/MovieAdapter.kt:41-48 | under the Latin-1 table, the query "amélie" shows the title "AMÉLIE" |
| SignUp.Trimmed | app/src/main/java/com/example/starstack/SignUpActivity.kt:32-35 | each field is stripped of surrounding whitespace |
| SignUp.NameLabel | app/src/main/java/com/example/starstack/SignUpActivity.kt:55-60 | "Name is required" exactly for an empty name |
| SignUp.EmailLabel | app/src/main/java/com/example/starstack/SignUpActivity.kt:62-70 | "Email is required" for an empty email, else "Invalid email format" when the pattern fails, else cleared |
| SignUp.PasswordLabel | app/src/main/java/com/example/starstack/SignUpActivity.kt:72-86 | "Password is required" for an empty password, else a length message under 6 code units, else cleared |
| SignUp.ConfirmLabel | app/src/main/java/com/example/starstack/SignUpActivity.kt:88-96 | "Please confirm password" when empty, else "Passwords do not match" when different, else cleared |
| SignUp.Validate | app/src/main/java/com/example/starstack/SignUpActivity.kt:47-99 | each of the four fields gets its own verdict |
| SignUp.Passes | app/src/main/java/com/example/starstack/SignUpActivity.kt:98 | validation passes exactly when no field shows an error |
| SignUp.PassesIff | app/src/main/java/com/example/starstack/SignUpActivity.kt:47-99 | passes exactly for a name, a well-formed email, a password of at least 6 code units, and a matching confirmation |
| SignUp.FieldsIndependent | app/src/main/java/com/example/starstack/SignUpActivity.kt:53-97 | a field's verdict depends only on the fields it reads |
| SignUp.EmptyFormReportsEveryField | app/src/main/java/com/example/starstack/SignUpActivity.kt:53-97 | an empty form reports all four fields as required |
| SignUp.Submit | app/src/main/java/com/example/starstack/SignUpActivity.kt:31-39 | account creation is called exactly when validation of the trimmed fields passes, with the trimmed name, email and password |
| SignUp.SubmitIgnoresSurroundingSpace | app/src/main/java/com/example/starstack/SignUpActivity.kt:32-38 | a form and its trimmed copy are treated alike |
| SignUp.BlankPasswordIsMissing | app/src/main/java/com/example/starstack/SignUpActivity.kt:72-80 | a password of spaces only counts as missing, and no account is created |
| SignUp.FailureMessage | app/src/main/java/com/example/starstack/SignUpActivity.kt:116-120 | collision gives "This email is already in use.", a weak password "Password is too weak.", anything else its message or the fallback |
| SignUp.FailureMessageSource | app/src/main/java/com/example/starstack/SignUpActivity.kt:116-120 | the two recognised failures ignore the server text; others show it when present, the fallback when absent |
| Login.Validate | app/src/main/java/com/example/starstack/LoginActivity.kt:63-79 | fails with "Email is required" on an empty email without looking at the password, then with "Password is required"; passes exactly when both are non-empty |
| Login.MissingEmailShortCircuits | app/src/main/java/com/example/starstack/LoginActivity.kt:64-67 | with the email missing, the password makes no difference |
| Login.Submit | app/src/main/java/com/example/starstack/LoginActivity.kt:41-47 | sign-in is called exactly when validation of the trimmed fields passes, with the trimmed values |
| Login.SubmitIffNotBlank | app/src/main/java/com/example/starstack/LoginActivity.kt:41-47 | sign-in is attempted exactly when both fields hold a non-whitespace character |
| Login.AcceptsWhatSignUpAccepts | app/src/main/java/com/example/starstack/LoginActivity.kt:63-79 | whatever email and password sign-up validation accepts, login validation accepts |
| Login.FailureMessage | app/src/main/java/com/example/starstack/LoginActivity.kt:92-96 | an unknown user gives "Account not found. Please sign up.", invalid credentials (weak password included) "Invalid email or password.", anything else its message or the fallback |
| Login.WeakPasswordReadsDifferently | app/src/main/java/com/example/starstack/LoginActivity.kt:92-96 | a weak-password failure reads differently on the two screens |
| Login.GoogleFailureMessage | app/src/main/java/com/example/starstack/LoginActivity.kt:134 | status 12500 gives the configuration message; any other code is written into the message |
| Login.GoogleFailureCodeReadsBack | app/src/main/java/com/example/starstack/LoginActivity.kt:134 | the status code reads back from the message |
| Login.OnPickerResult | app/src/main/java/com/example/starstack/LoginActivity.kt:122-135 | Firebase authentication starts exactly when the picker returns an account with an ID token, and with that token; an account without a token shows "Google Sign-In error."; a picker failure shows the status-code message |
| Login.MissingTokenDistinguishable | app/src/main/java/com/example/starstack/LoginActivity.kt:125-134 | a missing ID token reads differently from every picker failure code |
| Login.GoogleAuthFailureMessage | app/src/main/java/com/example/starstack/LoginActivity.kt:150 | the message is "Authentication failed: " followed by the exception's message, or by "null" when it has none |
| Login.GoogleAuthFailureReadsBack | app/src/main/java/com/example/starstack/LoginActivity.kt:150 | two failures read alike exactly when their messages, with a missing one read as "null", are equal |

## Left out

- Network and SDK plumbing is left out. This covers the Firebase Auth and
  Firestore SDKs, Retrofit/OkHttp, Glide and the HTTP requests. A remote
  call is reduced to its answer, or to a success flag, passed as a
  parameter.
- Coroutines, lifecycle and the interleaving of asynchronous calls are left
  out; the model is sequential.
- `onResume` refreshes are left out.
- The clock is a parameter: `Timestamp.now()` and `Date()` become the
  integer `now`, in milliseconds. Document ids from `document()` are the
  parameter `newId`.
- Floating point is modelled as exact `real` arithmetic. Rounding of
  `Double` and `"%.1f"` formatting are not modelled.
- Date formatting is left out. `SimpleDateFormat("MMM dd, yyyy")` in
  `formatDate` is platform formatting, so a stamp a week or older carries
  only its time stamp.
- The email pattern `android.util.Patterns.EMAIL_ADDRESS` is a platform
  regular expression. It is the predicate parameter `isEmail`.
- KtText.ToIntOrNull: reads ASCII digits only. Kotlin also accepts other
  Unicode decimal digits. OMDb years and runtimes are ASCII.
- KtText.DecimalOrNull: reads decimals with padding of characters up to
  U+0020, an optional sign, digits with at most one point, and an optional
  f/F/d/D suffix. Exponents, hexadecimal floats, "NaN" and "Infinity" are
  not read. OMDb ratings look like "8.5" or "N/A".
- Case folding is the `Casing` parameter: Kotlin's upper- and lower-case
  tables cover all of Unicode. `KtText.Latin1Casing` gives them for
  U+0000–U+00FF only.
- KtText.QueryCaseIrrelevant: holds for case tables whose upper-casing is
  idempotent; this is proved for the Latin-1 table but assumed, not
  proved, for the full Unicode table.
- MovieAdapter.FilterIgnoresQueryCase: rests on the same idempotence
  assumption as `KtText.QueryCaseIrrelevant`.
- ReviewAdapter.FormatDate: does not model 64-bit overflow of
  `now - timestamp`, because time stamps are unbounded integers here.
- Counters (`likes`, `totalReviews`, `watchlistCount`) are unbounded
  integers. The wrap-around of the Kotlin `Int` fields is not modelled.
- MovieDetail.GenresLabel: promises less than "joined genres or the
  fallback text, exclusively". A one-genre list whose only genre is
  literally "Genre not available" shows the same text as an empty list.
- FirebaseManager.UpdateUserProfile: takes only the three fields the
  profile screen edits (display name, photo, bio), not an arbitrary field
  map.
- `getPopularMovies` and `initializeSampleMovies` are left out. They loop
  network or database calls over fixed title lists and have no logic
  beyond the mappings and writes modelled here.
- The following screens and files are not part of this model:
  - `MainActivity`, `ProfileActivity`, `WatchlistActivity` and
    `MovieGridAdapter` (view wiring);
  - `ApiConstants` (unused constants);
  - `getMovieDetailsByTitle`, except through the same `Response` gate as
    `getMovieDetails`.
- Login redirect and Google sign-in intents are left out. The redirect on
  an existing session, launching the picker and moving to the main screen
  are navigation. The picker's result is modelled as a value: failed with
  a status code, or an account with or without an ID token. So are the
  messages for a picker failure, a missing token and a failed Firebase
  sign-in.
- Toasts, progress indicators and button enabling are left out. Validators
  and screens are modelled only through their verdict and the error lines
  they set.

=== FILE: auth_failures.dfy ===
/** The sign-in and sign-up failures the two account screens tell apart,
    and how a validator reports on one input field. */
module AuthFailures {
  import opened Options

  /** The exception classes the screens test for. In the Firebase SDK a
      weak-password failure is a kind of invalid-credentials failure. */
  datatype FailureKind =
    | UserCollision
    | WeakPassword
    | InvalidCredentials
    | InvalidUser
    | OtherFailure

  /** A thrown exception: its class and its (nullable) message. */
  datatype Failure = Failure(kind: FailureKind, message: Option<string>)

  /** Kotlin's `e is FirebaseAuthInvalidCredentialsException`, which
      subclasses count as. */
  predicate IsInvalidCredentials(k: FailureKind) {
    k == InvalidCredentials || k == WeakPassword
  }

  /** What a validator does to the error line under one input field. */
  datatype Label = Untouched | Cleared | Shows(text: string)
}

=== FILE: collections.dfy ===
/** Sequence and map helpers shared by the list screens and the document
    store: order-preserving filtering, Firestore array operators,
    descending ordering of query results, and the documents of a
    collection listed one by one. */
module Collections {

  // ---------------------------------------------------------------------
  // Subsequences and filtering

  /** `xs` is `ys` with some elements left out, order kept. */
  predicate IsSubsequence<T(==)>(xs: seq<T>, ys: seq<T>)
    decreases |ys|
  {
    if |xs| == 0 then true
    else if |ys| == 0 then false
    else if xs[0] == ys[0] then IsSubsequence(xs[1..], ys[1..])
    else IsSubsequence(xs, ys[1..])
  }

  /** Kotlin's `filter`: the elements satisfying `p`, in their order. */
  function FilterSeq<T(==,!new)>(xs: seq<T>, p: T -> bool): (r: seq<T>)
    ensures |r| <= |xs|
    ensures forall x :: x in r <==> x in xs && p(x)
    ensures IsSubsequence(r, xs)
    ensures forall x :: multiset(r)[x] == if p(x) then multiset(xs)[x] else 0
  {
    if |xs| == 0 then []
    else
      assert xs == [xs[0]] + xs[1..];
      var rest := FilterSeq(xs[1..], p);
      if p(xs[0]) then
        var r := [xs[0]] + rest;
        assert r[1..] == rest;
        r
      else rest
  }

  /** Filtering with a test every element passes changes nothing. */
  lemma {:induction false} FilterAll<T(!new)>(xs: seq<T>, p: T -> bool)
    requires forall x :: x in xs ==> p(x)
    ensures FilterSeq(xs, p) == xs
  {
    if |xs| > 0 {
      assert forall x :: x in xs[1..] ==> x in xs;
      FilterAll(xs[1..], p);
      assert xs == [xs[0]] + xs[1..];
    }
  }

  /** Filtering depends only on the verdicts on the elements present. */
  lemma {:induction false} FilterSamePredicate<T(!new)>(xs: seq<T>, p: T -> bool, q: T -> bool)
    requires forall x :: x in xs ==> p(x) == q(x)
    ensures FilterSeq(xs, p) == FilterSeq(xs, q)
  {
    if |xs| > 0 {
      assert forall x :: x in xs[1..] ==> x in xs;
      FilterSamePredicate(xs[1..], p, q);
    }
  }

  // ---------------------------------------------------------------------
  // Firestore array operators

  predicate NoDuplicates<T(==)>(xs: seq<T>) {
    forall i, j :: 0 <= i < j < |xs| ==> xs[i] != xs[j]
  }

  /** `FieldValue.arrayUnion(x)`: appends `x` unless it is already there. */
  function ArrayUnion<T(==,!new)>(xs: seq<T>, x: T): (r: seq<T>)
    ensures x in r
    ensures forall y :: y in r <==> y in xs || y == x
    ensures NoDuplicates(xs) ==> NoDuplicates(r)
    ensures |r| == if x in xs then |xs| else |xs| + 1
  {
    if x in xs then xs else xs + [x]
  }

  /** `FieldValue.arrayRemove(x)`: drops every copy of `x`. */
  function ArrayRemove<T(==,!new)>(xs: seq<T>, x: T): (r: seq<T>)
    ensures x !in r
    ensures forall y :: y in r <==> y in xs && y != x
    ensures x !in xs ==> r == xs
  {
    if |xs| == 0 then []
    else
      var rest := ArrayRemove(xs[1..], x);
      if xs[0] == x then rest
      else
        var r := [xs[0]] + rest;
        assert xs == [xs[0]] + xs[1..];
        r
  }

  /** Removing a present element from a duplicate-free array shortens it
      by exactly one and keeps it duplicate-free. */
  lemma {:induction false} ArrayRemovePresent<T(!new)>(xs: seq<T>, x: T)
    requires NoDuplicates(xs) && x in xs
    ensures |ArrayRemove(xs, x)| == |xs| - 1
    ensures NoDuplicates(ArrayRemove(xs, x))
  {
    var t := xs[1..];
    assert NoDuplicates(t) by {
      forall i, j | 0 <= i < j < |t| ensures t[i] != t[j] {
        assert t[i] == xs[i + 1] && t[j] == xs[j + 1];
      }
    }
    if xs[0] == x {
      assert x !in t by {
        forall i | 0 <= i < |t| ensures t[i] != x {
          assert t[i] == xs[i + 1];
        }
      }
    } else {
      ArrayRemovePresent(t, x);
      var rest := ArrayRemove(t, x);
      var r := [xs[0]] + rest;
      assert xs[0] !in t by {
        forall i | 0 <= i < |t| ensures t[i] != xs[0] {
          assert t[i] == xs[i + 1];
        }
      }
      assert xs[0] !in rest;
      forall i, j | 0 <= i < j < |r| ensures r[i] != r[j] {
        if i > 0 {
          assert r[i] == rest[i - 1] && r[j] == rest[j - 1];
        } else {
          assert r[j] == rest[j - 1];
        }
      }
    }
  }

  // ---------------------------------------------------------------------
  // Descending order

  predicate SortedDesc<T>(xs: seq<T>, key: T -> int) {
    forall i, j :: 0 <= i < j < |xs| ==> key(xs[i]) >= key(xs[j])
  }

  /** Putting an element no smaller than the head in front keeps the order. */
  lemma ConsSorted<T>(y: T, xs: seq<T>, key: T -> int)
    requires SortedDesc(xs, key) && (|xs| > 0 ==> key(y) >= key(xs[0]))
    ensures SortedDesc([y] + xs, key)
  {
    var r := [y] + xs;
    forall i, j | 0 <= i < j < |r| ensures key(r[i]) >= key(r[j]) {
      assert r[j] == xs[j - 1];
      if i > 0 {
        assert r[i] == xs[i - 1];
      } else if j > 1 {
        assert key(xs[0]) >= key(xs[j - 1]);
      }
    }
  }

  function InsertDesc<T(==)>(x: T, xs: seq<T>, key: T -> int): (r: seq<T>)
    requires SortedDesc(xs, key)
    ensures SortedDesc(r, key)
    ensures multiset(r) == multiset(xs) + multiset{x}
    ensures |r| == |xs| + 1
    ensures key(r[0]) == key(x) || (|xs| > 0 && key(r[0]) == key(xs[0]))
  {
    if |xs| == 0 || key(x) >= key(xs[0]) then
      ConsSorted(x, xs, key);
      [x] + xs
    else
      var tail := xs[1..];
      assert SortedDesc(tail, key) by {
        forall i, j | 0 <= i < j < |tail| ensures key(tail[i]) >= key(tail[j]) {
          assert tail[i] == xs[i + 1] && tail[j] == xs[j + 1];
        }
      }
      var rest := InsertDesc(x, tail, key);
      assert |tail| > 0 ==> key(xs[0]) >= key(tail[0]) by {
        if |tail| > 0 { assert tail[0] == xs[1]; }
      }
      ConsSorted(xs[0], rest, key);
      assert xs == [xs[0]] + tail;
      [xs[0]] + rest
  }

  /** The elements ordered by `key`, largest first (Firestore's
      `orderBy(…, DESCENDING)`); the order among equal keys is left open. */
  function SortDesc<T(==,!new)>(xs: seq<T>, key: T -> int): (r: seq<T>)
    ensures SortedDesc(r, key)
    ensures multiset(r) == multiset(xs)
    ensures |r| == |xs|
    ensures forall x :: x in r <==> x in xs
  {
    if |xs| == 0 then []
    else
      assert xs == [xs[0]] + xs[1..];
      var r := InsertDesc(xs[0], SortDesc(xs[1..], key), key);
      assert forall x :: x in r <==> x in multiset(r);
      assert forall x :: x in xs <==> x in multiset(xs);
      r
  }

  // ---------------------------------------------------------------------
  // Listing the documents of a map

  /** The documents of `m` whose value passes `p`: a Firestore
      `whereEqualTo` query before ordering. */
  function Where<V>(m: map<string, V>, p: V -> bool): (r: map<string, V>)
    ensures forall k :: k in r <==> k in m && p(m[k])
    ensures forall k :: k in r ==> r[k] == m[k]
  {
    map k | k in m && p(m[k]) :: m[k]
  }

  /** How many documents of `m` hold the value `v`. */
  function Copies<V(==)>(m: map<string, V>, v: V): nat {
    |set k | k in m && m[k] == v|
  }

  /** No value has more copies than the map has documents. */
  lemma CopiesAtMost<V>(m: map<string, V>, v: V)
    ensures Copies(m, v) <= |m|
  {
    var s := set k | k in m && m[k] == v;
    assert m.Keys == s + (m.Keys - s);
    assert |m.Keys| == |s| + |m.Keys - s|;
  }

  /** Taking one document out of a map takes one copy of its value. */
  lemma CopiesWithout<V>(m: map<string, V>, k: string)
    requires k in m
    ensures forall v :: Copies(m, v) == Copies(m - {k}, v) + (if m[k] == v then 1 else 0)
  {
    forall v ensures Copies(m, v) == Copies(m - {k}, v) + (if m[k] == v then 1 else 0) {
      var all := set j | j in m && m[j] == v;
      var rest := set j | j in m - {k} && (m - {k})[j] == v;
      if m[k] == v {
        assert all == rest + {k};
      } else {
        assert all == rest;
      }
    }
  }

  /** A map restricted to the documents whose value passes `p` holds each
      passing value as often as the whole map does, and no other value. */
  lemma CopiesOfRestriction<V>(m: map<string, V>, sub: map<string, V>, p: V -> bool)
    requires forall k :: k in sub <==> k in m && p(m[k])
    requires forall k :: k in sub ==> sub[k] == m[k]
    ensures forall v :: Copies(sub, v) == if p(v) then Copies(m, v) else 0
  {
    forall v ensures Copies(sub, v) == if p(v) then Copies(m, v) else 0 {
      var inSub := set j | j in sub && sub[j] == v;
      if p(v) {
        assert inSub == set j | j in m && m[j] == v;
      } else {
        assert inSub == {};
      }
    }
  }

  /** Putting one document's value before a listing of the others lists
      the whole map. */
  lemma ListingStep<V>(m: map<string, V>, k: string, rest: seq<V>)
    requires k in m
    requires |rest| == |m - {k}|
    requires forall v :: multiset(rest)[v] == Copies(m - {k}, v)
    requires forall x :: x in rest ==> x in (m - {k}).Values
    requires forall j :: j in m - {k} ==> (m - {k})[j] in rest
    ensures |[m[k]] + rest| == |m|
    ensures forall v :: multiset([m[k]] + rest)[v] == Copies(m, v)
    ensures forall x :: x in [m[k]] + rest ==> x in m.Values
    ensures forall j :: j in m ==> m[j] in [m[k]] + rest
  {
    var m' := m - {k};
    CopiesWithout(m, k);
    assert forall x :: x in m'.Values ==> x in m.Values by {
      forall x | x in m'.Values ensures x in m.Values {
        var j :| j in m' && m'[j] == x;
        assert j in m && m[j] == x;
      }
    }
    assert forall j :: j in m && j != k ==> j in m' && m'[j] == m[j];
  }

  /** The values of a map, one per document: each value occurs as often
      as documents hold it. */
  ghost function Listing<V(!new)>(m: map<string, V>): (vs: seq<V>)
    ensures |vs| == |m|
    ensures forall v :: multiset(vs)[v] == Copies(m, v)
    ensures forall x :: x in vs ==> x in m.Values
    ensures forall k :: k in m ==> m[k] in vs
    decreases |m|
  {
    if |m| == 0 then
      assert forall v :: Copies(m, v) == 0 by {
        forall v ensures Copies(m, v) == 0 { CopiesAtMost(m, v); }
      }
      []
    else
      var k := Pick(m);
      var rest := Listing(m - {k});
      ListingStep(m, k, rest);
      [m[k]] + rest
  }

  /** The values of a map ordered by `key`, largest first: the answer to a
      query with `orderBy(…, DESCENDING)`. */
  ghost function SortedValues<V(!new)>(m: map<string, V>, key: V -> int): (r: seq<V>)
    ensures SortedDesc(r, key)
    ensures |r| == |m|
    ensures forall v :: multiset(r)[v] == Copies(m, v)
    ensures forall x :: x in r ==> x in m.Values
    ensures forall k :: k in m ==> m[k] in r
  {
    SortDesc(Listing(m), key)
  }

  /** Two maps that agree away from `k` agree everywhere once `k` is
      given the same value in both. */
  lemma SameUpdate<V>(m1: map<string, V>, m2: map<string, V>, k: string, v: V)
    requires m1 - {k} == m2 - {k}
    ensures m1[k := v] == m2[k := v]
  {
    forall j | j != k ensures (j in m1 <==> j in m2) && (j in m1 ==> m1[j] == m2[j]) {
      assert j in m1 <==> j in m1 - {k};
      assert j in m2 <==> j in m2 - {k};
      if j in m1 {
        assert m1[j] == (m1 - {k})[j] == (m2 - {k})[j] == m2[j];
      }
    }
  }

  // ---------------------------------------------------------------------
  // Sums over the documents of a map

  /** The sum of `score` over the values of `m`. */
  ghost function SumOf<V>(m: map<string, V>, score: V -> real): real
    decreases |m|
  {
    if |m| == 0 then 0.0
    else
      var k := Pick(m);
      score(m[k]) + SumOf(m - {k}, score)
  }

  /** Some key of a non-empty map. */
  ghost function Pick<V>(m: map<string, V>): (k: string)
    requires |m| > 0
    ensures k in m
  {
    var k :| k in m; k
  }

  /** Some document comes first in the sum. */
  lemma SumOfSomeFirst<V>(m: map<string, V>, score: V -> real) returns (j: string)
    requires |m| > 0
    ensures j in m && SumOf(m, score) == score(m[j]) + SumOf(m - {j}, score)
  {
    j := Pick(m);
  }

  /** The sum does not depend on which document is taken first. */
  lemma {:induction false} SumOfRemove<V>(m: map<string, V>, score: V -> real, k: string)
    requires k in m
    ensures SumOf(m, score) == score(m[k]) + SumOf(m - {k}, score)
    decreases |m|, 1
  {
    var j := SumOfSomeFirst(m, score);
    if j != k {
      SumOfSwap(m, score, j, k);
    }
  }

  lemma {:induction false} SumOfSwap<V>(m: map<string, V>, score: V -> real, j: string, k: string)
    requires j in m && k in m && j != k
    ensures score(m[j]) + SumOf(m - {j}, score) == score(m[k]) + SumOf(m - {k}, score)
    decreases |m|, 0
  {
    var mj := m - {j};
    var mk := m - {k};
    assert k in mj && mj[k] == m[k] && |mj| < |m|;
    assert j in mk && mk[j] == m[j] && |mk| < |m|;
    SumOfRemove(mj, score, k);
    SumOfRemove(mk, score, j);
    assert mj - {k} == mk - {j};
  }

  /** Summing scores on the 0–5 star scale gives a total between 0 and
      five times the number of documents. */
  lemma {:induction false} SumOfStars<V>(m: map<string, V>, score: V -> real)
    requires forall k :: k in m ==> 0.0 <= score(m[k]) <= 5.0
    ensures 0.0 <= SumOf(m, score) <= 5.0 * |m| as real
    decreases |m|
  {
    if |m| > 0 {
      var j := SumOfSomeFirst(m, score);
      var rest := m - {j};
      assert forall k :: k in rest ==> k in m && rest[k] == m[k];
      SumOfStars(rest, score);
      assert |m| == |rest| + 1;
    }
  }

  /** Adding or replacing one document changes the sum by the difference. */
  lemma SumOfUpdate<V>(m: map<string, V>, score: V -> real, k: string, v: V)
    ensures SumOf(m[k := v], score) == score(v) + SumOf(m - {k}, score)
  {
    SumOfRemove(m[k := v], score, k);
    assert m[k := v] - {k} == m - {k};
  }
}

=== FILE: firebase_manager.dfy ===
/** The document store behind the app (the FirebaseManager class):
    five Firestore collections as maps from document id to record, plus
    the signed-in account. Every remote call that can fail takes a boolean
    saying whether it went through; an operation that throws leaves behind
    whatever it had already written. Document ids chosen by Firestore and
    the current time are parameters. */
module FirebaseManager {
  import opened Options
  import opened KtText
  import opened Collections
  import opened Models

  /** The signed-in account as Firebase Auth reports it. */
  datatype Account = Account(uid: string, email: Option<string>, displayName: Option<string>, photoUrl: Option<string>)

  /** The collections "users", "movies", "reviews", "ratings" and
      "watchlist", and the signed-in account. */
  datatype Store = Store(
    currentUser: Option<Account>,
    users: map<string, User>,
    movies: map<string, Movie>,
    reviews: map<string, Review>,
    ratings: map<string, UserRating>,
    watchlist: map<string, WatchlistItem>)

  /** What an operation that may throw leaves behind, and how it ended. */
  datatype Step<+T> = Step(store: Store, outcome: Outcome<T>)

  /** What an operation that reports failure as a value leaves behind. */
  datatype Reply<+T> = Reply(store: Store, value: T)

  function CurrentUid(st: Store): (r: Option<string>)
    ensures r.Some? <==> st.currentUser.Some?
    ensures r.Some? ==> r.value == st.currentUser.value.uid
  {
    match st.currentUser
    case None => None
    case Some(a) => Some(a.uid)
  }

  // ---------------------------------------------------------------------
  // Composite document ids

  /** The id of the rating and watchlist documents of one user and one
      movie: the two ids joined by an underscore. */
  function CompositeKey(userId: string, movieId: string): (k: string)
    ensures |k| == |userId| + 1 + |movieId|
    ensures k[..|userId|] == userId && k[|userId|] == '_' && k[|userId| + 1..] == movieId
  {
    userId + "_" + movieId
  }

  /** Distinct (user, movie) pairs get distinct ids as long as user ids
      contain no underscore (a modelling assumption: the sign-in methods used here produce alphanumeric uids). */
  lemma CompositeKeyInjective(u1: string, m1: string, u2: string, m2: string)
    requires '_' !in u1 && '_' !in u2
    ensures CompositeKey(u1, m1) == CompositeKey(u2, m2) ==> u1 == u2 && m1 == m2
  {
    var k1 := CompositeKey(u1, m1);
    var k2 := CompositeKey(u2, m2);
    if k1 == k2 {
      assert forall i :: 0 <= i < |u1| ==> k1[i] == u1[i] != '_';
      assert forall i :: 0 <= i < |u2| ==> k2[i] == u2[i] != '_';
      assert k1[|u1|] == '_' && k2[|u2|] == '_';
      assert |u1| == |u2|;
    }
  }

  /** Without that restriction two different pairs can share a document. */
  lemma CompositeKeyCollision()
    ensures CompositeKey("a_b", "c") == CompositeKey("a", "b_c")
  {
    assert CompositeKey("a_b", "c") == "a_b_c";
  }

  // ---------------------------------------------------------------------
  // Counters on the user document

  datatype Counter = ReviewCounter | WatchlistCounter

  function CounterValue(u: User, counter: Counter): int {
    match counter
    case ReviewCounter => u.totalReviews
    case WatchlistCounter => u.watchlistCount
  }

  /** `FieldValue.increment(delta)` on one counter field. */
  function Bumped(u: User, counter: Counter, delta: int): (r: User)
    ensures CounterValue(r, counter) == CounterValue(u, counter) + delta
    ensures forall c :: c != counter ==> CounterValue(r, c) == CounterValue(u, c)
    ensures r.(totalReviews := u.totalReviews, watchlistCount := u.watchlistCount) == u
  {
    match counter
    case ReviewCounter => u.(totalReviews := u.totalReviews + delta)
    case WatchlistCounter => u.(watchlistCount := u.watchlistCount + delta)
  }

  /** `update` of a counter of user `uid`; Firestore refuses to update a
      document that does not exist. */
  function Increment(st: Store, uid: string, counter: Counter, delta: int, ok: bool): (r: Step<()>)
    ensures r.outcome.Returned? <==> ok && uid in st.users
    ensures r.outcome.Threw? ==> r.store == st
    ensures r.store.(users := st.users) == st
    ensures r.store.users.Keys == st.users.Keys
    ensures forall u :: u in st.users && u != uid ==> r.store.users[u] == st.users[u]
    ensures r.outcome.Returned? ==> r.store.users[uid] == Bumped(st.users[uid], counter, delta)
  {
    if ok && uid in st.users then
      Step(st.(users := st.users[uid := Bumped(st.users[uid], counter, delta)]), Returned(()))
    else Step(st, Threw)
  }

  // ---------------------------------------------------------------------
  // Authentication and user documents

  /** The profile written for a new account. */
  function NewUser(uid: string, email: string, displayName: string, photoUrl: string, now: int): (u: User)
    ensures u.uid == uid && u.email == email && u.displayName == displayName && u.photoUrl == photoUrl
    ensures u.bio == "" && u.joinedDate == now
    ensures u.totalReviews == 0 && u.watchlistCount == 0
  {
    User(uid, email, displayName, photoUrl, "", now, 0, 0)
  }

  /** Signing in with e-mail and password; `answer` is what Firebase Auth
      returns. No document changes. */
  function SignInWithEmail(st: Store, answer: Outcome<Account>): (r: Step<()>)
    ensures r.outcome.Returned? <==> answer.Returned?
    ensures r.store.(currentUser := st.currentUser) == st
    ensures answer.Returned? ==> r.store.currentUser == Some(answer.value)
    ensures answer.Threw? ==> r.store == st
  {
    match answer
    case Returned(a) => Step(st.(currentUser := Some(a)), Returned(()))
    case Threw => Step(st, Threw)
  }

  /** Creating an account signs it in and then writes its profile with the
      given e-mail and name. */
  function SignUpWithEmail(st: Store, answer: Outcome<Account>, email: string, displayName: string,
                           now: int, writeOk: bool): (r: Step<()>)
    ensures r.outcome.Returned? <==> answer.Returned? && writeOk
    ensures answer.Threw? ==> r.store == st
    ensures answer.Returned? ==> r.store.currentUser == Some(answer.value)
    ensures r.store.(currentUser := st.currentUser, users := st.users) == st
    ensures r.outcome.Returned? ==>
      r.store.users == st.users[answer.value.uid := NewUser(answer.value.uid, email, displayName, "", now)]
    ensures r.outcome.Threw? ==> r.store.users == st.users
  {
    match answer
    case Threw => Step(st, Threw)
    case Returned(a) =>
      var signedIn := st.(currentUser := Some(a));
      if writeOk then
        Step(signedIn.(users := st.users[a.uid := NewUser(a.uid, email, displayName, "", now)]), Returned(()))
      else Step(signedIn, Threw)
  }

  /** Signing in with a Google credential: the profile is created from the
      account's own details when (and only when) none exists yet. */
  function SignInWithGoogle(st: Store, answer: Outcome<Account>, now: int, readOk: bool, writeOk: bool): (r: Step<()>)
    ensures answer.Threw? ==> r == Step(st, Threw)
    ensures answer.Returned? ==> r.store.currentUser == Some(answer.value)
    ensures r.store.(currentUser := st.currentUser, users := st.users) == st
    ensures r.outcome.Returned? <==>
      answer.Returned? && readOk && (answer.value.uid in st.users || writeOk)
  {
    match answer
    case Threw => Step(st, Threw)
    case Returned(a) =>
      var signedIn := st.(currentUser := Some(a));
      if !readOk then Step(signedIn, Threw)
      else if a.uid in st.users then Step(signedIn, Returned(()))
      else if !writeOk then Step(signedIn, Threw)
      else
        var profile := NewUser(a.uid, a.email.OrElse(""), a.displayName.OrElse(""), a.photoUrl.OrElse(""), now);
        Step(signedIn.(users := st.users[a.uid := profile]), Returned(()))
  }

  /** An existing profile is never overwritten; a missing one is created
      with the account's details (absent ones as ""). */
  lemma GoogleSignInKeepsProfiles(st: Store, answer: Outcome<Account>, now: int, readOk: bool, writeOk: bool)
    ensures answer.Returned? && answer.value.uid in st.users ==>
      SignInWithGoogle(st, answer, now, readOk, writeOk).store.users == st.users
    ensures forall u :: u in st.users ==>
      (u in SignInWithGoogle(st, answer, now, readOk, writeOk).store.users
       && SignInWithGoogle(st, answer, now, readOk, writeOk).store.users[u] == st.users[u])
    ensures answer.Returned? && answer.value.uid !in st.users && readOk && writeOk ==>
      var a := answer.value;
      SignInWithGoogle(st, answer, now, readOk, writeOk).store.users
        == st.users[a.uid := NewUser(a.uid, a.email.OrElse(""), a.displayName.OrElse(""), a.photoUrl.OrElse(""), now)]
  {
  }

  function SignOut(st: Store): (r: Store)
    ensures r.currentUser.None?
    ensures r.(currentUser := st.currentUser) == st
  {
    st.(currentUser := None)
  }

  /** Reading a profile; a failed read or a missing document gives null. */
  function GetUserData(st: Store, uid: string, readOk: bool): (r: Option<User>)
    ensures r.Some? <==> readOk && uid in st.users
    ensures r.Some? ==> r.value == st.users[uid]
  {
    if readOk && uid in st.users then Some(st.users[uid]) else None
  }

  /** After a successful sign-up the new profile reads back with both
      counters at zero. */
  lemma SignUpThenRead(st: Store, a: Account, email: string, displayName: string, now: int)
    ensures var r := SignUpWithEmail(st, Returned(a), email, displayName, now, true);
      var u := GetUserData(r.store, a.uid, true);
      u.Some? && u.value.email == email && u.value.displayName == displayName
      && u.value.totalReviews == 0 && u.value.watchlistCount == 0
  {
  }

  /** The profile fields an update may carry; absent ones are kept. */
  datatype ProfileUpdate = ProfileUpdate(displayName: Option<string>, photoUrl: Option<string>, bio: Option<string>)

  function ApplyUpdate(u: User, update: ProfileUpdate): (r: User)
    ensures r.displayName == update.displayName.OrElse(u.displayName)
    ensures r.photoUrl == update.photoUrl.OrElse(u.photoUrl)
    ensures r.bio == update.bio.OrElse(u.bio)
    ensures r.(displayName := u.displayName, photoUrl := u.photoUrl, bio := u.bio) == u
  {
    u.(displayName := update.displayName.OrElse(u.displayName),
       photoUrl := update.photoUrl.OrElse(u.photoUrl),
       bio := update.bio.OrElse(u.bio))
  }

  /** `update` of a profile: fails on a missing document, otherwise
      changes only the named fields of that one document. */
  function UpdateUserProfile(st: Store, uid: string, update: ProfileUpdate, ok: bool): (r: Step<()>)
    ensures r.outcome.Returned? <==> ok && uid in st.users
    ensures r.outcome.Threw? ==> r.store == st
    ensures r.store.(users := st.users) == st
    ensures r.store.users.Keys == st.users.Keys
    ensures forall u :: u in st.users && u != uid ==> r.store.users[u] == st.users[u]
    ensures r.outcome.Returned? ==> r.store.users[uid] == ApplyUpdate(st.users[uid], update)
  {
    if ok && uid in st.users then
      Step(st.(users := st.users[uid := ApplyUpdate(st.users[uid], update)]), Returned(()))
    else Step(st, Threw)
  }

  // ---------------------------------------------------------------------
  // Movies

  /** Every movie document, in the order Firestore returns them (left
      open); a failed read gives the empty list. */
  ghost function GetAllMovies(st: Store, readOk: bool): (r: seq<Movie>)
    ensures readOk ==> |r| == |st.movies|
    ensures !readOk ==> r == []
    ensures forall i :: 0 <= i < |r| ==> r[i] in st.movies.Values
    ensures readOk ==> forall id :: id in st.movies ==> st.movies[id] in r
    ensures readOk ==> forall m :: multiset(r)[m] == Copies(st.movies, m)
  {
    if readOk then Listing(st.movies) else []
  }

  function GetMovieById(st: Store, movieId: string, readOk: bool): (r: Option<Movie>)
    ensures r.Some? <==> readOk && movieId in st.movies
    ensures r.Some? ==> r.value == st.movies[movieId]
  {
    if readOk && movieId in st.movies then Some(st.movies[movieId]) else None
  }

  /** The search test: the query occurs, ignoring case under the case
      table `cs`, in the title, the director or one of the genres. */
  predicate MatchesQuery(cs: Casing, m: Movie, query: string) {
    ContainsIgnoreCase(cs, m.title, query) || ContainsIgnoreCase(cs, m.director, query)
    || exists g :: g in m.genre && ContainsIgnoreCase(cs, g, query)
  }

  /** The in-memory search filter over a list of movies. */
  function SearchFilter(cs: Casing, movies: seq<Movie>, query: string): (r: seq<Movie>)
    ensures forall m :: m in r <==> m in movies && MatchesQuery(cs, m, query)
    ensures forall m :: multiset(r)[m] == if MatchesQuery(cs, m, query) then multiset(movies)[m] else 0
    ensures IsSubsequence(r, movies)
  {
    FilterSeq(movies, m => MatchesQuery(cs, m, query))
  }

  /** `searchMovies`: the filter applied to every movie document. */
  ghost function SearchMovies(cs: Casing, st: Store, query: string, readOk: bool): (r: seq<Movie>)
    ensures forall m :: m in r ==> m in st.movies.Values && MatchesQuery(cs, m, query)
    ensures readOk ==> forall id :: id in st.movies && MatchesQuery(cs, st.movies[id], query) ==> st.movies[id] in r
    ensures readOk ==> forall m :: multiset(r)[m] == if MatchesQuery(cs, m, query) then Copies(st.movies, m) else 0
    ensures !readOk ==> r == []
  {
    SearchFilter(cs, GetAllMovies(st, readOk), query)
  }

  /** The empty query matches every movie, so it keeps the whole list. */
  lemma SearchEmptyQueryKeepsAll(cs: Casing, movies: seq<Movie>)
    ensures SearchFilter(cs, movies, "") == movies
  {
    forall m | m in movies ensures MatchesQuery(cs, m, "") {
      EmptyQueryMatches(cs, m.title);
    }
    FilterAll(movies, m => MatchesQuery(cs, m, ""));
  }

  // ---------------------------------------------------------------------
  // The aggregate rating of a movie

  function RatingScore(r: UserRating): real { r.rating }

  function ReviewScore(r: Review): real { r.rating }

  /** The rating documents of one movie (`whereEqualTo("movieId", …)`). */
  function RatingsFor(ratings: map<string, UserRating>, movieId: string): (r: map<string, UserRating>)
    ensures forall k :: k in r <==> k in ratings && ratings[k].movieId == movieId
    ensures forall k :: k in r ==> r[k] == ratings[k]
  {
    Where(ratings, (x: UserRating) => x.movieId == movieId)
  }

  /** The reviews of one movie. */
  function ReviewsFor(reviews: map<string, Review>, movieId: string): (r: map<string, Review>)
    ensures forall k :: k in r <==> k in reviews && reviews[k].movieId == movieId
    ensures forall k :: k in r ==> r[k] == reviews[k]
  {
    Where(reviews, (x: Review) => x.movieId == movieId)
  }

  /** How many values feed the movie's average. */
  function Contributions(st: Store, movieId: string): nat {
    |RatingsFor(st.ratings, movieId)| + |ReviewsFor(st.reviews, movieId)|
  }

  /** The sum of all rating documents and all review ratings of a movie. */
  ghost function TotalScore(st: Store, movieId: string): real {
    SumOf(RatingsFor(st.ratings, movieId), RatingScore) + SumOf(ReviewsFor(st.reviews, movieId), ReviewScore)
  }

  /** The mean of all rating documents and all review ratings of a movie. */
  ghost function MeanRating(st: Store, movieId: string): real
    requires Contributions(st, movieId) > 0
  {
    TotalScore(st, movieId) / Contributions(st, movieId) as real
  }

  /** Recomputes a movie's average rating and review count from the store.
      Any failure is swallowed; with nothing to average, or when the movie
      document is missing (the update fails), nothing changes. */
  ghost function UpdateMovieRating(st: Store, movieId: string, queryOk: bool, writeOk: bool): (r: Store)
    ensures r.(movies := st.movies) == st
    ensures r.movies.Keys == st.movies.Keys
    ensures forall id :: id in st.movies && id != movieId ==> r.movies[id] == st.movies[id]
    ensures !(queryOk && writeOk && movieId in st.movies && Contributions(st, movieId) > 0) ==> r == st
    ensures queryOk && writeOk && movieId in st.movies && Contributions(st, movieId) > 0 ==>
      r.movies[movieId].averageRating == MeanRating(st, movieId)
      && r.movies[movieId].totalReviews == |ReviewsFor(st.reviews, movieId)|
      && r.movies[movieId].(averageRating := st.movies[movieId].averageRating,
                            totalReviews := st.movies[movieId].totalReviews) == st.movies[movieId]
  {
    if queryOk && writeOk && movieId in st.movies && Contributions(st, movieId) > 0 then
      var m := st.movies[movieId];
      st.(movies := st.movies[movieId := m.(averageRating := MeanRating(st, movieId),
                                            totalReviews := |ReviewsFor(st.reviews, movieId)|)])
    else st
  }

  /** Every rating and review score lies on the 0–5 star scale. */
  predicate ScoresOnStarScale(st: Store) {
    (forall k :: k in st.ratings ==> 0.0 <= st.ratings[k].rating <= 5.0)
    && (forall k :: k in st.reviews ==> 0.0 <= st.reviews[k].rating <= 5.0)
  }

  /** A total of at most five per contribution averages to at most five. */
  lemma AverageOfStars(total: real, n: real)
    requires n > 0.0 && 0.0 <= total <= 5.0 * n
    ensures 0.0 <= total / n <= 5.0
  {
    assert total / n * n == total;
  }

  /** The mean of star-scale scores is itself on the star scale. */
  lemma MeanOnStarScale(st: Store, movieId: string)
    requires ScoresOnStarScale(st) && Contributions(st, movieId) > 0
    ensures 0.0 <= MeanRating(st, movieId) <= 5.0
  {
    var rs := RatingsFor(st.ratings, movieId);
    var vs := ReviewsFor(st.reviews, movieId);
    SumOfStars(rs, RatingScore);
    SumOfStars(vs, ReviewScore);
    AverageOfStars(TotalScore(st, movieId), Contributions(st, movieId) as real);
  }

  /** With star-scale inputs, a recomputed average stays on the 0–5 scale. */
  lemma UpdateMovieRatingOnStarScale(st: Store, movieId: string, queryOk: bool, writeOk: bool)
    requires ScoresOnStarScale(st)
    requires movieId in st.movies && 0.0 <= st.movies[movieId].averageRating <= 5.0
    ensures var r := UpdateMovieRating(st, movieId, queryOk, writeOk);
      0.0 <= r.movies[movieId].averageRating <= 5.0
  {
    if queryOk && writeOk && Contributions(st, movieId) > 0 {
      MeanOnStarScale(st, movieId);
    }
  }

  // ---------------------------------------------------------------------
  // Reviews

  /** `addReview`: stores the review under the fresh id `newId`, refreshes
      the movie's aggregate, then bumps the signed-in user's review counter.
      Returns `newId`. */
  ghost function AddReview(st: Store, review: Review, newId: string,
                           writeOk: bool, queryOk: bool, movieWriteOk: bool, counterOk: bool): (r: Step<string>)
    ensures !writeOk ==> r == Step(st, Threw)
    ensures writeOk ==> r.store.reviews == st.reviews[newId := review.(id := newId)]
    ensures writeOk ==>
      r.store.movies == UpdateMovieRating(st.(reviews := r.store.reviews), review.movieId, queryOk, movieWriteOk).movies
    ensures r.store.movies.Keys == st.movies.Keys
    ensures forall id :: id in st.movies && id != review.movieId ==> r.store.movies[id] == st.movies[id]
    ensures r.store.ratings == st.ratings && r.store.watchlist == st.watchlist
    ensures r.store.currentUser == st.currentUser
    ensures r.outcome.Returned? ==> r.outcome.value == newId
    ensures r.outcome.Returned? <==>
      writeOk && (st.currentUser.None? || (counterOk && st.currentUser.value.uid in st.users))
    ensures writeOk && st.currentUser.Some? && r.outcome.Returned? ==>
      var uid := st.currentUser.value.uid;
      r.store.users == st.users[uid := Bumped(st.users[uid], ReviewCounter, 1)]
    ensures !(writeOk && st.currentUser.Some? && r.outcome.Returned?) ==> r.store.users == st.users
  {
    if !writeOk then Step(st, Threw)
    else
      var saved := st.(reviews := st.reviews[newId := review.(id := newId)]);
      var refreshed := UpdateMovieRating(saved, review.movieId, queryOk, movieWriteOk);
      match refreshed.currentUser
      case None => Step(refreshed, Returned(newId))
      case Some(a) =>
        var bumped := Increment(refreshed, a.uid, ReviewCounter, 1, counterOk);
        Step(bumped.store, if bumped.outcome.Returned? then Returned(newId) else Threw)
  }

  /** `deleteReview`: deletes the document (deleting a missing one
      succeeds), refreshes the movie's aggregate, then decrements the
      signed-in user's review counter, whoever wrote the review. */
  ghost function DeleteReview(st: Store, reviewId: string, movieId: string,
                              deleteOk: bool, queryOk: bool, movieWriteOk: bool, counterOk: bool): (r: Step<()>)
    ensures !deleteOk ==> r == Step(st, Threw)
    ensures deleteOk ==> r.store.reviews == st.reviews - {reviewId}
    ensures deleteOk ==>
      r.store.movies == UpdateMovieRating(st.(reviews := r.store.reviews), movieId, queryOk, movieWriteOk).movies
    ensures r.store.movies.Keys == st.movies.Keys
    ensures forall id :: id in st.movies && id != movieId ==> r.store.movies[id] == st.movies[id]
    ensures r.store.ratings == st.ratings && r.store.watchlist == st.watchlist
    ensures r.store.currentUser == st.currentUser
    ensures r.outcome.Returned? <==>
      deleteOk && (st.currentUser.None? || (counterOk && st.currentUser.value.uid in st.users))
    ensures deleteOk && st.currentUser.Some? && r.outcome.Returned? ==>
      var uid := st.currentUser.value.uid;
      r.store.users == st.users[uid := Bumped(st.users[uid], ReviewCounter, -1)]
    ensures !(deleteOk && st.currentUser.Some? && r.outcome.Returned?) ==> r.store.users == st.users
  {
    if !deleteOk then Step(st, Threw)
    else
      var deleted := st.(reviews := st.reviews - {reviewId});
      var refreshed := UpdateMovieRating(deleted, movieId, queryOk, movieWriteOk);
      match refreshed.currentUser
      case None => Step(refreshed, Returned(()))
      case Some(a) => Increment(refreshed, a.uid, ReviewCounter, -1, counterOk)
  }

  /** The number of reviews written by `uid`. */
  function ReviewCountOf(st: Store, uid: string): nat {
    |set k | k in st.reviews && st.reviews[k].userId == uid|
  }

  /** The profile's review counter matches the reviews actually stored. */
  predicate ReviewCounterAccurate(st: Store, uid: string) {
    uid in st.users && st.users[uid].totalReviews == ReviewCountOf(st, uid)
  }

  /** Adding a review of one's own under a fresh id keeps the counter
      accurate, when every call goes through. */
  lemma AddReviewKeepsCounter(st: Store, review: Review, newId: string)
    requires st.currentUser.Some? && review.userId == st.currentUser.value.uid
    requires ReviewCounterAccurate(st, review.userId) && newId !in st.reviews
    ensures ReviewCounterAccurate(AddReview(st, review, newId, true, true, true, true).store, review.userId)
  {
    var uid := review.userId;
    var r := AddReview(st, review, newId, true, true, true, true).store;
    var before := set k | k in st.reviews && st.reviews[k].userId == uid;
    var after := set k | k in r.reviews && r.reviews[k].userId == uid;
    assert after == before + {newId};
    assert newId !in before;
  }

  /** Deleting one's own stored review keeps the counter accurate. */
  lemma DeleteReviewKeepsCounter(st: Store, reviewId: string, movieId: string)
    requires st.currentUser.Some? && reviewId in st.reviews
    requires st.reviews[reviewId].userId == st.currentUser.value.uid
    requires ReviewCounterAccurate(st, st.currentUser.value.uid)
    ensures ReviewCounterAccurate(DeleteReview(st, reviewId, movieId, true, true, true, true).store,
                                  st.currentUser.value.uid)
  {
    var uid := st.currentUser.value.uid;
    var r := DeleteReview(st, reviewId, movieId, true, true, true, true).store;
    var before := set k | k in st.reviews && st.reviews[k].userId == uid;
    var after := set k | k in r.reviews && r.reviews[k].userId == uid;
    assert before == after + {reviewId};
    assert reviewId !in after;
  }

  /** Deleting an id that is not stored still decrements the counter, so
      an accurate counter stops being accurate. */
  lemma DeleteMissingReviewDrifts(st: Store, reviewId: string, movieId: string)
    requires st.currentUser.Some? && reviewId !in st.reviews
    requires ReviewCounterAccurate(st, st.currentUser.value.uid)
    ensures var r := DeleteReview(st, reviewId, movieId, true, true, true, true).store;
      var uid := st.currentUser.value.uid;
      uid in r.users && r.users[uid].totalReviews == ReviewCountOf(r, uid) - 1
  {
    var r := DeleteReview(st, reviewId, movieId, true, true, true, true).store;
    assert r.reviews == st.reviews;
  }

  /** A review's like counter and its set of likers agree. */
  predicate LikesConsistent(r: Review) {
    r.likes == |r.likedBy| && NoDuplicates(r.likedBy)
  }

  /** `likes + 1` and `arrayUnion(userId)` on `likedBy`. */
  function Liked(r: Review, userId: string): (v: Review)
    ensures v.likes == r.likes + 1
    ensures userId in v.likedBy
    ensures forall u :: u in v.likedBy <==> u in r.likedBy || u == userId
    ensures v.(likes := r.likes, likedBy := r.likedBy) == r
  {
    r.(likes := r.likes + 1, likedBy := ArrayUnion(r.likedBy, userId))
  }

  /** `likes - 1` and `arrayRemove(userId)` on `likedBy`. */
  function Unliked(r: Review, userId: string): (v: Review)
    ensures v.likes == r.likes - 1
    ensures userId !in v.likedBy
    ensures forall u :: u in v.likedBy <==> u in r.likedBy && u != userId
    ensures v.(likes := r.likes, likedBy := r.likedBy) == r
  {
    r.(likes := r.likes - 1, likedBy := ArrayRemove(r.likedBy, userId))
  }

  /** `likeReview`: one `update` of the review document, which fails when
      the document is missing. */
  function LikeReview(st: Store, reviewId: string, userId: string, ok: bool): (r: Step<()>)
    ensures r.outcome.Returned? <==> ok && reviewId in st.reviews
    ensures r.outcome.Threw? ==> r.store == st
    ensures r.store.(reviews := st.reviews) == st
    ensures r.outcome.Returned? ==> r.store.reviews == st.reviews[reviewId := Liked(st.reviews[reviewId], userId)]
  {
    if ok && reviewId in st.reviews then
      Step(st.(reviews := st.reviews[reviewId := Liked(st.reviews[reviewId], userId)]), Returned(()))
    else Step(st, Threw)
  }

  /** `unlikeReview`, the mirror image. */
  function UnlikeReview(st: Store, reviewId: string, userId: string, ok: bool): (r: Step<()>)
    ensures r.outcome.Returned? <==> ok && reviewId in st.reviews
    ensures r.outcome.Threw? ==> r.store == st
    ensures r.store.(reviews := st.reviews) == st
    ensures r.outcome.Returned? ==> r.store.reviews == st.reviews[reviewId := Unliked(st.reviews[reviewId], userId)]
  {
    if ok && reviewId in st.reviews then
      Step(st.(reviews := st.reviews[reviewId := Unliked(st.reviews[reviewId], userId)]), Returned(()))
    else Step(st, Threw)
  }

  /** From a consistent review, a like keeps the counter in step exactly
      when the user had not liked it yet. */
  lemma LikeKeepsConsistency(r: Review, userId: string)
    requires LikesConsistent(r)
    ensures LikesConsistent(Liked(r, userId)) <==> userId !in r.likedBy
  {
  }

  /** From a consistent review, an unlike keeps the counter in step
      exactly when the user had liked it. */
  lemma UnlikeKeepsConsistency(r: Review, userId: string)
    requires LikesConsistent(r)
    ensures LikesConsistent(Unliked(r, userId)) <==> userId in r.likedBy
  {
    if userId in r.likedBy {
      ArrayRemovePresent(r.likedBy, userId);
    }
  }

  /** Liking twice counts two likes but records one liker. */
  lemma LikeTwiceDrifts(r: Review, userId: string)
    requires LikesConsistent(r) && userId !in r.likedBy
    ensures var v := Liked(Liked(r, userId), userId);
      v.likes == r.likes + 2 && |v.likedBy| == |r.likedBy| + 1 && !LikesConsistent(v)
  {
  }

  function ReviewTime(r: Review): int { r.timestamp }

  /** The reviews written by one user. */
  function ReviewsBy(reviews: map<string, Review>, userId: string): (r: map<string, Review>)
    ensures forall k :: k in r <==> k in reviews && reviews[k].userId == userId
    ensures forall k :: k in r ==> r[k] == reviews[k]
  {
    Where(reviews, (x: Review) => x.userId == userId)
  }

  /** The reviews of one movie, newest first; a failed query gives []. */
  ghost function GetMovieReviews(st: Store, movieId: string, readOk: bool): (r: seq<Review>)
    ensures SortedDesc(r, ReviewTime)
    ensures !readOk ==> r == []
    ensures readOk ==> |r| == |ReviewsFor(st.reviews, movieId)|
    ensures forall x :: x in r ==> x in st.reviews.Values && x.movieId == movieId
    ensures readOk ==> forall k :: k in st.reviews && st.reviews[k].movieId == movieId ==> st.reviews[k] in r
    ensures readOk ==> forall x :: multiset(r)[x] == if x.movieId == movieId then Copies(st.reviews, x) else 0
  {
    if readOk then
      var found := ReviewsFor(st.reviews, movieId);
      CopiesOfRestriction(st.reviews, found, (x: Review) => x.movieId == movieId);
      assert forall x :: x in found.Values ==> x in st.reviews.Values && x.movieId == movieId by {
        forall x | x in found.Values ensures x in st.reviews.Values && x.movieId == movieId {
          var k :| k in found && found[k] == x;
          assert k in st.reviews && st.reviews[k] == x;
        }
      }
      SortedValues(found, ReviewTime)
    else []
  }

  /** The reviews written by one user, newest first. */
  ghost function GetUserReviews(st: Store, userId: string, readOk: bool): (r: seq<Review>)
    ensures SortedDesc(r, ReviewTime)
    ensures !readOk ==> r == []
    ensures readOk ==> |r| == |ReviewsBy(st.reviews, userId)|
    ensures forall x :: x in r ==> x in st.reviews.Values && x.userId == userId
    ensures readOk ==> forall k :: k in st.reviews && st.reviews[k].userId == userId ==> st.reviews[k] in r
    ensures readOk ==> forall x :: multiset(r)[x] == if x.userId == userId then Copies(st.reviews, x) else 0
  {
    if readOk then
      var found := ReviewsBy(st.reviews, userId);
      CopiesOfRestriction(st.reviews, found, (x: Review) => x.userId == userId);
      assert forall x :: x in found.Values ==> x in st.reviews.Values && x.userId == userId by {
        forall x | x in found.Values ensures x in st.reviews.Values && x.userId == userId {
          var k :| k in found && found[k] == x;
          assert k in st.reviews && st.reviews[k] == x;
        }
      }
      SortedValues(found, ReviewTime)
    else []
  }


  // ---------------------------------------------------------------------
  // Ratings

  /** Rating documents sit under the composite id of their own user and
      movie, and user ids contain no underscore. */
  predicate RatingsKeyed(st: Store) {
    forall k :: k in st.ratings ==>
      '_' !in st.ratings[k].userId && k == CompositeKey(st.ratings[k].userId, st.ratings[k].movieId)
  }

  /** `addOrUpdateRating`: without a signed-in user nothing happens;
      otherwise the rating document under the composite id is overwritten
      and the movie's aggregate refreshed. */
  ghost function AddOrUpdateRating(st: Store, movieId: string, rating: real, now: int,
                                   writeOk: bool, queryOk: bool, movieWriteOk: bool): (r: Step<()>)
    ensures st.currentUser.None? ==> r == Step(st, Returned(()))
    ensures r.outcome.Threw? <==> st.currentUser.Some? && !writeOk
    ensures r.outcome.Threw? ==> r.store == st
    ensures r.store.(movies := st.movies, ratings := st.ratings) == st
    ensures st.currentUser.Some? && writeOk ==>
      var key := CompositeKey(st.currentUser.value.uid, movieId);
      r.store.ratings == st.ratings[key := UserRating(st.currentUser.value.uid, movieId, rating, now)]
    ensures st.currentUser.Some? && writeOk ==>
      r.store.movies == UpdateMovieRating(st.(ratings := r.store.ratings), movieId, queryOk, movieWriteOk).movies
    ensures r.store.movies.Keys == st.movies.Keys
    ensures forall id :: id in st.movies && id != movieId ==> r.store.movies[id] == st.movies[id]
  {
    match st.currentUser
    case None => Step(st, Returned(()))
    case Some(a) =>
      if !writeOk then Step(st, Threw)
      else
        var key := CompositeKey(a.uid, movieId);
        var saved := st.(ratings := st.ratings[key := UserRating(a.uid, movieId, rating, now)]);
        Step(UpdateMovieRating(saved, movieId, queryOk, movieWriteOk), Returned(()))
  }

  /** `getUserRating`: the signed-in user's rating of the movie, or null. */
  function GetUserRating(st: Store, movieId: string, readOk: bool): (r: Option<real>)
    ensures st.currentUser.None? || !readOk ==> r.None?
    ensures r.Some? <==>
      (st.currentUser.Some? && readOk && CompositeKey(st.currentUser.value.uid, movieId) in st.ratings)
    ensures r.Some? ==> r.value == st.ratings[CompositeKey(st.currentUser.value.uid, movieId)].rating
  {
    match st.currentUser
    case None => None
    case Some(a) =>
      var key := CompositeKey(a.uid, movieId);
      if readOk && key in st.ratings then Some(st.ratings[key].rating) else None
  }

  /** A rating that was written reads back, and no other rating document
      changes. */
  lemma RatingReadsBack(st: Store, movieId: string, rating: real, now: int, queryOk: bool, movieWriteOk: bool)
    requires st.currentUser.Some?
    ensures var r := AddOrUpdateRating(st, movieId, rating, now, true, queryOk, movieWriteOk).store;
      GetUserRating(r, movieId, true) == Some(rating)
      && forall k :: k != CompositeKey(st.currentUser.value.uid, movieId) ==>
           (k in r.ratings <==> k in st.ratings) && (k in st.ratings ==> r.ratings[k] == st.ratings[k])
  {
  }

  /** The recomputation overwrites whatever aggregate the movie had, so
      two stores that differ only there end up equal. */
  lemma UpdateMovieRatingOverwrites(a: Store, b: Store, movieId: string)
    requires a.(movies := b.movies) == b
    requires a.movies - {movieId} == b.movies - {movieId}
    requires movieId in a.movies <==> movieId in b.movies
    requires movieId in a.movies ==>
      a.movies[movieId].(averageRating := 0.0, totalReviews := 0) == b.movies[movieId].(averageRating := 0.0, totalReviews := 0)
    requires Contributions(a, movieId) > 0
    ensures UpdateMovieRating(a, movieId, true, true) == UpdateMovieRating(b, movieId, true, true)
  {
    if movieId in a.movies {
      OverwritesListedMovie(a, b, movieId);
    } else {
      OverwritesUnlistedMovie(a, b, movieId);
    }
  }

  lemma OverwritesUnlistedMovie(a: Store, b: Store, movieId: string)
    requires a.(movies := b.movies) == b
    requires a.movies - {movieId} == b.movies - {movieId}
    requires movieId !in a.movies && movieId !in b.movies
    ensures a == b
  {
    assert a.movies == b.movies by {
      assert a.movies == a.movies - {movieId} && b.movies == b.movies - {movieId};
    }
  }

  lemma OverwritesListedMovie(a: Store, b: Store, movieId: string)
    requires a.(movies := b.movies) == b
    requires a.movies - {movieId} == b.movies - {movieId}
    requires movieId in a.movies && movieId in b.movies
    requires a.movies[movieId].(averageRating := 0.0, totalReviews := 0) == b.movies[movieId].(averageRating := 0.0, totalReviews := 0)
    requires Contributions(a, movieId) > 0
    ensures UpdateMovieRating(a, movieId, true, true) == UpdateMovieRating(b, movieId, true, true)
  {
    assert a.ratings == b.ratings && a.reviews == b.reviews;
    var mean := MeanRating(a, movieId);
    assert MeanRating(b, movieId) == mean by {
      assert TotalScore(a, movieId) == TotalScore(b, movieId);
    }
    var count := |ReviewsFor(a.reviews, movieId)|;
    var x := a.movies[movieId].(averageRating := mean, totalReviews := count);
    assert x == b.movies[movieId].(averageRating := mean, totalReviews := count);
    SameUpdate(a.movies, b.movies, movieId, x);
  }

  /** Rating the same movie twice leaves the store as if only the later
      rating had been given: the later write wins. */
  lemma RatingLatestWins(st: Store, movieId: string, first: real, second: real, t1: int, t2: int)
    requires st.currentUser.Some?
    ensures var once := AddOrUpdateRating(st, movieId, second, t2, true, true, true).store;
      var twice := AddOrUpdateRating(
        AddOrUpdateRating(st, movieId, first, t1, true, true, true).store, movieId, second, t2, true, true, true).store;
      twice == once
  {
    var uid := st.currentUser.value.uid;
    var key := CompositeKey(uid, movieId);
    var s1 := AddOrUpdateRating(st, movieId, first, t1, true, true, true).store;
    var doc := UserRating(uid, movieId, second, t2);
    var saved1 := st.(ratings := st.ratings[key := doc]);
    var saved2 := s1.(ratings := s1.ratings[key := doc]);
    assert key in RatingsFor(saved1.ratings, movieId);
    UpdateMovieRatingOverwrites(saved1, saved2, movieId);
  }

  /** An upsert adds a contribution to the movie's average only when the
      user had not rated it before, and keeps the documents keyed. */
  lemma RatingCountsOnce(st: Store, movieId: string, rating: real, now: int, queryOk: bool, movieWriteOk: bool)
    requires st.currentUser.Some? && '_' !in st.currentUser.value.uid
    requires RatingsKeyed(st)
    ensures var r := AddOrUpdateRating(st, movieId, rating, now, true, queryOk, movieWriteOk).store;
      var key := CompositeKey(st.currentUser.value.uid, movieId);
      RatingsKeyed(r)
      && |RatingsFor(r.ratings, movieId)| == |RatingsFor(st.ratings, movieId)| + (if key in st.ratings then 0 else 1)
  {
    var uid := st.currentUser.value.uid;
    var key := CompositeKey(uid, movieId);
    var doc := UserRating(uid, movieId, rating, now);
    var r := AddOrUpdateRating(st, movieId, rating, now, true, queryOk, movieWriteOk).store;
    assert r.ratings == st.ratings[key := doc];
    RatingsForUpsert(st.ratings, key, doc);
    if key in st.ratings {
      var old_ := st.ratings[key];
      CompositeKeyInjective(old_.userId, old_.movieId, uid, movieId);
      assert key in RatingsFor(st.ratings, movieId);
    }
    assert RatingsKeyed(r) by {
      forall k | k in r.ratings
        ensures '_' !in r.ratings[k].userId && k == CompositeKey(r.ratings[k].userId, r.ratings[k].movieId)
      {
        if k != key { assert r.ratings[k] == st.ratings[k]; }
      }
    }
  }

  /** Writing a rating document of a movie adds it to that movie's
      ratings and leaves the rest of them alone. */
  lemma RatingsForUpsert(ratings: map<string, UserRating>, key: string, doc: UserRating)
    ensures RatingsFor(ratings[key := doc], doc.movieId) == RatingsFor(ratings, doc.movieId)[key := doc]
  {
    var a := RatingsFor(ratings[key := doc], doc.movieId);
    var b := RatingsFor(ratings, doc.movieId)[key := doc];
    assert a.Keys == b.Keys;
    forall k | k in a ensures a[k] == b[k] {
      if k != key { assert a[k] == ratings[k]; }
    }
  }

  // ---------------------------------------------------------------------
  // Watchlist

  /** Watchlist documents sit under the composite id of their own user and
      movie, which is also their `id` field. */
  predicate WatchlistKeyed(st: Store) {
    forall k :: k in st.watchlist ==>
      '_' !in st.watchlist[k].userId && st.watchlist[k].id == k
      && k == CompositeKey(st.watchlist[k].userId, st.watchlist[k].movieId)
  }

  /** The number of watchlist documents of `uid`. */
  function WatchlistCountOf(st: Store, uid: string): nat {
    |set k | k in st.watchlist && st.watchlist[k].userId == uid|
  }

  /** The profile's watchlist counter matches the documents stored. */
  predicate WatchlistCounterAccurate(st: Store, uid: string) {
    uid in st.users && st.users[uid].watchlistCount == WatchlistCountOf(st, uid)
  }

  /** `addToWatchlist`: writes the item under the composite id, then bumps
      the counter; true only when both succeed. */
  function AddToWatchlist(st: Store, movieId: string, now: int, writeOk: bool, counterOk: bool): (r: Reply<bool>)
    ensures st.currentUser.None? ==> r == Reply(st, false)
    ensures r.value <==> st.currentUser.Some? && writeOk && counterOk && st.currentUser.value.uid in st.users
    ensures r.store.(watchlist := st.watchlist, users := st.users) == st
    ensures st.currentUser.Some? && writeOk ==>
      var uid := st.currentUser.value.uid;
      var key := CompositeKey(uid, movieId);
      r.store.watchlist == st.watchlist[key := WatchlistItem(key, uid, movieId, now)]
    ensures !(st.currentUser.Some? && writeOk) ==> r.store == st
    ensures r.value ==>
      var uid := st.currentUser.value.uid;
      r.store.users == st.users[uid := Bumped(st.users[uid], WatchlistCounter, 1)]
    ensures !r.value ==> r.store.users == st.users
  {
    match st.currentUser
    case None => Reply(st, false)
    case Some(a) =>
      if !writeOk then Reply(st, false)
      else
        var key := CompositeKey(a.uid, movieId);
        var saved := st.(watchlist := st.watchlist[key := WatchlistItem(key, a.uid, movieId, now)]);
        var bumped := Increment(saved, a.uid, WatchlistCounter, 1, counterOk);
        Reply(bumped.store, bumped.outcome.Returned?)
  }

  /** `removeFromWatchlist`: deletes the item under the composite id (a
      missing one is no error), then decrements the counter. */
  function RemoveFromWatchlist(st: Store, movieId: string, deleteOk: bool, counterOk: bool): (r: Reply<bool>)
    ensures st.currentUser.None? ==> r == Reply(st, false)
    ensures r.value <==> st.currentUser.Some? && deleteOk && counterOk && st.currentUser.value.uid in st.users
    ensures r.store.(watchlist := st.watchlist, users := st.users) == st
    ensures st.currentUser.Some? && deleteOk ==>
      r.store.watchlist == st.watchlist - {CompositeKey(st.currentUser.value.uid, movieId)}
    ensures !(st.currentUser.Some? && deleteOk) ==> r.store == st
    ensures r.value ==>
      var uid := st.currentUser.value.uid;
      r.store.users == st.users[uid := Bumped(st.users[uid], WatchlistCounter, -1)]
    ensures !r.value ==> r.store.users == st.users
  {
    match st.currentUser
    case None => Reply(st, false)
    case Some(a) =>
      if !deleteOk then Reply(st, false)
      else
        var deleted := st.(watchlist := st.watchlist - {CompositeKey(a.uid, movieId)});
        var bumped := Increment(deleted, a.uid, WatchlistCounter, -1, counterOk);
        Reply(bumped.store, bumped.outcome.Returned?)
  }

  /** `isInWatchlist`: whether the composite-id document exists. */
  function IsInWatchlist(st: Store, movieId: string, readOk: bool): (r: bool)
    ensures r <==> st.currentUser.Some? && readOk && CompositeKey(st.currentUser.value.uid, movieId) in st.watchlist
  {
    match st.currentUser
    case None => false
    case Some(a) => readOk && CompositeKey(a.uid, movieId) in st.watchlist
  }

  function AddedDate(item: WatchlistItem): int { item.addedDate }

  /** The watchlist documents of one user. */
  function ItemsOf(watchlist: map<string, WatchlistItem>, uid: string): (r: map<string, WatchlistItem>)
    ensures forall k :: k in r <==> k in watchlist && watchlist[k].userId == uid
    ensures forall k :: k in r ==> r[k] == watchlist[k]
  {
    Where(watchlist, (x: WatchlistItem) => x.userId == uid)
  }

  /** The signed-in user's watchlist documents, most recently added first. */
  ghost function WatchlistItems(st: Store, readOk: bool): (r: seq<WatchlistItem>)
    ensures SortedDesc(r, AddedDate)
    ensures st.currentUser.None? || !readOk ==> r == []
    ensures st.currentUser.Some? && readOk ==> |r| == |ItemsOf(st.watchlist, st.currentUser.value.uid)|
    ensures forall x :: x in r ==> x in st.watchlist.Values && x.userId == st.currentUser.value.uid
    ensures st.currentUser.Some? && readOk ==>
      forall k :: k in st.watchlist && st.watchlist[k].userId == st.currentUser.value.uid ==> st.watchlist[k] in r
    ensures st.currentUser.Some? && readOk ==>
      forall x :: multiset(r)[x] == if x.userId == st.currentUser.value.uid then Copies(st.watchlist, x) else 0
  {
    match st.currentUser
    case None => []
    case Some(a) =>
      if !readOk then []
      else
        var found := ItemsOf(st.watchlist, a.uid);
        CopiesOfRestriction(st.watchlist, found, (x: WatchlistItem) => x.userId == a.uid);
        assert forall x :: x in found.Values ==> x in st.watchlist.Values && x.userId == a.uid by {
          forall x | x in found.Values ensures x in st.watchlist.Values && x.userId == a.uid {
            var k :| k in found && found[k] == x;
            assert k in st.watchlist && st.watchlist[k] == x;
          }
        }
        SortedValues(found, AddedDate)
  }

  /** `getWatchlist`: the movie ids of those documents, in that order. */
  ghost function GetWatchlist(st: Store, readOk: bool): (r: seq<string>)
    ensures |r| == |WatchlistItems(st, readOk)|
    ensures forall i :: 0 <= i < |r| ==> r[i] == WatchlistItems(st, readOk)[i].movieId
    ensures st.currentUser.None? || !readOk ==> r == []
  {
    MovieIds(WatchlistItems(st, readOk))
  }

  /** The movie ids of watch-list items, in order. */
  function MovieIds(items: seq<WatchlistItem>): (r: seq<string>)
    ensures |r| == |items|
    ensures forall i :: 0 <= i < |r| ==> r[i] == items[i].movieId
  {
    seq(|items|, i requires 0 <= i < |items| => items[i].movieId)
  }

  /** With keyed documents, `isInWatchlist` and membership in
      `getWatchlist` agree. */
  lemma WatchlistMembershipAgrees(st: Store, movieId: string)
    requires WatchlistKeyed(st) && st.currentUser.Some? && '_' !in st.currentUser.value.uid
    ensures IsInWatchlist(st, movieId, true) <==> movieId in GetWatchlist(st, true)
  {
    var uid := st.currentUser.value.uid;
    var key := CompositeKey(uid, movieId);
    var items := WatchlistItems(st, true);
    var ids := GetWatchlist(st, true);
    if key in st.watchlist {
      ListedWhenKeyed(st, movieId);
    }
    if movieId in ids {
      var i :| 0 <= i < |ids| && ids[i] == movieId;
      KeyedWhenListed(st, items[i]);
    }
  }

  lemma ListedWhenKeyed(st: Store, movieId: string)
    requires WatchlistKeyed(st) && st.currentUser.Some? && '_' !in st.currentUser.value.uid
    requires CompositeKey(st.currentUser.value.uid, movieId) in st.watchlist
    ensures movieId in GetWatchlist(st, true)
  {
    var uid := st.currentUser.value.uid;
    var key := CompositeKey(uid, movieId);
    var item := st.watchlist[key];
    CompositeKeyInjective(item.userId, item.movieId, uid, movieId);
    var items := WatchlistItems(st, true);
    assert item in items;
    var i :| 0 <= i < |items| && items[i] == item;
    assert GetWatchlist(st, true)[i] == movieId;
  }

  lemma KeyedWhenListed(st: Store, item: WatchlistItem)
    requires WatchlistKeyed(st) && st.currentUser.Some?
    requires item in WatchlistItems(st, true)
    ensures CompositeKey(st.currentUser.value.uid, item.movieId) in st.watchlist
  {
    var k :| k in st.watchlist && st.watchlist[k] == item;
    assert k == CompositeKey(item.userId, item.movieId);
  }

  /** After a write that went through, the movie is on the watchlist,
      whether or not the counter update then failed. */
  lemma AddThenIsIn(st: Store, movieId: string, now: int, counterOk: bool)
    requires st.currentUser.Some?
    ensures IsInWatchlist(AddToWatchlist(st, movieId, now, true, counterOk).store, movieId, true)
  {
  }

  /** After a delete that went through, the movie is not on the watchlist. */
  lemma RemoveThenNotIn(st: Store, movieId: string, counterOk: bool)
    ensures !IsInWatchlist(RemoveFromWatchlist(st, movieId, true, counterOk).store, movieId, true)
  {
  }

  /** Adding twice leaves the same membership as adding once. */
  lemma AddTwiceSameMembership(st: Store, movieId: string, t1: int, t2: int, other: string)
    requires st.currentUser.Some?
    ensures var once := AddToWatchlist(st, movieId, t2, true, true).store;
      var twice := AddToWatchlist(AddToWatchlist(st, movieId, t1, true, true).store, movieId, t2, true, true).store;
      twice.watchlist == once.watchlist
  {
  }

  /** Adding a movie that is not yet listed keeps an accurate counter
      accurate. */
  lemma AddKeepsCounter(st: Store, movieId: string, now: int)
    requires st.currentUser.Some? && WatchlistCounterAccurate(st, st.currentUser.value.uid)
    requires CompositeKey(st.currentUser.value.uid, movieId) !in st.watchlist
    ensures WatchlistCounterAccurate(AddToWatchlist(st, movieId, now, true, true).store, st.currentUser.value.uid)
  {
    var uid := st.currentUser.value.uid;
    var key := CompositeKey(uid, movieId);
    var r := AddToWatchlist(st, movieId, now, true, true).store;
    var before := set k | k in st.watchlist && st.watchlist[k].userId == uid;
    var after := set k | k in r.watchlist && r.watchlist[k].userId == uid;
    assert after == before + {key};
    assert key !in before;
  }

  /** Adding a movie that is already listed still bumps the counter, so an
      accurate counter ends up one too high. */
  lemma AddListedDrifts(st: Store, movieId: string, now: int)
    requires st.currentUser.Some? && WatchlistCounterAccurate(st, st.currentUser.value.uid)
    requires WatchlistKeyed(st) && '_' !in st.currentUser.value.uid
    requires CompositeKey(st.currentUser.value.uid, movieId) in st.watchlist
    ensures var r := AddToWatchlist(st, movieId, now, true, true).store;
      var uid := st.currentUser.value.uid;
      uid in r.users && r.users[uid].watchlistCount == WatchlistCountOf(r, uid) + 1
  {
    var uid := st.currentUser.value.uid;
    var key := CompositeKey(uid, movieId);
    var r := AddToWatchlist(st, movieId, now, true, true).store;
    var item := st.watchlist[key];
    CompositeKeyInjective(item.userId, item.movieId, uid, movieId);
    var before := set k | k in st.watchlist && st.watchlist[k].userId == uid;
    var after := set k | k in r.watchlist && r.watchlist[k].userId == uid;
    assert after == before;
  }

  /** Removing a listed movie keeps an accurate counter accurate. */
  lemma RemoveKeepsCounter(st: Store, movieId: string)
    requires st.currentUser.Some? && WatchlistCounterAccurate(st, st.currentUser.value.uid)
    requires WatchlistKeyed(st) && '_' !in st.currentUser.value.uid
    requires CompositeKey(st.currentUser.value.uid, movieId) in st.watchlist
    ensures WatchlistCounterAccurate(RemoveFromWatchlist(st, movieId, true, true).store, st.currentUser.value.uid)
  {
    var uid := st.currentUser.value.uid;
    var key := CompositeKey(uid, movieId);
    var r := RemoveFromWatchlist(st, movieId, true, true).store;
    var item := st.watchlist[key];
    CompositeKeyInjective(item.userId, item.movieId, uid, movieId);
    var before := set k | k in st.watchlist && st.watchlist[k].userId == uid;
    var after := set k | k in r.watchlist && r.watchlist[k].userId == uid;
    assert before == after + {key};
    assert key !in after;
  }

  /** A write that lands while the counter update fails leaves the counter
      one too low. */
  lemma AddWithFailedCounterDrifts(st: Store, movieId: string, now: int)
    requires st.currentUser.Some? && WatchlistCounterAccurate(st, st.currentUser.value.uid)
    requires CompositeKey(st.currentUser.value.uid, movieId) !in st.watchlist
    ensures var r := AddToWatchlist(st, movieId, now, true, false);
      var uid := st.currentUser.value.uid;
      !r.value && uid in r.store.users && r.store.users[uid].watchlistCount == WatchlistCountOf(r.store, uid) - 1
  {
    var uid := st.currentUser.value.uid;
    var key := CompositeKey(uid, movieId);
    var r := AddToWatchlist(st, movieId, now, true, false).store;
    var before := set k | k in st.watchlist && st.watchlist[k].userId == uid;
    var after := set k | k in r.watchlist && r.watchlist[k].userId == uid;
    assert after == before + {key};
    assert key !in before;
  }
}

=== FILE: kt_text.dfy ===
/** The parts of the Kotlin standard library's string handling that the
    application relies on: `trim`, `toIntOrNull`, `toDoubleOrNull`,
    `split`, `replace`, `joinToString`, `contains(…, ignoreCase = true)`,
    `Int.toString` and `String.length`, each stated over Dafny strings. */
module KtText {
  import opened Options

  /** Bounds of Kotlin's 32-bit `Int`. */
  const IntMin: int := -0x8000_0000
  const IntMax: int := 0x7FFF_FFFF

  // ---------------------------------------------------------------------
  // Whitespace and trim

  /** Kotlin's `Char.isWhitespace()` on the JVM: Java whitespace (tab to
      carriage return, the four information separators) or a Unicode space,
      line or paragraph separator. Unlike Java's own `isWhitespace`, the
      no-break spaces count; no letter or digit does. */
  predicate IsWhitespace(c: char): (b: bool)
    ensures b ==> c <= '\U{20}' || c == '\U{A0}' || '\U{1680}' <= c <= '\U{3000}'
    ensures c == '\U{A0}' || c == '\U{2007}' || c == '\U{202F}' ==> b
    ensures ('0' <= c <= '9') || ('A' <= c <= 'Z') || ('a' <= c <= 'z') ==> !b
  {
    || c == ' '
    || ('\t' <= c <= '\r')
    || ('\U{1C}' <= c <= '\U{1F}')
    || c == '\U{A0}'
    || c == '\U{1680}'
    || ('\U{2000}' <= c <= '\U{200A}')
    || c == '\U{2028}'
    || c == '\U{2029}'
    || c == '\U{202F}'
    || c == '\U{205F}'
    || c == '\U{3000}'
  }

  predicate NoWhitespace(s: string) {
    forall i :: 0 <= i < |s| ==> !IsWhitespace(s[i])
  }

  /** Drops the leading whitespace. */
  function TrimStart(s: string): (r: string)
    ensures |r| <= |s| && r == s[|s| - |r|..]
    ensures forall i :: 0 <= i < |s| - |r| ==> IsWhitespace(s[i])
    ensures |r| > 0 ==> !IsWhitespace(r[0])
  {
    if |s| > 0 && IsWhitespace(s[0]) then TrimStart(s[1..]) else s
  }

  /** Drops the trailing whitespace. */
  function TrimEnd(s: string): (r: string)
    ensures |r| <= |s| && r == s[..|r|]
    ensures forall i :: |r| <= i < |s| ==> IsWhitespace(s[i])
    ensures |r| > 0 ==> !IsWhitespace(r[|r| - 1])
  {
    if |s| > 0 && IsWhitespace(s[|s| - 1]) then TrimEnd(s[..|s| - 1]) else s
  }

  /** Kotlin's `String.trim()`: the text between the leading and the
      trailing whitespace. */
  function Trim(s: string): (r: string)
    ensures |r| > 0 ==> !IsWhitespace(r[0]) && !IsWhitespace(r[|r| - 1])
  {
    TrimEnd(TrimStart(s))
  }

  lemma {:induction false} TrimStartExactly(s: string, lo: nat)
    requires lo < |s| && !IsWhitespace(s[lo])
    requires forall i :: 0 <= i < lo ==> IsWhitespace(s[i])
    ensures TrimStart(s) == s[lo..]
    decreases lo
  {
    if lo > 0 {
      TrimStartExactly(s[1..], lo - 1);
      assert s[1..][lo - 1..] == s[lo..];
    }
  }

  lemma {:induction false} TrimEndExactly(s: string, hi: nat)
    requires 0 < hi <= |s| && !IsWhitespace(s[hi - 1])
    requires forall i :: hi <= i < |s| ==> IsWhitespace(s[i])
    ensures TrimEnd(s) == s[..hi]
    decreases |s| - hi
  {
    if hi < |s| {
      TrimEndExactly(s[..|s| - 1], hi);
      assert s[..|s| - 1][..hi] == s[..hi];
    }
  }

  /** The trimmed text is exactly the slice between whitespace-only
      margins whose ends are not whitespace: an independent statement of
      what `Trim` computes. */
  lemma TrimIsInnerSlice(s: string, lo: nat, hi: nat)
    requires lo < hi <= |s|
    requires !IsWhitespace(s[lo]) && !IsWhitespace(s[hi - 1])
    requires forall i :: 0 <= i < lo ==> IsWhitespace(s[i])
    requires forall i :: hi <= i < |s| ==> IsWhitespace(s[i])
    ensures Trim(s) == s[lo..hi]
  {
    TrimStartExactly(s, lo);
    TrimSuffixOfSlice(s, lo, hi);
  }

  lemma TrimSuffixOfSlice(s: string, lo: nat, hi: nat)
    requires lo < hi <= |s|
    requires !IsWhitespace(s[hi - 1])
    requires forall i :: hi <= i < |s| ==> IsWhitespace(s[i])
    ensures TrimEnd(s[lo..]) == s[lo..hi]
  {
    var m := s[lo..];
    assert m[hi - lo - 1] == s[hi - 1];
    assert forall i :: hi - lo <= i < |m| ==> m[i] == s[lo + i];
    TrimEndExactly(m, hi - lo);
    assert m[..hi - lo] == s[lo..hi];
  }

  /** Text that is all whitespace trims to the empty string. */
  lemma {:induction false} TrimAllWhitespace(s: string)
    requires forall i :: 0 <= i < |s| ==> IsWhitespace(s[i])
    ensures Trim(s) == ""
    decreases |s|
  {
    if |s| > 0 {
      TrimAllWhitespace(s[1..]);
    }
  }

  /** `Trim` gives the empty string exactly for all-whitespace text. */
  lemma TrimEmptyIff(s: string)
    ensures Trim(s) == "" <==> forall i :: 0 <= i < |s| ==> IsWhitespace(s[i])
  {
    var t := TrimStart(s);
    if TrimEnd(t) == "" {
      assert |t| == 0;
    }
    if forall i :: 0 <= i < |s| ==> IsWhitespace(s[i]) {
      TrimAllWhitespace(s);
    }
  }

  /** Text without whitespace is left alone by `Trim`. */
  lemma TrimNoWhitespace(s: string)
    requires NoWhitespace(s)
    ensures Trim(s) == s
  {
    if |s| > 0 {
      TrimIsInnerSlice(s, 0, |s|);
    }
  }

  /** `Trim` is idempotent. */
  lemma TrimIdempotent(s: string)
    ensures Trim(Trim(s)) == Trim(s)
  {
    var t := Trim(s);
    if |t| > 0 {
      TrimIsInnerSlice(t, 0, |t|);
    }
  }

  // ---------------------------------------------------------------------
  // UTF-16 length

  /** Kotlin's `String.length`: UTF-16 code units, so a character outside
      the Basic Multilingual Plane counts twice. */
  function Utf16Length(s: string): (n: nat)
    ensures |s| <= n <= 2 * |s|
    ensures (forall i :: 0 <= i < |s| ==> s[i] as int < 0x1_0000) ==> n == |s|
  {
    if |s| == 0 then 0
    else (if s[0] as int < 0x1_0000 then 1 else 2) + Utf16Length(s[1..])
  }

  /** The length of a concatenation is the sum of the lengths. */
  lemma {:induction false} Utf16LengthOfConcat(a: string, b: string)
    ensures Utf16Length(a + b) == Utf16Length(a) + Utf16Length(b)
  {
    if |a| > 0 {
      assert (a + b)[1..] == a[1..] + b;
      Utf16LengthOfConcat(a[1..], b);
    } else {
      assert a + b == b;
    }
  }

  // ---------------------------------------------------------------------
  // Decimal digits, Int.toString and toIntOrNull

  predicate IsDigit(c: char) {
    '0' <= c <= '9'
  }

  predicate AllDigits(s: string) {
    forall i :: 0 <= i < |s| ==> IsDigit(s[i])
  }

  function DigitValue(c: char): (d: nat)
    requires IsDigit(c)
    ensures d < 10
  {
    c as int - '0' as int
  }

  function DigitChar(d: nat): (c: char)
    requires d < 10
    ensures IsDigit(c) && DigitValue(c) == d
  {
    ('0' as int + d) as char
  }

  /** The value of a string of decimal digits, most significant first. */
  function DigitsValue(s: string): nat
    requires AllDigits(s)
  {
    if |s| == 0 then 0 else DigitsValue(s[..|s| - 1]) * 10 + DigitValue(s[|s| - 1])
  }

  /** Decimal rendering of a natural number, without leading zeros. */
  function NatToString(n: nat): (r: string)
    ensures |r| > 0 && AllDigits(r)
    ensures DigitsValue(r) == n
    ensures r[0] == '0' ==> n == 0
  {
    if n < 10 then [DigitChar(n)]
    else
      var p := NatToString(n / 10);
      var r := p + [DigitChar(n % 10)];
      assert r[..|r| - 1] == p;
      r
  }

  /** Kotlin's `Int.toString()`: a minus sign for negative values, then
      the digits. */
  function IntToString(n: int): (r: string)
    ensures |r| > 0 && NoWhitespace(r)
    ensures n < 0 <==> r[0] == '-'
    ensures n < 0 ==> AllDigits(r[1..]) && DigitsValue(r[1..]) == -n
    ensures n >= 0 ==> AllDigits(r) && DigitsValue(r) == n
  {
    if n < 0 then "-" + NatToString(-n) else NatToString(n)
  }

  /** Applies a sign to a digit string, keeping it only when the value
      fits an `Int`. */
  function SignedDigits(digits: string, negative: bool): (r: Option<int>)
    ensures r.Some? ==> IntMin <= r.value <= IntMax
    ensures r.Some? ==> |digits| > 0 ==> AllDigits(digits)
  {
    if !AllDigits(digits) then None
    else
      var v: int := if negative then -(DigitsValue(digits) as int) else DigitsValue(digits);
      if IntMin <= v <= IntMax then Some(v) else None
  }

  /** Kotlin's `String.toIntOrNull()` in radix 10: an optional sign, then
      one or more digits, and the value must fit an `Int`; anything else,
      including surrounding whitespace, gives `null`. */
  function ToIntOrNull(s: string): (r: Option<int>)
    ensures r.Some? ==> IntMin <= r.value <= IntMax
    ensures r.Some? ==> |s| > 0 && NoWhitespace(s)
  {
    if |s| == 0 then None
    else if s[0] < '0' then
      if |s| == 1 then None
      else if s[0] == '-' then SignedDigits(s[1..], true)
      else if s[0] == '+' then SignedDigits(s[1..], false)
      else None
    else SignedDigits(s, false)
  }

  /** Parsing what `Int.toString` rendered gives back the number. */
  lemma ParseRendered(n: int)
    requires IntMin <= n <= IntMax
    ensures ToIntOrNull(IntToString(n)) == Some(n)
  {
    var s := IntToString(n);
    if n < 0 {
      assert s[1..] == NatToString(-n);
    }
  }

  lemma {:induction false} ZeroValueMeansZeroDigits(d: string)
    requires AllDigits(d) && DigitsValue(d) == 0
    ensures forall i :: 0 <= i < |d| ==> d[i] == '0'
  {
    if |d| > 0 {
      ZeroValueMeansZeroDigits(d[..|d| - 1]);
      assert forall i :: 0 <= i < |d| - 1 ==> d[i] == d[..|d| - 1][i];
    }
  }

  /** A digit string without a leading zero is the rendering of its value:
      the converse of `NatToString`'s contract. */
  lemma {:induction false} RenderDigits(d: string)
    requires |d| > 0 && AllDigits(d)
    requires d[0] == '0' ==> |d| == 1
    ensures NatToString(DigitsValue(d)) == d
    decreases |d|
  {
    if |d| > 1 {
      var p := d[..|d| - 1];
      assert p[0] == d[0];
      if DigitsValue(p) == 0 {
        ZeroValueMeansZeroDigits(p);
        assert false;
      }
      RenderDigits(p);
      var v := DigitsValue(d);
      assert v / 10 == DigitsValue(p) && v % 10 == DigitValue(d[|d| - 1]);
      assert d == p + [d[|d| - 1]];
    }
  }

  // ---------------------------------------------------------------------
  // Occurrences, indexOf, split, joinToString, replace

  /** `d` occurs in `s` starting at index `i`. */
  predicate StartsAt(s: string, d: string, i: nat) {
    i + |d| <= |s| && s[i..i + |d|] == d
  }

  /** Kotlin's `indexOf(d, from)`: the first occurrence at or after `from`. */
  function IndexOfFrom(s: string, d: string, from: nat): (r: Option<nat>)
    decreases |s| - from
    ensures r.Some? ==> from <= r.value && StartsAt(s, d, r.value)
    ensures r.Some? ==> forall j :: from <= j < r.value ==> !StartsAt(s, d, j)
    ensures r.None? ==> forall j :: from <= j ==> !StartsAt(s, d, j)
  {
    if from + |d| > |s| then None
    else if StartsAt(s, d, from) then Some(from)
    else IndexOfFrom(s, d, from + 1)
  }

  /** Kotlin's case-sensitive `contains`. */
  predicate Contains(s: string, d: string) {
    IndexOfFrom(s, d, 0).Some?
  }

  /** An occurrence of a non-empty `d` begins with `d`'s first character. */
  lemma OccurrenceHasFirstChar(s: string, d: string)
    requires |d| > 0
    ensures Contains(s, d) ==> exists i :: 0 <= i < |s| && s[i] == d[0]
  {
    var r := IndexOfFrom(s, d, 0);
    if r.Some? {
      assert s[r.value..r.value + |d|][0] == s[r.value];
    }
  }

  /** A string none of whose characters starts `d` does not contain it. */
  lemma NotContainsWithoutFirstChar(s: string, d: string)
    requires |d| > 0
    requires forall i :: 0 <= i < |s| ==> s[i] != d[0]
    ensures !Contains(s, d)
  {
    OccurrenceHasFirstChar(s, d);
  }

  /** An occurrence inside a prefix is an occurrence in the whole string. */
  lemma PrefixOccurrence(s: string, d: string, i: nat)
    requires i <= |s|
    ensures Contains(s[..i], d) ==> exists j: nat :: j + |d| <= i && StartsAt(s, d, j)
  {
    if Contains(s[..i], d) {
      var j := IndexOfFrom(s[..i], d, 0).value;
      assert s[..i][j..j + |d|] == s[j..j + |d|];
      assert StartsAt(s, d, j);
    }
  }

  /** The summed lengths of some strings. */
  function TotalLength(parts: seq<string>): nat {
    if |parts| == 0 then 0 else |parts[0]| + TotalLength(parts[1..])
  }

  /** Kotlin's `joinToString(sep)`: the parts in order, with the separator
      between neighbours and nowhere else. */
  function Join(parts: seq<string>, sep: string): (r: string)
    ensures |parts| == 0 ==> r == ""
    ensures |parts| == 1 ==> r == parts[0]
  {
    if |parts| == 0 then ""
    else if |parts| == 1 then parts[0]
    else parts[0] + sep + Join(parts[1..], sep)
  }

  /** A joined text starts with the first part, ends with the last, and
      is as long as the parts plus one separator between each pair of neighbours. */
  lemma {:induction false} JoinLayout(parts: seq<string>, sep: string)
    requires |parts| > 0
    ensures |Join(parts, sep)| == TotalLength(parts) + (|parts| - 1) * |sep|
    ensures Join(parts, sep)[..|parts[0]|] == parts[0]
    ensures |parts[|parts| - 1]| <= |Join(parts, sep)|
    ensures Join(parts, sep)[|Join(parts, sep)| - |parts[|parts| - 1]|..] == parts[|parts| - 1]
  {
    if |parts| > 1 {
      var rest := Join(parts[1..], sep);
      JoinLayout(parts[1..], sep);
      assert parts[1..][|parts[1..]| - 1] == parts[|parts| - 1];
      assert TotalLength(parts) == |parts[0]| + TotalLength(parts[1..]);
      var r := parts[0] + sep + rest;
      assert r[|r| - |rest|..] == rest;
    }
  }

  /** Kotlin's `split(d)` for a non-empty delimiter: the pieces between
      successive left-to-right, non-overlapping occurrences of `d`. Joining
      them back with `d` restores the input, and no piece contains `d`. */
  function Split(s: string, d: string): (parts: seq<string>)
    requires |d| > 0
    decreases |s|
    ensures |parts| > 0
    ensures Join(parts, d) == s
    ensures forall k :: 0 <= k < |parts| ==> !Contains(parts[k], d)
  {
    match IndexOfFrom(s, d, 0)
    case None => [s]
    case Some(i) =>
      var rest := Split(s[i + |d|..], d);
      var parts := [s[..i]] + rest;
      assert parts[1..] == rest;
      assert s == s[..i] + d + s[i + |d|..] by {
        assert s[i..i + |d|] == d;
      }
      PrefixOccurrence(s, d, i);
      parts
  }

  /** `d` overlaps no shifted copy of itself, as ", " and " min" do not. */
  predicate Unbordered(d: string) {
    forall k :: 0 < k < |d| ==> d[k..] != d[..|d| - k]
  }

  /** An occurrence of `d` in `p + d + t` that starts inside `p` either
      lies wholly in `p` or overlaps a shifted copy of `d` with itself. */
  lemma EarlyOccurrence(p: string, d: string, t: string, j: nat)
    requires j < |p|
    ensures StartsAt(p + d + t, d, j) ==>
      StartsAt(p, d, j) || exists k :: 0 < k < |d| && d[k..] == d[..|d| - k]
  {
    var s := p + d + t;
    if StartsAt(s, d, j) {
      if j + |d| <= |p| {
        assert p[j..j + |d|] == s[j..j + |d|];
      } else {
        var k := |p| - j;
        assert s[j..j + |d|][k..] == s[|p|..j + |d|] == d[..|d| - k];
        assert s[j..j + |d|][k..] == d[k..];
      }
    }
  }

  /** In `p + d + t` with `p` free of `d` and `d` unbordered, the first
      occurrence of `d` is the one right after `p`. */
  lemma FirstOccurrenceAfter(p: string, d: string, t: string)
    requires |d| > 0 && Unbordered(d) && !Contains(p, d)
    ensures IndexOfFrom(p + d + t, d, 0) == Some(|p|)
  {
    var s := p + d + t;
    assert s[|p|..|p| + |d|] == d;
    assert StartsAt(s, d, |p|);
    forall j | 0 <= j < |p|
      ensures !StartsAt(s, d, j)
    {
      EarlyOccurrence(p, d, t, j);
    }
    var r := IndexOfFrom(s, d, 0);
    assert r.Some?;
    assert r.value <= |p|;
    assert r.value >= |p|;
  }

  /** Splitting a join recovers the pieces when none contains an
      unbordered delimiter: the other half of the `Split`/`Join` round trip. */
  lemma {:induction false} SplitOfJoin(parts: seq<string>, d: string)
    requires |d| > 0 && Unbordered(d) && |parts| > 0
    requires forall k :: 0 <= k < |parts| ==> !Contains(parts[k], d)
    ensures Split(Join(parts, d), d) == parts
    decreases |parts|
  {
    if |parts| > 1 {
      var p := parts[0];
      var t := Join(parts[1..], d);
      FirstOccurrenceAfter(p, d, t);
      var s := p + d + t;
      assert s[..|p|] == p;
      assert s[|p| + |d|..] == t;
      SplitOfJoin(parts[1..], d);
      assert parts == [p] + parts[1..];
    } else {
      assert IndexOfFrom(parts[0], d, 0).None?;
    }
  }

  /** Kotlin's `replace(target, replacement)`: every left-to-right, non-overlapping
      occurrence of a non-empty `target` becomes `replacement`. */
  function ReplaceAll(s: string, target: string, replacement: string): (r: string)
    requires |target| > 0
    ensures !Contains(s, target) ==> r == s
  {
    Join(Split(s, target), replacement)
  }

  /** The first field of Kotlin's `split(d1, d2, …)`: the text before the
      earliest index at which any delimiter starts. */
  predicate AnyStartsAt(s: string, ds: seq<string>, i: nat) {
    exists k :: 0 <= k < |ds| && StartsAt(s, ds[k], i)
  }

  function FirstFieldEnd(s: string, ds: seq<string>, from: nat): (e: nat)
    requires from <= |s|
    decreases |s| - from
    ensures from <= e <= |s|
    ensures forall j :: from <= j < e ==> !AnyStartsAt(s, ds, j)
    ensures e < |s| ==> AnyStartsAt(s, ds, e)
  {
    if from == |s| || AnyStartsAt(s, ds, from) then from
    else FirstFieldEnd(s, ds, from + 1)
  }

  function FirstField(s: string, ds: seq<string>): (r: string)
    ensures |r| <= |s| && r == s[..|r|]
    ensures forall j :: 0 <= j < |r| ==> !AnyStartsAt(s, ds, j)
    ensures |r| < |s| ==> AnyStartsAt(s, ds, |r|)
  {
    s[..FirstFieldEnd(s, ds, 0)]
  }

  // ---------------------------------------------------------------------
  // Case-insensitive matching

  /** The platform's simple case mappings, `Character.toUpperCase(char)`
      and `Character.toLowerCase(char)`. They are Unicode tables, so the
      model takes them as a parameter. */
  datatype Casing = Casing(upper: char -> char, lower: char -> char)

  /** Upper-casing an upper-case form changes nothing, as in the Unicode
      simple mappings. */
  predicate UpperStable(cs: Casing) {
    forall c :: cs.upper(cs.upper(c)) == cs.upper(c)
  }

  /** The Latin-1 part of the Unicode upper-case mapping; characters above
      U+00FF are left alone. */
  function Latin1Upper(c: char): char {
    if 'a' <= c <= 'z' || ('\U{E0}' <= c <= '\U{FE}' && c != '\U{F7}') then (c as int - 32) as char
    else if c == '\U{FF}' then '\U{178}'
    else if c == '\U{B5}' then '\U{39C}'
    else c
  }

  /** The Latin-1 part of the Unicode lower-case mapping. */
  function Latin1Lower(c: char): char {
    if 'A' <= c <= 'Z' || ('\U{C0}' <= c <= '\U{DE}' && c != '\U{D7}') then (c as int + 32) as char
    else c
  }

  /** A case table that agrees with the platform's on U+0000 to U+00FF. */
  const Latin1Casing: Casing := Casing(Latin1Upper, Latin1Lower)

  lemma Latin1CasingUpperStable()
    ensures UpperStable(Latin1Casing)
  {
  }

  /** Kotlin's `Char.equals(other, ignoreCase = true)`, as Java's
      `regionMatches` applies it: equal, equal in upper case, or equal once
      the upper-case forms are lowered. */
  predicate CharEqualsIgnoreCase(cs: Casing, a: char, b: char) {
    || a == b
    || cs.upper(a) == cs.upper(b)
    || cs.lower(cs.upper(a)) == cs.lower(cs.upper(b))
  }

  /** Upper-casing one side does not change the verdict. */
  lemma CharEqualsIgnoreCaseOfUpper(cs: Casing, a: char, b: char)
    requires UpperStable(cs)
    ensures CharEqualsIgnoreCase(cs, a, cs.upper(b)) <==> CharEqualsIgnoreCase(cs, a, b)
  {
    assert cs.upper(cs.upper(b)) == cs.upper(b);
    if a == cs.upper(b) {
      assert cs.upper(a) == cs.upper(b);
    }
  }

  predicate RegionMatchesIgnoreCase(cs: Casing, s: string, i: nat, q: string) {
    i + |q| <= |s| && forall k :: 0 <= k < |q| ==> CharEqualsIgnoreCase(cs, s[i + k], q[k])
  }

  function ContainsIgnoreCaseFrom(cs: Casing, s: string, q: string, from: nat): (b: bool)
    decreases |s| - from
    ensures b <==> exists i :: from <= i && RegionMatchesIgnoreCase(cs, s, i, q)
  {
    if from + |q| > |s| then false
    else RegionMatchesIgnoreCase(cs, s, from, q) || ContainsIgnoreCaseFrom(cs, s, q, from + 1)
  }

  /** Kotlin's `s.contains(q, ignoreCase = true)` under the case table
      `cs`. */
  predicate ContainsIgnoreCase(cs: Casing, s: string, q: string) {
    ContainsIgnoreCaseFrom(cs, s, q, 0)
  }

  /** Every text contains the empty query. */
  lemma EmptyQueryMatches(cs: Casing, s: string)
    ensures ContainsIgnoreCase(cs, s, "")
  {
    assert RegionMatchesIgnoreCase(cs, s, 0, "");
  }

  /** Containment implies containment ignoring case. */
  lemma ContainsImpliesIgnoreCase(cs: Casing, s: string, q: string)
    requires Contains(s, q)
    ensures ContainsIgnoreCase(cs, s, q)
  {
    var i := IndexOfFrom(s, q, 0).value;
    forall k | 0 <= k < |q|
      ensures CharEqualsIgnoreCase(cs, s[i + k], q[k])
    {
      assert s[i..i + |q|][k] == q[k];
    }
    assert RegionMatchesIgnoreCase(cs, s, i, q);
  }

  /** An accented title matches its accented query in the other case. */
  lemma AccentedTitleMatches()
    ensures ContainsIgnoreCase(Latin1Casing, "AM\U{C9}LIE", "am\U{E9}lie")
  {
    assert RegionMatchesIgnoreCase(Latin1Casing, "AM\U{C9}LIE", 0, "am\U{E9}lie");
  }

  function UpperString(cs: Casing, s: string): (r: string)
    ensures |r| == |s| && forall i :: 0 <= i < |s| ==> r[i] == cs.upper(s[i])
  {
    if |s| == 0 then "" else [cs.upper(s[0])] + UpperString(cs, s[1..])
  }

  /** The case of the query does not matter. */
  lemma QueryCaseIrrelevant(cs: Casing, s: string, q: string)
    requires UpperStable(cs)
    ensures ContainsIgnoreCase(cs, s, q) <==> ContainsIgnoreCase(cs, s, UpperString(cs, q))
  {
    var u := UpperString(cs, q);
    forall i: nat | i + |q| <= |s|
      ensures RegionMatchesIgnoreCase(cs, s, i, q) <==> RegionMatchesIgnoreCase(cs, s, i, u)
    {
      forall k | 0 <= k < |q|
        ensures CharEqualsIgnoreCase(cs, s[i + k], q[k]) <==> CharEqualsIgnoreCase(cs, s[i + k], u[k])
      {
        CharEqualsIgnoreCaseOfUpper(cs, s[i + k], q[k]);
      }
    }
    if ContainsIgnoreCase(cs, s, q) {
      var i: nat :| RegionMatchesIgnoreCase(cs, s, i, q);
      assert RegionMatchesIgnoreCase(cs, s, i, u);
    }
    if ContainsIgnoreCase(cs, s, u) {
      var i: nat :| RegionMatchesIgnoreCase(cs, s, i, u);
      assert RegionMatchesIgnoreCase(cs, s, i, q);
    }
  }

  // ---------------------------------------------------------------------
  // toDoubleOrNull on plain decimals

  function Pow10(n: nat): (r: nat)
    ensures r > 0
  {
    if n == 0 then 1 else 10 * Pow10(n - 1)
  }

  /** The value of whole digits and fractional digits around a point. */
  function DecimalValue(whole: string, frac: string): (v: real)
    requires AllDigits(whole) && AllDigits(frac)
    ensures v >= 0.0
  {
    DigitsValue(whole) as real + DigitsValue(frac) as real / Pow10(|frac|) as real
  }

  /** Digits with an optional fractional part: `8`, `8.5`, `8.`, `.5`. */
  function UnsignedDecimal(s: string): (r: Option<real>)
    ensures r.Some? ==> r.value >= 0.0
  {
    match IndexOfFrom(s, ".", 0)
    case None =>
      if |s| > 0 && AllDigits(s) then Some(DigitsValue(s) as real) else None
    case Some(i) =>
      var whole := s[..i];
      var frac := s[i + 1..];
      if |whole| + |frac| > 0 && AllDigits(whole) && AllDigits(frac) then
        Some(DecimalValue(whole, frac))
      else None
  }

  /** The characters `toDoubleOrNull` skips around a number: the control
      characters and the space, U+0000 to U+0020. */
  predicate IsLowChar(c: char) {
    c <= '\U{20}'
  }

  function StripLowStart(s: string): (r: string)
    ensures |r| <= |s|
  {
    if |s| > 0 && IsLowChar(s[0]) then StripLowStart(s[1..]) else s
  }

  function StripLowEnd(s: string): (r: string)
    ensures |r| <= |s|
  {
    if |s| > 0 && IsLowChar(s[|s| - 1]) then StripLowEnd(s[..|s| - 1]) else s
  }

  /** The type suffixes a Java floating-point literal may carry. */
  predicate IsFloatSuffix(c: char) {
    c == 'f' || c == 'F' || c == 'd' || c == 'D'
  }

  /** The text between the padding. */
  function Unpadded(s: string): (t: string)
    ensures |t| <= |s|
    ensures |t| > 0 ==> t[0] in s
  {
    var u := StripLowStart(s);
    var t := StripLowEnd(u);
    StripLowStartIsSuffix(s);
    StripLowEndIsPrefix(u);
    assert |t| > 0 ==> t[0] == u[0] == s[|s| - |u|];
    t
  }

  lemma {:induction false} StripLowStartIsSuffix(s: string)
    ensures StripLowStart(s) == s[|s| - |StripLowStart(s)|..]
  {
    if |s| > 0 && IsLowChar(s[0]) {
      StripLowStartIsSuffix(s[1..]);
    }
  }

  lemma {:induction false} StripLowEndIsPrefix(s: string)
    ensures StripLowEnd(s) == s[..|StripLowEnd(s)|]
  {
    if |s| > 0 && IsLowChar(s[|s| - 1]) {
      StripLowEndIsPrefix(s[..|s| - 1]);
    }
  }

  /** The number without its padding, sign and type suffix. */
  function NumberBody(s: string): string {
    var t := Unpadded(s);
    var unsigned := if |t| > 0 && (t[0] == '-' || t[0] == '+') then t[1..] else t;
    if |unsigned| > 0 && IsFloatSuffix(unsigned[|unsigned| - 1]) then unsigned[..|unsigned| - 1] else unsigned
  }

  /** Whether the number carries a minus sign. */
  predicate MinusSigned(s: string) {
    var t := Unpadded(s);
    |t| > 0 && t[0] == '-'
  }

  /** Kotlin's `String.toDoubleOrNull()` on plain decimals, computed
      exactly: optional padding of characters up to U+0020 on both sides,
      an optional sign, the digits with at most one point, and an optional
      `f`, `F`, `d` or `D` suffix. */
  function DecimalOrNull(s: string): (r: Option<real>)
    ensures |s| == 0 ==> r.None?
    ensures r.Some? && r.value < 0.0 ==> '-' in s
  {
    var body := NumberBody(s);
    assert |s| == 0 ==> body == "";
    match UnsignedDecimal(body)
    case None => None
    case Some(v) =>
      if MinusSigned(s) then
        assert Unpadded(s)[0] in s;
        Some(-v)
      else Some(v)
  }

  /** Padding on either side of a number does not change what it reads as. */
  lemma {:induction false} StripLowPadding(pre: string, s: string, post: string)
    requires |s| > 0 && !IsLowChar(s[0]) && !IsLowChar(s[|s| - 1])
    requires forall i :: 0 <= i < |pre| ==> IsLowChar(pre[i])
    requires forall i :: 0 <= i < |post| ==> IsLowChar(post[i])
    ensures StripLowEnd(StripLowStart(pre + s + post)) == s
  {
    StripLowStartPrefix(pre, s + post);
    assert pre + s + post == pre + (s + post);
    StripLowEndSuffix(s, post);
  }

  lemma {:induction false} StripLowStartPrefix(pre: string, s: string)
    requires |s| > 0 && !IsLowChar(s[0])
    requires forall i :: 0 <= i < |pre| ==> IsLowChar(pre[i])
    ensures StripLowStart(pre + s) == s
    decreases |pre|
  {
    if |pre| > 0 {
      assert (pre + s)[1..] == pre[1..] + s;
      StripLowStartPrefix(pre[1..], s);
    }
  }

  lemma {:induction false} StripLowEndSuffix(s: string, post: string)
    requires |s| > 0 && !IsLowChar(s[|s| - 1])
    requires forall i :: 0 <= i < |post| ==> IsLowChar(post[i])
    ensures StripLowEnd(s + post) == s
    decreases |post|
  {
    if |post| > 0 {
      var q := post[..|post| - 1];
      assert (s + post)[..|s + post| - 1] == s + q;
      StripLowEndSuffix(s, q);
    } else {
      assert s + post == s;
    }
  }

  /** An unsigned number that needs no stripping reads as its digits,
      with or without a type suffix. */
  lemma DecimalOfBody(body: string, suffix: string)
    requires |body| > 0 && !IsLowChar(body[0]) && body[0] != '-' && body[0] != '+'
    requires !IsLowChar(body[|body| - 1]) && !IsFloatSuffix(body[|body| - 1])
    requires suffix == "" || (|suffix| == 1 && IsFloatSuffix(suffix[0]))
    ensures DecimalOrNull(body + suffix) == UnsignedDecimal(body)
  {
    var s := body + suffix;
    assert s[0] == body[0];
    assert s[|s| - 1] == if |suffix| == 1 then suffix[0] else body[|body| - 1];
    StripLowPadding("", s, "");
    assert "" + s + "" == s;
    assert Unpadded(s) == s;
    assert !MinusSigned(s);
    if |suffix| == 1 {
      assert IsFloatSuffix(s[|s| - 1]);
      assert s[..|s| - 1] == body;
    } else {
      assert suffix == "";
      assert s == body;
      assert !IsFloatSuffix(s[|s| - 1]);
    }
    assert NumberBody(s) == body;
  }

  /** Digits, a point and digits read as the whole part plus the fraction. */
  lemma UnsignedDecimalOfFraction(w: string, f: string)
    requires AllDigits(w) && AllDigits(f) && |f| > 0
    ensures UnsignedDecimal(w + "." + f) == Some(DecimalValue(w, f))
  {
    var body := w + "." + f;
    assert body[|w|] == '.';
    forall j | 0 <= j < |w| ensures !StartsAt(body, ".", j) {
      assert body[j] == w[j];
      assert body[j..j + 1][0] == body[j];
    }
    assert StartsAt(body, ".", |w|) by {
      assert body[|w|..|w| + 1] == ".";
    }
    assert IndexOfFrom(body, ".", 0) == Some(|w|);
    var whole := body[..|w|];
    var frac := body[|w| + 1..];
    assert whole == w && frac == f;
    assert |whole| + |frac| > 0 && AllDigits(whole) && AllDigits(frac);
  }

  /** Whole digits, a point and fractional digits, with or without a type
      suffix, read as the exact decimal value. */
  lemma DecimalOfFraction(w: string, f: string, suffix: string)
    requires AllDigits(w) && AllDigits(f) && |f| > 0
    requires suffix == "" || (|suffix| == 1 && IsFloatSuffix(suffix[0]))
    ensures DecimalOrNull(w + "." + f + suffix) == Some(DecimalValue(w, f))
  {
    var body := w + "." + f;
    assert body[0] == (if |w| > 0 then w[0] else '.');
    assert body[|body| - 1] == f[|f| - 1];
    DecimalOfBody(body, suffix);
    UnsignedDecimalOfFraction(w, f);
  }

  /** A rendered natural number parses as that number. */
  lemma DecimalOfRendered(n: nat)
    ensures DecimalOrNull(NatToString(n)) == Some(n as real)
  {
    var s := NatToString(n);
    NotContainsWithoutFirstChar(s, ".");
    assert IsDigit(s[0]) && IsDigit(s[|s| - 1]);
    DecimalOfBody(s, "");
    assert s + "" == s;
  }
}

=== FILE: login.dfy ===
/** The login screen: the short-circuit two-field validator, the trimmed
    inputs it sees, and the messages shown when signing in fails. */
module Login {
  import opened Options
  import opened KtText
  import opened AuthFailures
  import SignUp

  const EmailRequired: string := "Email is required"
  const PasswordRequired: string := "Password is required"

  /** The verdict and what happened to the two error lines. */
  datatype Check = Check(ok: bool, email: Label, password: Label)

  /** `validateInput`: a missing email ends the check at once and leaves
      the password line as it was; otherwise a missing password fails.
      There is no format check. */
  function Validate(email: string, password: string): (r: Check)
    ensures r.ok <==> email != "" && password != ""
    ensures email == "" ==> r == Check(false, Shows(EmailRequired), Untouched)
    ensures email != "" ==> r.email == Cleared
    ensures email != "" && password == "" ==> r.password == Shows(PasswordRequired)
    ensures r.ok ==> r.password == Cleared
  {
    if email == "" then Check(false, Shows(EmailRequired), Untouched)
    else if password == "" then Check(false, Cleared, Shows(PasswordRequired))
    else Check(true, Cleared, Cleared)
  }

  /** With the email missing, the password is not looked at. */
  lemma MissingEmailShortCircuits(p1: string, p2: string)
    ensures Validate("", p1) == Validate("", p2)
  {
  }

  /** The login button: the trimmed email and password handed to sign-in,
      or nothing when validation fails. */
  function Submit(rawEmail: string, rawPassword: string): (r: Option<(string, string)>)
    ensures r.Some? <==> Validate(Trim(rawEmail), Trim(rawPassword)).ok
    ensures r.Some? ==> r.value == (Trim(rawEmail), Trim(rawPassword))
  {
    var email := Trim(rawEmail);
    var password := Trim(rawPassword);
    if Validate(email, password).ok then Some((email, password)) else None
  }

  /** A sign-in attempt is made exactly when both fields hold something
      besides whitespace. */
  lemma SubmitIffNotBlank(rawEmail: string, rawPassword: string)
    ensures Submit(rawEmail, rawPassword).Some? <==>
      (exists i :: 0 <= i < |rawEmail| && !IsWhitespace(rawEmail[i])) &&
      (exists i :: 0 <= i < |rawPassword| && !IsWhitespace(rawPassword[i]))
  {
    TrimEmptyIff(rawEmail);
    TrimEmptyIff(rawPassword);
  }

  /** Login is laxer than sign-up: whatever the sign-up form accepts as
      email and password, the login form accepts too. */
  lemma AcceptsWhatSignUpAccepts(f: SignUp.Form, isEmail: string -> bool)
    requires SignUp.Passes(SignUp.Validate(f, isEmail))
    ensures Validate(f.email, f.password).ok
  {
    SignUp.PassesIff(f, isEmail);
  }

  const AccountNotFound: string := "Account not found. Please sign up."
  const WrongCredentials: string := "Invalid email or password."
  const LoginFallback: string := "Login failed. Please check your connection."

  /** The message shown when signing in with email throws. */
  function FailureMessage(e: Failure): (r: string)
    ensures e.kind == InvalidUser ==> r == AccountNotFound
    ensures IsInvalidCredentials(e.kind) ==> r == WrongCredentials
    ensures e.kind != InvalidUser && !IsInvalidCredentials(e.kind) ==> r == e.message.OrElse(LoginFallback)
  {
    if e.kind == InvalidUser then AccountNotFound
    else if IsInvalidCredentials(e.kind) then WrongCredentials
    else e.message.OrElse(LoginFallback)
  }

  /** The screens read a weak-password failure differently: sign-up names
      it, login reports it as wrong credentials, because it is a subclass
      of the invalid-credentials exception. */
  lemma WeakPasswordReadsDifferently(e: Failure)
    requires e.kind == WeakPassword
    ensures SignUp.FailureMessage(e) == SignUp.PasswordTooWeak
    ensures FailureMessage(e) == WrongCredentials
    ensures SignUp.FailureMessage(e) != FailureMessage(e)
  {
  }

  /** The status code the sign-in library reports for a misconfigured web
      client id. */
  const ConfigurationErrorCode: int := 12500

  /** The message shown when the Google account picker fails. */
  function GoogleFailureMessage(statusCode: int): (r: string)
    ensures statusCode == ConfigurationErrorCode ==>
      r == "Configuration Error (12500). Check Web Client ID."
    ensures statusCode != ConfigurationErrorCode ==>
      r == "Google sign-in failed: " + IntToString(statusCode)
  {
    if statusCode == ConfigurationErrorCode then "Configuration Error (12500). Check Web Client ID."
    else "Google sign-in failed: " + IntToString(statusCode)
  }

  /** Any other status code can be read back from its message. */
  lemma GoogleFailureCodeReadsBack(statusCode: int)
    requires statusCode != ConfigurationErrorCode && IntMin <= statusCode <= IntMax
    ensures var m := GoogleFailureMessage(statusCode);
      var prefix := "Google sign-in failed: ";
      |m| > |prefix| && ToIntOrNull(m[|prefix|..]) == Some(statusCode)
  {
    var prefix := "Google sign-in failed: ";
    assert GoogleFailureMessage(statusCode)[|prefix|..] == IntToString(statusCode);
    ParseRendered(statusCode);
  }

  /** What the account picker hands back: a failure with its status code,
      or an account that may or may not carry an ID token. */
  datatype PickerResult = PickerFailed(statusCode: int) | Picked(idToken: Option<string>)

  /** What the screen does next: authenticate with the token, or show an
      error. */
  datatype PickerStep = AuthenticateWith(token: string) | ShowError(message: string)

  const MissingTokenMessage: string := "Google Sign-In error."

  /** `onActivityResult`: a token goes on to Firebase; a missing token and
      a picker failure each show their own error. */
  function OnPickerResult(result: PickerResult): (r: PickerStep)
    ensures r.AuthenticateWith? <==> result.Picked? && result.idToken.Some?
    ensures r.AuthenticateWith? ==> r.token == result.idToken.value
    ensures result.Picked? && result.idToken.None? ==> r == ShowError(MissingTokenMessage)
    ensures result.PickerFailed? ==> r == ShowError(GoogleFailureMessage(result.statusCode))
  {
    match result
    case PickerFailed(code) => ShowError(GoogleFailureMessage(code))
    case Picked(token) =>
      if token.Some? then AuthenticateWith(token.value) else ShowError(MissingTokenMessage)
  }

  /** A missing token never reads like a picker failure. */
  lemma MissingTokenDistinguishable(statusCode: int)
    ensures OnPickerResult(Picked(None)) != OnPickerResult(PickerFailed(statusCode))
  {
    var m := GoogleFailureMessage(statusCode);
    assert m[0] != MissingTokenMessage[0] || m[1] != MissingTokenMessage[1] || m[7] != MissingTokenMessage[7];
  }

  const AuthFailedPrefix: string := "Authentication failed: "

  /** The message when Firebase rejects the Google token: the exception's
      message after the prefix, where string interpolation writes a null
      message as "null". */
  function GoogleAuthFailureMessage(message: Option<string>): (r: string)
    ensures |r| >= |AuthFailedPrefix| && r[..|AuthFailedPrefix|] == AuthFailedPrefix
    ensures message.Some? ==> r[|AuthFailedPrefix|..] == message.value
    ensures message.None? ==> r[|AuthFailedPrefix|..] == "null"
  {
    AuthFailedPrefix + message.OrElse("null")
  }

  /** The message text reads back from the shown line, and only a message
      spelled "null" looks like a missing one. */
  lemma GoogleAuthFailureReadsBack(a: Option<string>, b: Option<string>)
    ensures GoogleAuthFailureMessage(a) == GoogleAuthFailureMessage(b) <==>
      a.OrElse("null") == b.OrElse("null")
  {
    var ra := GoogleAuthFailureMessage(a);
    var rb := GoogleAuthFailureMessage(b);
    if ra == rb {
      assert ra[|AuthFailedPrefix|..] == rb[|AuthFailedPrefix|..];
    }
  }
}

=== FILE: models.dfy ===
/** The records the application stores and exchanges: the Firestore
    documents, the OMDb response bodies and the home screen's list entry.
    Timestamps are abstract integers, Kotlin `Double`s are reals and
    Kotlin `Int`/`Long` counters are unbounded integers. */
module Models {
  import opened Options

  /** A movie as the app shows and stores it; `averageRating` is on the
      0–5 scale. */
  datatype Movie = Movie(
    id: string,
    title: string,
    year: int,
    director: string,
    cast: seq<string>,
    genre: seq<string>,
    duration: int,
    description: string,
    posterUrl: string,
    backdropUrl: string,
    averageRating: real,
    totalReviews: int,
    releaseDate: string,
    language: string)

  /** A review document; `likedBy` is a Firestore array of user ids. */
  datatype Review = Review(
    id: string,
    movieId: string,
    movieTitle: string,
    moviePosterUrl: string,
    userId: string,
    userName: string,
    userPhotoUrl: string,
    rating: real,
    reviewText: string,
    timestamp: int,
    likes: int,
    likedBy: seq<string>)

  /** A user profile document with its two maintained counters. */
  datatype User = User(
    uid: string,
    email: string,
    displayName: string,
    photoUrl: string,
    bio: string,
    joinedDate: int,
    totalReviews: int,
    watchlistCount: int)

  /** A star rating given by one user to one movie. */
  datatype UserRating = UserRating(userId: string, movieId: string, rating: real, timestamp: int)

  /** One movie on one user's watchlist. */
  datatype WatchlistItem = WatchlistItem(id: string, userId: string, movieId: string, addedDate: int)

  /** One entry of an OMDb search answer. */
  datatype OMDbSearchResult = OMDbSearchResult(
    title: string,
    year: string,
    imdbID: string,
    kind: string,
    poster: string)

  /** An OMDb search answer; `response` is the text "True" or "False". */
  datatype OMDbSearchResponse = OMDbSearchResponse(
    search: Option<seq<OMDbSearchResult>>,
    totalResults: Option<string>,
    response: string,
    error: Option<string>)

  /** An OMDb detail answer, restricted to the fields the app reads; every
      field may be absent. */
  datatype OMDbMovieDetails = OMDbMovieDetails(
    title: Option<string>,
    year: Option<string>,
    released: Option<string>,
    runtime: Option<string>,
    genre: Option<string>,
    director: Option<string>,
    actors: Option<string>,
    plot: Option<string>,
    language: Option<string>,
    poster: Option<string>,
    imdbRating: Option<string>,
    imdbID: Option<string>,
    response: string,
    error: Option<string>)

  /** The home screen's own movie entry, with a bundled poster resource. */
  datatype ListMovie = ListMovie(title: string, rating: real, description: string, posterResId: int)
}

=== FILE: movie_adapter.dfy ===
/** The home-screen movie list: the rows on display and the full list the
    title filter always starts from. */
module MovieAdapter {
  import opened KtText
  import opened Collections
  import opened Models

  /** The adapter's state: `movies` is what the list shows, `fullList` the
      copy taken when the adapter was built. */
  datatype Adapter = Adapter(movies: seq<ListMovie>, fullList: seq<ListMovie>)

  /** What is shown is always some of the full list, in its order. */
  predicate Valid(a: Adapter) {
    IsSubsequence(a.movies, a.fullList)
  }

  /** A subsequence is no longer than the sequence it is taken from. */
  lemma {:induction false} SubsequenceNoLonger<T>(xs: seq<T>, ys: seq<T>)
    requires IsSubsequence(xs, ys)
    ensures |xs| <= |ys|
    decreases |ys|
  {
    if |xs| > 0 {
      if xs[0] == ys[0] {
        SubsequenceNoLonger(xs[1..], ys[1..]);
      } else {
        SubsequenceNoLonger(xs, ys[1..]);
      }
    }
  }

  /** Every sequence is a subsequence of itself. */
  lemma {:induction false} SubsequenceOfItself<T>(xs: seq<T>)
    ensures IsSubsequence(xs, xs)
  {
    if |xs| > 0 {
      SubsequenceOfItself(xs[1..]);
    }
  }

  /** The constructor: both lists start as the given movies. */
  function NewAdapter(movies: seq<ListMovie>): (a: Adapter)
    ensures a.movies == movies && a.fullList == movies
    ensures Valid(a)
  {
    SubsequenceOfItself(movies);
    Adapter(movies, movies)
  }

  /** `getItemCount`: the number of rows on display, never more than the
      full list holds. */
  function ItemCount(a: Adapter): (n: nat)
    requires Valid(a)
    ensures n == |a.movies| && n <= |a.fullList|
  {
    SubsequenceNoLonger(a.movies, a.fullList);
    |a.movies|
  }

  /** The test of the filter: the title contains the query, ignoring case
      under the case table `cs`. */
  predicate TitleMatches(cs: Casing, m: ListMovie, query: string) {
    ContainsIgnoreCase(cs, m.title, query)
  }

  /** The rows a query selects from the full list: all of them for the
      empty query, otherwise the matching ones, each as often as the full
      list holds it, in order. */
  function Selected(cs: Casing, fullList: seq<ListMovie>, query: string): (r: seq<ListMovie>)
    ensures query == "" ==> r == fullList
    ensures query != "" ==> forall m :: m in r <==> m in fullList && TitleMatches(cs, m, query)
    ensures query != "" ==>
      forall m :: multiset(r)[m] == if TitleMatches(cs, m, query) then multiset(fullList)[m] else 0
    ensures IsSubsequence(r, fullList)
  {
    if query == "" then
      SubsequenceOfItself(fullList);
      fullList
    else FilterSeq(fullList, m => TitleMatches(cs, m, query))
  }

  /** `filter`: an empty query shows the full list again, any other query
      the full-list entries whose title contains it; the full list itself
      is kept. */
  function Filter(cs: Casing, a: Adapter, query: string): (r: Adapter)
    ensures r.fullList == a.fullList
    ensures r.movies == Selected(cs, a.fullList, query)
    ensures query == "" ==> r.movies == a.fullList
    ensures query != "" ==> forall m :: m in r.movies <==> m in a.fullList && TitleMatches(cs, m, query)
    ensures query != "" ==>
      forall m :: multiset(r.movies)[m] == if TitleMatches(cs, m, query) then multiset(a.fullList)[m] else 0
    ensures Valid(r)
  {
    Adapter(Selected(cs, a.fullList, query), a.fullList)
  }

  /** Each filter starts from the full list, so only the last query counts
      and what an earlier one hid comes back. */
  lemma FiltersDoNotCompound(cs: Casing, a: Adapter, first: string, second: string)
    ensures Filter(cs, Filter(cs, a, first), second) == Filter(cs, a, second)
  {
  }

  /** The empty query is no special case after all: every title contains
      it, so filtering by it would keep the full list too. */
  lemma EmptyQueryKeepsEverything(cs: Casing, fullList: seq<ListMovie>)
    ensures FilterSeq(fullList, m => TitleMatches(cs, m, "")) == Selected(cs, fullList, "")
  {
    forall m | m in fullList ensures TitleMatches(cs, m, "") {
      EmptyQueryMatches(cs, m.title);
    }
    FilterAll(fullList, m => TitleMatches(cs, m, ""));
  }

  /** The case of the query does not change which rows are shown, for any
      case table in which upper-casing is idempotent. */
  lemma FilterIgnoresQueryCase(cs: Casing, a: Adapter, query: string)
    requires UpperStable(cs)
    requires query != ""
    ensures Filter(cs, a, UpperString(cs, query)) == Filter(cs, a, query)
  {
    var u := UpperString(cs, query);
    assert u != "" by { assert |u| == |query|; }
    forall m | m in a.fullList ensures TitleMatches(cs, m, u) == TitleMatches(cs, m, query) {
      QueryCaseIrrelevant(cs, m.title, query);
    }
    FilterSamePredicate(a.fullList, m => TitleMatches(cs, m, u), m => TitleMatches(cs, m, query));
  }

  /** Accented titles are matched across case: "AMÉLIE" is shown for the
      query "amélie" under the Latin-1 table. */
  lemma AccentedQueryShowsTitle(fullList: seq<ListMovie>, m: ListMovie)
    requires m in fullList && m.title == "AM\U{C9}LIE"
    ensures m in Filter(Latin1Casing, NewAdapter(fullList), "am\U{E9}lie").movies
  {
    AccentedTitleMatches();
  }
}

=== FILE: movie_detail.dfy ===
/** The decisions the movie detail screen takes (MovieDetailActivity):
    when to fetch full details, the label fallbacks, the review guard and
    the review it builds, and the like and watchlist toggles, each run
    against the document store. Dialogs, toasts and view updates are not
    modelled; an error the screen catches leaves the store as the failing
    call left it. */
module MovieDetail {
  import opened Options
  import opened KtText
  import opened Collections
  import opened Models
  import opened OMDbRepository
  import opened FirebaseManager

  // ---------------------------------------------------------------------
  // Loading the movie

  /** A movie lacks full details when its director or description is empty. */
  predicate NeedsDetails(m: Movie) {
    m.director == "" || m.description == ""
  }

  /** `loadCompleteMovieDetails`: OMDb is asked only for a movie lacking
      details, and a null answer keeps the movie as it was. */
  function LoadCompleteDetails(m: Movie, answer: Fetch<OMDbMovieDetails>): (r: Movie)
    ensures !NeedsDetails(m) ==> r == m
    ensures GetMovieDetails(answer).None? ==> r == m
    ensures NeedsDetails(m) && GetMovieDetails(answer).Some? ==> r == MovieDetailsToMovie(answer.body)
  {
    if NeedsDetails(m) then
      match GetMovieDetails(answer)
      case None => m
      case Some(details) => MovieDetailsToMovie(details)
    else m
  }

  /** `loadReviews`: the movie's reviews, newest first, with the movie's
      review count set to how many were returned. */
  ghost function LoadReviews(st: Store, m: Movie, readOk: bool): (r: (Movie, seq<Review>))
    ensures r.0.totalReviews == |r.1|
    ensures r.0.(totalReviews := m.totalReviews) == m
    ensures readOk ==> r.0.totalReviews == |ReviewsFor(st.reviews, m.id)|
    ensures SortedDesc(r.1, ReviewTime)
    ensures forall x :: x in r.1 ==> x.movieId == m.id
    ensures r.1 == GetMovieReviews(st, m.id, readOk)
  {
    var reviews := GetMovieReviews(st, m.id, readOk);
    (m.(totalReviews := |reviews|), reviews)
  }

  // ---------------------------------------------------------------------
  // Display fallbacks

  const DirectedBy: string := "Directed by "
  const DirectorUnknown: string := "Director information not available"
  const DurationUnknown: string := "Duration N/A"
  const GenreSeparator: string := " • "
  const GenreUnknown: string := "Genre not available"
  const CastUnknown: string := "Cast information not available"

  /** The director line: "Directed by X" exactly when X is a real name. */
  function DirectorLabel(director: string): (r: string)
    ensures (|r| >= |DirectedBy| && r[..|DirectedBy|] == DirectedBy) <==> director != "" && director != "N/A"
    ensures director != "" && director != "N/A" ==> r[|DirectedBy|..] == director
    ensures director == "" || director == "N/A" ==> r == DirectorUnknown
  {
    assert DirectorUnknown[6] != DirectedBy[6];
    if director != "" && director != "N/A" then DirectedBy + director else DirectorUnknown
  }

  /** The running time line: "N min" for a positive duration. */
  function DurationLabel(duration: int): (r: string)
    ensures duration <= 0 <==> r == DurationUnknown
    ensures duration > 0 ==> r == IntToString(duration) + MinutesSuffix
  {
    if duration > 0 then
      var r := IntToString(duration) + MinutesSuffix;
      assert IsDigit(r[0]) && !IsDigit(DurationUnknown[0]);
      r
    else DurationUnknown
  }

  /** The running time shown reads back through the OMDb runtime parser. */
  lemma DurationLabelReadsBack(duration: int)
    requires 0 < duration <= IntMax
    ensures ExtractRuntime(DurationLabel(duration)) == duration
  {
    ExtractRuntimeOfRendered(duration);
  }

  /** The genres joined by " • ", or a fallback when there are none. */
  function GenresLabel(genres: seq<string>): (r: string)
    ensures |genres| == 0 ==> r == GenreUnknown
    ensures |genres| > 0 ==> r == Join(genres, GenreSeparator)
  {
    if |genres| > 0 then Join(genres, GenreSeparator) else GenreUnknown
  }

  /** The cast joined by ", ", or a fallback when there is none. */
  function CastLabel(cast: seq<string>): (r: string)
    ensures |cast| == 0 ==> r == CastUnknown
    ensures |cast| > 0 ==> r == Join(cast, CastSeparator)
  {
    if |cast| > 0 then Join(cast, CastSeparator) else CastUnknown
  }

  /** The cast line splits back into the cast when no name holds ", ". */
  lemma CastLabelRoundTrip(cast: seq<string>)
    requires |cast| > 0
    requires forall k :: 0 <= k < |cast| ==> !Contains(cast[k], CastSeparator)
    ensures SplitList(CastLabel(cast)) == cast
  {
    CastSeparatorUnbordered();
    SplitOfJoin(cast, CastSeparator);
  }

  // ---------------------------------------------------------------------
  // Writing a review

  /** The review dialog's guard: a positive rating and text that is not
      blank once trimmed. Returns the rating and the trimmed text. */
  function ReviewSubmission(rating: real, rawText: string): (r: Option<(real, string)>)
    ensures r.Some? <==> rating > 0.0 && exists i :: 0 <= i < |rawText| && !IsWhitespace(rawText[i])
    ensures r.Some? ==> r.value.0 == rating && r.value.1 == Trim(rawText) && r.value.1 != ""
  {
    TrimEmptyIff(rawText);
    var text := Trim(rawText);
    if rating > 0.0 && text != "" then Some((rating, text)) else None
  }

  /** The author name: the stored profile's name when the profile could be
      read (even if empty), else the account's name, else "Anonymous". */
  function AuthorName(stored: Option<User>, account: Account): (r: string)
    ensures stored.Some? ==> r == stored.value.displayName
    ensures stored.None? && account.displayName.Some? ==> r == account.displayName.value
    ensures stored.None? && account.displayName.None? ==> r == "Anonymous"
  {
    match stored
    case Some(u) => u.displayName
    case None => account.displayName.OrElse("Anonymous")
  }

  /** The author photo, with the same order of preference and "" last. */
  function AuthorPhoto(stored: Option<User>, account: Account): (r: string)
    ensures stored.Some? ==> r == stored.value.photoUrl
    ensures stored.None? ==> r == account.photoUrl.OrElse("")
  {
    match stored
    case Some(u) => u.photoUrl
    case None => account.photoUrl.OrElse("")
  }

  /** The review the screen hands to the store: written by the signed-in
      account, about this movie, with no likes yet. */
  function NewReview(m: Movie, account: Account, stored: Option<User>, rating: real, text: string, now: int): (r: Review)
    ensures r.movieId == m.id && r.movieTitle == m.title && r.moviePosterUrl == m.posterUrl
    ensures r.userId == account.uid
    ensures r.userName == AuthorName(stored, account) && r.userPhotoUrl == AuthorPhoto(stored, account)
    ensures r.rating == rating && r.reviewText == text && r.timestamp == now
    ensures r.id == "" && LikesConsistent(r)
  {
    Review("", m.id, m.title, m.posterUrl, account.uid, AuthorName(stored, account),
           AuthorPhoto(stored, account), rating, text, now, 0, [])
  }

  /** Submitting the review dialog: nothing reaches the store when the
      guard fails or nobody is signed in; otherwise the profile is read and
      the review added under `newId`. */
  ghost function SubmitReview(st: Store, m: Movie, rating: real, rawText: string, now: int, newId: string,
                              readOk: bool, writeOk: bool, queryOk: bool, movieWriteOk: bool, counterOk: bool): (r: Store)
    ensures ReviewSubmission(rating, rawText).None? || st.currentUser.None? ==> r == st
    ensures r.currentUser == st.currentUser && r.ratings == st.ratings && r.watchlist == st.watchlist
    ensures ReviewSubmission(rating, rawText).Some? && st.currentUser.Some? && writeOk ==>
      newId in r.reviews && r.reviews[newId].userId == st.currentUser.value.uid
      && r.reviews[newId].movieId == m.id && r.reviews[newId].id == newId
      && r.reviews[newId].rating == rating && r.reviews[newId].reviewText == Trim(rawText)
      && r.reviews[newId].likes == 0 && r.reviews[newId].likedBy == []
    ensures ReviewSubmission(rating, rawText).Some? && st.currentUser.Some? && writeOk ==>
      var account := st.currentUser.value;
      var stored := GetUserData(st, account.uid, readOk);
      r.reviews[newId].userName == AuthorName(stored, account)
      && r.reviews[newId].userPhotoUrl == AuthorPhoto(stored, account)
      && r.reviews[newId].movieTitle == m.title && r.reviews[newId].moviePosterUrl == m.posterUrl
      && r.reviews[newId].timestamp == now
    ensures ReviewSubmission(rating, rawText).Some? && st.currentUser.Some? ==>
      var account := st.currentUser.value;
      var review := NewReview(m, account, GetUserData(st, account.uid, readOk), rating, Trim(rawText), now);
      r == AddReview(st, review, newId, writeOk, queryOk, movieWriteOk, counterOk).store
  {
    match ReviewSubmission(rating, rawText)
    case None => st
    case Some(submission) =>
      match st.currentUser
      case None => st
      case Some(account) =>
        var stored := GetUserData(st, account.uid, readOk);
        var review := NewReview(m, account, stored, submission.0, submission.1, now);
        AddReview(st, review, newId, writeOk, queryOk, movieWriteOk, counterOk).store
  }

  /** A submitted review under a fresh id keeps the author's review counter
      accurate. */
  lemma SubmitReviewKeepsCounter(st: Store, m: Movie, rating: real, rawText: string, now: int, newId: string, readOk: bool)
    requires st.currentUser.Some? && ReviewCounterAccurate(st, st.currentUser.value.uid)
    requires newId !in st.reviews
    ensures ReviewCounterAccurate(SubmitReview(st, m, rating, rawText, now, newId, readOk, true, true, true, true),
                                  st.currentUser.value.uid)
  {
    var submission := ReviewSubmission(rating, rawText);
    if submission.Some? {
      var account := st.currentUser.value;
      var review := NewReview(m, account, GetUserData(st, account.uid, readOk), submission.value.0, submission.value.1, now);
      AddReviewKeepsCounter(st, review, newId);
    }
  }

  /** The rate button: without a signed-in user the store is not touched;
      otherwise it is one rating upsert, which a failed write leaves
      without effect. */
  ghost function SubmitRating(st: Store, m: Movie, rating: real, now: int,
                              writeOk: bool, queryOk: bool, movieWriteOk: bool): (r: Store)
    ensures st.currentUser.None? ==> r == st
    ensures st.currentUser.Some? && writeOk ==> GetUserRating(r, m.id, true) == Some(rating)
    ensures !writeOk ==> r == st
    ensures r.(movies := st.movies, ratings := st.ratings) == st
    ensures st.currentUser.Some? ==> r == AddOrUpdateRating(st, m.id, rating, now, writeOk, queryOk, movieWriteOk).store
  {
    if st.currentUser.None? then st
    else AddOrUpdateRating(st, m.id, rating, now, writeOk, queryOk, movieWriteOk).store
  }

  // ---------------------------------------------------------------------
  // Toggling a like

  /** `toggleLike` on the review as displayed: unlike when the signed-in
      user is among its likers, like otherwise; nothing without a user. */
  function ToggleLike(st: Store, shown: Review, ok: bool): (r: Store)
    ensures st.currentUser.None? ==> r == st
    ensures st.currentUser.Some? && st.currentUser.value.uid in shown.likedBy ==>
      r == UnlikeReview(st, shown.id, st.currentUser.value.uid, ok).store
    ensures st.currentUser.Some? && st.currentUser.value.uid !in shown.likedBy ==>
      r == LikeReview(st, shown.id, st.currentUser.value.uid, ok).store
  {
    match st.currentUser
    case None => st
    case Some(a) =>
      if a.uid in shown.likedBy then UnlikeReview(st, shown.id, a.uid, ok).store
      else LikeReview(st, shown.id, a.uid, ok).store
  }

  /** When the displayed review is the stored one, toggling keeps a
      consistent like counter consistent. */
  lemma ToggleLikeKeepsConsistency(st: Store, shown: Review, ok: bool)
    requires shown.id in st.reviews && st.reviews[shown.id] == shown && LikesConsistent(shown)
    ensures var r := ToggleLike(st, shown, ok);
      shown.id in r.reviews && LikesConsistent(r.reviews[shown.id])
  {
    if st.currentUser.Some? {
      var uid := st.currentUser.value.uid;
      if uid in shown.likedBy {
        UnlikeKeepsConsistency(shown, uid);
      } else {
        LikeKeepsConsistency(shown, uid);
      }
    }
  }

  /** Toggling twice, reloading in between, restores a review the user had
      not liked. */
  lemma ToggleLikeTwiceRestores(st: Store, shown: Review)
    requires st.currentUser.Some? && st.currentUser.value.uid !in shown.likedBy
    requires shown.id in st.reviews && st.reviews[shown.id] == shown
    ensures var once := ToggleLike(st, shown, true);
      ToggleLike(once, once.reviews[shown.id], true).reviews == st.reviews
  {
    var uid := st.currentUser.value.uid;
    var liked := Liked(shown, uid);
    assert ArrayRemove(shown.likedBy + [uid], uid) == shown.likedBy by {
      ArrayRemoveAppended(shown.likedBy, uid);
    }
    assert Unliked(liked, uid) == shown;
  }

  /** Removing an element that was appended to an array without it gives
      the array back. */
  lemma {:induction false} ArrayRemoveAppended(xs: seq<string>, x: string)
    requires x !in xs
    ensures ArrayRemove(xs + [x], x) == xs
  {
    if |xs| > 0 {
      assert (xs + [x])[1..] == xs[1..] + [x];
      ArrayRemoveAppended(xs[1..], x);
      assert xs == [xs[0]] + xs[1..];
    }
  }

  /** A stale display breaks the counter: if the stored review already
      counts the user's like but the shown copy does not, the toggle likes
      again and the count runs ahead of the likers. */
  lemma StaleLikeDrifts(st: Store, shown: Review)
    requires st.currentUser.Some? && st.currentUser.value.uid !in shown.likedBy
    requires shown.id in st.reviews && LikesConsistent(st.reviews[shown.id])
    requires st.currentUser.value.uid in st.reviews[shown.id].likedBy
    ensures var r := ToggleLike(st, shown, true);
      r.reviews[shown.id].likes == |r.reviews[shown.id].likedBy| + 1
  {
  }

  // ---------------------------------------------------------------------
  // Toggling the watchlist

  /** `toggleWatchlist`: removes when the screen believes the movie is
      listed, adds otherwise, and flips that belief only when the store
      reports success. Returns the new store and the new belief. */
  function ToggleWatchlist(st: Store, shownInList: bool, movieId: string, now: int,
                           writeOk: bool, counterOk: bool): (r: (Store, bool))
    ensures st.currentUser.None? ==> r == (st, shownInList)
    ensures st.currentUser.Some? && shownInList ==>
      var reply := RemoveFromWatchlist(st, movieId, writeOk, counterOk);
      r.0 == reply.store && (r.1 <==> !reply.value)
    ensures st.currentUser.Some? && !shownInList ==>
      var reply := AddToWatchlist(st, movieId, now, writeOk, counterOk);
      r.0 == reply.store && (r.1 <==> reply.value)
  {
    if st.currentUser.None? then (st, shownInList)
    else
      var reply := if shownInList then RemoveFromWatchlist(st, movieId, writeOk, counterOk)
                   else AddToWatchlist(st, movieId, now, writeOk, counterOk);
      (reply.store, if reply.value then !shownInList else shownInList)
  }

  /** When the screen's belief matches the store and every call goes
      through, the new belief matches the store again and an accurate
      watchlist counter stays accurate. */
  lemma ToggleWatchlistInSync(st: Store, movieId: string, now: int)
    requires st.currentUser.Some? && '_' !in st.currentUser.value.uid
    requires WatchlistKeyed(st) && WatchlistCounterAccurate(st, st.currentUser.value.uid)
    ensures var shown := IsInWatchlist(st, movieId, true);
      var r := ToggleWatchlist(st, shown, movieId, now, true, true);
      r.1 == IsInWatchlist(r.0, movieId, true) && r.1 == !shown
      && WatchlistCounterAccurate(r.0, st.currentUser.value.uid)
  {
    if IsInWatchlist(st, movieId, true) {
      RemoveKeepsCounter(st, movieId);
    } else {
      AddKeepsCounter(st, movieId, now);
    }
  }

  /** A stale belief that the movie is not listed adds it again, and the
      counter runs one ahead. */
  lemma StaleWatchlistDrifts(st: Store, movieId: string, now: int)
    requires st.currentUser.Some? && '_' !in st.currentUser.value.uid
    requires WatchlistKeyed(st) && WatchlistCounterAccurate(st, st.currentUser.value.uid)
    requires IsInWatchlist(st, movieId, true)
    ensures var r := ToggleWatchlist(st, false, movieId, now, true, true);
      var uid := st.currentUser.value.uid;
      uid in r.0.users && r.0.users[uid].watchlistCount == WatchlistCountOf(r.0, uid) + 1
  {
    AddListedDrifts(st, movieId, now);
  }
}

=== FILE: omdb_client.dfy ===
/** The poster fallback of the OMDb client object; the HTTP client set-up
    around it is not modelled. */
module OMDbClient {
  import opened Options

  /** Shown when OMDb has no poster. */
  const DefaultPoster: string := "https://via.placeholder.com/300x450/1a1a1a/ffffff?text=No+Poster"

  /** OMDb's placeholder for a missing value. */
  const NotAvailable: string := "N/A"

  /** A usable poster address: the given one, unless it is null, empty or
      OMDb's "N/A", in which case the default poster. */
  function PosterUrl(posterUrl: Option<string>): (r: string)
    ensures posterUrl.None? || posterUrl.value == "" || posterUrl.value == NotAvailable ==> r == DefaultPoster
    ensures posterUrl.Some? && posterUrl.value != "" && posterUrl.value != NotAvailable ==> r == posterUrl.value
    ensures r != "" && r != NotAvailable
  {
    if posterUrl.None? || posterUrl.value == "" || posterUrl.value == NotAvailable then DefaultPoster
    else posterUrl.value
  }

  /** Cleaning an already cleaned address changes nothing. */
  lemma PosterUrlIdempotent(posterUrl: Option<string>)
    ensures PosterUrl(Some(PosterUrl(posterUrl))) == PosterUrl(posterUrl)
  {
  }

  /** The result is always either the input itself or the default. */
  lemma PosterUrlIsInputOrDefault(posterUrl: Option<string>)
    ensures PosterUrl(posterUrl) == DefaultPoster || posterUrl == Some(PosterUrl(posterUrl))
  {
  }
}

=== FILE: omdb_repository.dfy ===
/** The OMDb repository: gating of OMDb answers on their "Response" flag
    and the mapping of OMDb records onto the app's `Movie`. */
module OMDbRepository {
  import opened Options
  import opened KtText
  import opened Models
  import OMDbClient

  /** What a network request produced: a decoded body, or an exception
      (transport or decoding failure) that the repository catches. */
  datatype Fetch<+T> = Received(body: T) | TransportError

  /** Search results, or the empty list unless OMDb answered "True". */
  function SearchMovies(answer: Fetch<OMDbSearchResponse>): (r: seq<OMDbSearchResult>)
    ensures answer.Received? && answer.body.response == "True" ==> r == answer.body.search.OrElse([])
    ensures !(answer.Received? && answer.body.response == "True") ==> r == []
  {
    match answer
    case TransportError => []
    case Received(body) => if body.response == "True" then body.search.OrElse([]) else []
  }

  /** The detail record if and only if OMDb answered "True", else null. */
  function GetMovieDetails(answer: Fetch<OMDbMovieDetails>): (r: Option<OMDbMovieDetails>)
    ensures r.Some? <==> answer.Received? && answer.body.response == "True"
    ensures r.Some? ==> r.value == answer.body
  {
    match answer
    case TransportError => None
    case Received(body) => if body.response == "True" then Some(body) else None
  }

  // ---------------------------------------------------------------------
  // Year

  /** The three characters U+00E2 U+20AC U+201C: an en dash whose UTF-8
      bytes were read as Windows-1252, exactly as the repository spells the
      second year separator. */
  const MisencodedEnDash: string := "\U{E2}\U{20AC}\U{201C}"

  const YearSeparators: seq<string> := ["-", MisencodedEnDash]

  /** A year separator can only start at a '-' or an 'â'. */
  lemma SeparatorStart(s: string, j: nat)
    ensures AnyStartsAt(s, YearSeparators, j) ==> j < |s| && (s[j] == '-' || s[j] == '\U{E2}')
  {
    if AnyStartsAt(s, YearSeparators, j) {
      var k :| 0 <= k < |YearSeparators| && StartsAt(s, YearSeparators[k], j);
      assert s[j..j + |YearSeparators[k]|][0] == s[j];
    }
  }

  /** The first field of the year text, when its first separator
      character sits at `n` (or there is none and `n` is the length). */
  lemma YearFieldEndsAt(s: string, n: nat)
    requires n <= |s|
    requires forall j :: 0 <= j < n ==> s[j] != '-' && s[j] != '\U{E2}'
    requires n < |s| ==> AnyStartsAt(s, YearSeparators, n)
    ensures FirstField(s, YearSeparators) == s[..n]
  {
    var r := FirstField(s, YearSeparators);
    SeparatorStart(s, |r|);
    assert |r| <= n;
    assert |r| >= n;
  }

  /** The year of an OMDb "Year" text: the part before the first "-" or
      misencoded en dash, trimmed and read as an `Int`, or 0. */
  function ExtractYear(yearString: string): (r: int)
    ensures IntMin <= r <= IntMax
  {
    ToIntOrNull(Trim(FirstField(yearString, YearSeparators))).OrElse(0)
  }

  /** A text that starts with a rendered year, followed by nothing or by a
      separator, reads as that year. */
  lemma YearOfRenderedPrefix(s: string, y: nat)
    requires y <= IntMax
    requires |NatToString(y)| <= |s| && s[..|NatToString(y)|] == NatToString(y)
    requires |NatToString(y)| < |s| ==> AnyStartsAt(s, YearSeparators, |NatToString(y)|)
    ensures ExtractYear(s) == y
  {
    var d := NatToString(y);
    assert forall j :: 0 <= j < |d| ==> s[j] == d[j] && IsDigit(d[j]);
    YearFieldEndsAt(s, |d|);
    assert IntToString(y) == d;
    TrimNoWhitespace(d);
    ParseRendered(y);
  }

  /** A rendered year followed by a separator and anything reads as the
      year. */
  lemma YearThenSeparator(y: nat, k: nat, rest: string)
    requires y <= IntMax && k < |YearSeparators|
    ensures ExtractYear(NatToString(y) + YearSeparators[k] + rest) == y
  {
    var d := NatToString(y);
    var sep := YearSeparators[k];
    var s := d + sep + rest;
    assert s[..|d|] == d;
    assert s[|d|..|d| + |sep|] == sep;
    assert StartsAt(s, sep, |d|);
    assert AnyStartsAt(s, YearSeparators, |d|);
    YearOfRenderedPrefix(s, y);
  }

  /** A rendered year reads back as itself, alone or as the start of a
      range with either separator. */
  lemma ExtractYearOfRendered(y: nat, rest: string)
    requires y <= IntMax
    ensures ExtractYear(NatToString(y)) == y
    ensures ExtractYear(NatToString(y) + "-" + rest) == y
    ensures ExtractYear(NatToString(y) + MisencodedEnDash + rest) == y
  {
    var d := NatToString(y);
    assert d[..|d|] == d;
    YearOfRenderedPrefix(d, y);
    YearThenSeparator(y, 0, rest);
    YearThenSeparator(y, 1, rest);
  }

  /** Text starting with '-' has an empty first field, so the year is 0. */
  lemma ExtractYearLeadingDash(yearString: string)
    requires |yearString| > 0 && yearString[0] == '-'
    ensures ExtractYear(yearString) == 0
  {
    assert StartsAt(yearString, YearSeparators[0], 0);
    YearFieldEndsAt(yearString, 0);
  }

  lemma Render2010()
    ensures NatToString(2010) == "2010"
  {
    RenderDigits("2010");
    assert "2010"[..3] == "201" && "201"[..2] == "20" && "20"[..1] == "2";
    assert DigitsValue("2010") == 2010;
  }

  /** Worked examples of rendered years. */
  lemma ExtractYearExamples()
    ensures ExtractYear("2010") == 2010
    ensures ExtractYear("2010" + "-" + "2015") == 2010
    ensures ExtractYear("2010" + MisencodedEnDash + "2015") == 2010
  {
    Render2010();
    ExtractYearOfRendered(2010, "2015");
  }

  /** Texts that give 0. A real en dash (U+2013) is not a separator, so
      "2010–2015" does not parse at all. */
  lemma ExtractYearZeroExamples()
    ensures ExtractYear("2010\U{2013}2015") == 0
    ensures ExtractYear("N/A") == 0
  {
    var dash := "2010\U{2013}2015";
    YearFieldEndsAt(dash, |dash|);
    assert dash[..|dash|] == dash;
    TrimNoWhitespace(dash);
    assert !IsDigit(dash[4]);
    YearFieldEndsAt("N/A", 3);
    assert "N/A"[..3] == "N/A";
    TrimNoWhitespace("N/A");
  }

  /** A missing year, read as the empty text, is 0. */
  lemma ExtractYearMissing()
    ensures ExtractYear("") == 0
  {
    YearFieldEndsAt("", 0);
  }

  // ---------------------------------------------------------------------
  // Runtime

  const MinutesSuffix: string := " min"

  lemma MinutesSuffixUnbordered()
    ensures Unbordered(MinutesSuffix)
  {
    forall k | 0 < k < |MinutesSuffix|
      ensures MinutesSuffix[k..] != MinutesSuffix[..|MinutesSuffix| - k]
    {
      assert MinutesSuffix[k..][0] != MinutesSuffix[..|MinutesSuffix| - k][0];
    }
  }

  /** The minutes of an OMDb "Runtime" text: every " min" removed, the rest
      trimmed and read as an `Int`, or 0. */
  function ExtractRuntime(runtimeString: string): (r: int)
    ensures IntMin <= r <= IntMax
  {
    ToIntOrNull(Trim(ReplaceAll(runtimeString, MinutesSuffix, ""))).OrElse(0)
  }

  /** Removing " min" from a number followed by " min" leaves the number. */
  lemma StripMinutes(x: string)
    requires forall i :: 0 <= i < |x| ==> x[i] != ' '
    ensures ReplaceAll(x + MinutesSuffix, MinutesSuffix, "") == x
    ensures ReplaceAll(x, MinutesSuffix, "") == x
  {
    MinutesSuffixUnbordered();
    NotContainsWithoutFirstChar(x, MinutesSuffix);
    NotContainsWithoutFirstChar("", MinutesSuffix);
    var parts := [x, ""];
    SplitOfJoin(parts, MinutesSuffix);
    assert Join(parts, MinutesSuffix) == x + MinutesSuffix + "";
    assert x + MinutesSuffix + "" == x + MinutesSuffix;
    assert Join(parts, "") == x + "" + "";
  }

  /** A rendered number of minutes, with or without " min", reads back as
      itself. */
  lemma ExtractRuntimeOfRendered(n: int)
    requires IntMin <= n <= IntMax
    ensures ExtractRuntime(IntToString(n) + MinutesSuffix) == n
    ensures ExtractRuntime(IntToString(n)) == n
  {
    var x := IntToString(n);
    StripMinutes(x);
    TrimNoWhitespace(x);
    ParseRendered(n);
  }

  /** The worked example: "148 min" is 148 minutes. */
  lemma ExtractRuntimeExamples()
    ensures ExtractRuntime("148" + " min") == 148
  {
    Render148();
    ExtractRuntimeOfRendered(148);
  }

  lemma Render148()
    ensures IntToString(148) == "148"
  {
    RenderDigits("148");
    assert "148"[..2] == "14" && "14"[..1] == "1";
    assert DigitsValue("148") == 148;
  }

  /** A runtime of "N/A" is read as 0. */
  lemma ExtractRuntimeNotAvailable()
    ensures ExtractRuntime("N/A") == 0
  {
    var na := "N/A";
    assert forall i :: 0 <= i < |na| ==> na[i] != ' ';
    StripMinutes(na);
    assert NoWhitespace(na);
    TrimNoWhitespace(na);
    assert !AllDigits(na) by { assert !IsDigit(na[0]); }
  }

  /** A missing runtime, read as the empty text, is 0. */
  lemma ExtractRuntimeMissing()
    ensures ExtractRuntime("") == 0
  {
    StripMinutes("");
    assert Trim("") == "";
  }

  // ---------------------------------------------------------------------
  // Rating

  /** OMDb's 0–10 "imdbRating" text as a 0–5 rating: a readable rating
      is halved, so 0–10 lands in 0–5; an unreadable or absent one gives 0. */
  function NormalizedRating(imdbRating: Option<string>): (r: real)
    ensures imdbRating.Some? && DecimalOrNull(imdbRating.value).Some? ==>
      r == DecimalOrNull(imdbRating.value).value / 2.0
    ensures (imdbRating.Some? && DecimalOrNull(imdbRating.value).Some? &&
             0.0 <= DecimalOrNull(imdbRating.value).value <= 10.0) ==> 0.0 <= r <= 5.0
    ensures imdbRating.None? || DecimalOrNull(imdbRating.value).None? ==> r == 0.0
  {
    var v := if imdbRating.Some? then DecimalOrNull(imdbRating.value).OrElse(0.0) else 0.0;
    (v / 10.0) * 5.0
  }

  /** Worked example: "8.5" becomes 4.25. */
  lemma NormalizedRatingExample()
    ensures NormalizedRating(Some("8.5")) == 4.25
  {
    DecimalOfFraction("8", "5", "");
    assert DecimalValue("8", "5") == 8.5 by {
      assert DigitsValue("8") == 8 && DigitsValue("5") == 5;
    }
    assert "8" + "." + "5" + "" == "8.5";
  }

  /** Worked example: "N/A" is unreadable and becomes 0. */
  lemma NormalizedRatingNotAvailable()
    ensures NormalizedRating(Some("N/A")) == 0.0
  {
    assert DecimalOrNull("N/A").None? by {
      assert NumberBody("N/A") == "N/A" by {
        StripLowPadding("", "N/A", "");
        assert "" + "N/A" + "" == "N/A";
      }
      NotContainsWithoutFirstChar("N/A", ".");
    }
  }

  // ---------------------------------------------------------------------
  // Record mappings

  const CastSeparator: string := ", "

  /** Kotlin's `split(", ")` as applied to the cast and genre texts. */
  function SplitList(s: string): (parts: seq<string>)
    ensures |parts| > 0
    ensures Join(parts, CastSeparator) == s
    ensures forall k :: 0 <= k < |parts| ==> !Contains(parts[k], CastSeparator)
  {
    Split(s, CastSeparator)
  }

  /** An optional ", "-separated list: its pieces, or none when absent. */
  function ListField(text: Option<string>): (parts: seq<string>)
    ensures text.None? ==> parts == []
    ensures text.Some? ==> |parts| > 0 && Join(parts, CastSeparator) == text.value
    ensures text.Some? ==> forall k :: 0 <= k < |parts| ==> !Contains(parts[k], CastSeparator)
  {
    if text.Some? then SplitList(text.value) else []
  }

  /** An optional "Year" text as a year; an absent one reads as "" and so
      gives 0. */
  function YearField(text: Option<string>): (y: int)
    ensures text.Some? ==> y == ExtractYear(text.value)
    ensures text.None? ==> y == 0
  {
    ExtractYearMissing();
    ExtractYear(text.OrElse(""))
  }

  /** An optional "Runtime" text as minutes; an absent one gives 0. */
  function RuntimeField(text: Option<string>): (n: int)
    ensures text.Some? ==> n == ExtractRuntime(text.value)
    ensures text.None? ==> n == 0
  {
    ExtractRuntimeMissing();
    ExtractRuntime(text.OrElse(""))
  }

  /** The basic movie behind an OMDb search hit. */
  function SearchResultToMovie(result: OMDbSearchResult): (m: Movie)
    ensures m.id == result.imdbID && m.title == result.title && m.releaseDate == result.year
    ensures m.director == "" && m.description == "" && m.cast == [] && m.genre == []
    ensures m.duration == 0 && m.averageRating == 0.0 && m.totalReviews == 0
    ensures m.posterUrl == OMDbClient.PosterUrl(Some(result.poster)) && m.backdropUrl == m.posterUrl
    ensures m.posterUrl != ""
    ensures m.year == ExtractYear(result.year)
    ensures m.language == "English"
  {
    Movie(
      id := result.imdbID,
      title := result.title,
      year := ExtractYear(result.year),
      director := "",
      cast := [],
      genre := [],
      duration := 0,
      description := "",
      posterUrl := OMDbClient.PosterUrl(Some(result.poster)),
      backdropUrl := OMDbClient.PosterUrl(Some(result.poster)),
      averageRating := 0.0,
      totalReviews := 0,
      releaseDate := result.year,
      language := "English")
  }

  /** A search hit whose "Year" is a rendered year, alone or as a range,
      yields that year next to the raw text. */
  lemma SearchResultYear(result: OMDbSearchResult, y: nat, rest: string)
    requires y <= IntMax
    requires result.year == NatToString(y) || result.year == NatToString(y) + "-" + rest
    ensures SearchResultToMovie(result).year == y
  {
    ExtractYearOfRendered(y, rest);
  }

  /** The full movie behind an OMDb detail record. */
  function MovieDetailsToMovie(details: OMDbMovieDetails): (m: Movie)
    ensures details.imdbID.Some? ==> m.id == details.imdbID.value
    ensures details.imdbID.None? ==> m.id == ""
    ensures details.title.Some? ==> m.title == details.title.value
    ensures details.title.None? ==> m.title == "Unknown"
    ensures details.director.Some? ==> m.director == details.director.value
    ensures details.director.None? ==> m.director == "Unknown"
    ensures details.plot.Some? ==> m.description == details.plot.value
    ensures details.plot.None? ==> m.description == "No description available"
    ensures details.released.Some? ==> m.releaseDate == details.released.value
    ensures details.released.None? ==> m.releaseDate == ""
    ensures details.language.Some? ==> m.language == details.language.value
    ensures details.language.None? ==> m.language == "English"
    ensures details.actors.Some? ==> |m.cast| > 0 && Join(m.cast, CastSeparator) == details.actors.value
    ensures details.actors.Some? ==> forall k :: 0 <= k < |m.cast| ==> !Contains(m.cast[k], CastSeparator)
    ensures details.actors.None? ==> m.cast == []
    ensures details.genre.Some? ==> |m.genre| > 0 && Join(m.genre, CastSeparator) == details.genre.value
    ensures details.genre.Some? ==> forall k :: 0 <= k < |m.genre| ==> !Contains(m.genre[k], CastSeparator)
    ensures details.genre.None? ==> m.genre == []
    ensures details.year.Some? ==> m.year == ExtractYear(details.year.value)
    ensures details.year.None? ==> m.year == 0
    ensures details.runtime.Some? ==> m.duration == ExtractRuntime(details.runtime.value)
    ensures details.runtime.None? ==> m.duration == 0
    ensures m.posterUrl == OMDbClient.PosterUrl(details.poster) && m.backdropUrl == m.posterUrl
    ensures m.averageRating == NormalizedRating(details.imdbRating)
    ensures m.totalReviews == 0
  {
    var poster := OMDbClient.PosterUrl(details.poster);
    Movie(
      id := details.imdbID.OrElse(""),
      title := details.title.OrElse("Unknown"),
      year := YearField(details.year),
      director := details.director.OrElse("Unknown"),
      cast := ListField(details.actors),
      genre := ListField(details.genre),
      duration := RuntimeField(details.runtime),
      description := details.plot.OrElse("No description available"),
      posterUrl := poster,
      backdropUrl := poster,
      averageRating := NormalizedRating(details.imdbRating),
      totalReviews := 0,
      releaseDate := details.released.OrElse(""),
      language := details.language.OrElse("English"))
  }

  /** A detail record with every field absent maps onto the defaults. */
  lemma MovieDetailsDefaults(details: OMDbMovieDetails)
    requires details.title.None? && details.year.None? && details.released.None?
    requires details.runtime.None? && details.genre.None? && details.director.None?
    requires details.actors.None? && details.plot.None? && details.language.None?
    requires details.poster.None? && details.imdbRating.None? && details.imdbID.None?
    ensures MovieDetailsToMovie(details) == Movie(
      "", "Unknown", 0, "Unknown", [], [], 0, "No description available",
      OMDbClient.DefaultPoster, OMDbClient.DefaultPoster, 0.0, 0, "", "English")
  {
  }

  lemma CastSeparatorUnbordered()
    ensures Unbordered(CastSeparator)
  {
    assert CastSeparator[1..][0] != CastSeparator[..1][0];
  }

  /** Names joined by ", " split back into the same names, provided no
      name contains ", ". */
  lemma ListFieldOfJoin(names: seq<string>)
    requires |names| > 0
    requires forall k :: 0 <= k < |names| ==> !Contains(names[k], CastSeparator)
    ensures ListField(Some(Join(names, CastSeparator))) == names
  {
    CastSeparatorUnbordered();
    SplitOfJoin(names, CastSeparator);
  }

  /** A cast text written as names joined by ", " splits back into
      exactly those names, provided no name contains ", ". */
  lemma MovieDetailsCastRoundTrip(details: OMDbMovieDetails, castNames: seq<string>)
    requires |castNames| > 0 && details.actors == Some(Join(castNames, CastSeparator))
    requires forall k :: 0 <= k < |castNames| ==> !Contains(castNames[k], CastSeparator)
    ensures MovieDetailsToMovie(details).cast == castNames
  {
    ListFieldOfJoin(castNames);
  }

  /** The same for the genre text. */
  lemma MovieDetailsGenresRoundTrip(details: OMDbMovieDetails, genres: seq<string>)
    requires |genres| > 0 && details.genre == Some(Join(genres, CastSeparator))
    requires forall k :: 0 <= k < |genres| ==> !Contains(genres[k], CastSeparator)
    ensures MovieDetailsToMovie(details).genre == genres
  {
    ListFieldOfJoin(genres);
  }

  /** Every genre occurring in any of the movies, and nothing else. */
  function ExtractGenresFromMovies(movies: seq<Movie>): (r: set<string>)
    ensures forall g :: g in r <==> exists i :: 0 <= i < |movies| && g in movies[i].genre
  {
    if |movies| == 0 then {}
    else
      var rest := ExtractGenresFromMovies(movies[1..]);
      assert forall i :: 0 < i < |movies| ==> movies[i] == movies[1..][i - 1];
      (set g | g in movies[0].genre) + rest
  }
}

=== FILE: options.dfy ===
/** Kotlin nullable values and the outcome of a call that may throw. */
module Options {

  /** A Kotlin `T?`: `None` is `null`. */
  datatype Option<+T> = None | Some(value: T) {

    /** Kotlin's elvis operator `this ?: default`. */
    function OrElse(default: T): (r: T)
      ensures Some? ==> r == value
      ensures None? ==> r == default
    {
      match this
      case Some(v) => v
      case None => default
    }
  }

  /** The outcome of a suspending call that either returns or throws; the
      exception itself is not modelled, only that one escaped. */
  datatype Outcome<+T> = Returned(value: T) | Threw
}

=== FILE: review_adapter.dfy ===
/** One row of the review list: the relative time stamp, which buttons the
    viewer gets, and how the list tells two reviews apart. */
module ReviewAdapter {
  import opened Options
  import opened KtText
  import opened Collections
  import opened Models
  import opened FirebaseManager
  import opened MovieDetail

  // ---------------------------------------------------------------------
  // Relative time

  const MinuteMs: int := 60000
  const HourMs: int := 3600000
  const DayMs: int := 86400000
  const WeekMs: int := 604800000

  /** What the time stamp of a row shows: a relative age, or the calendar
      date of the review itself. */
  datatype Stamp =
    | JustNow
    | MinutesAgo(minutes: nat)
    | HoursAgo(hours: nat)
    | DaysAgo(days: nat)
    | OnDate(timestamp: int)

  /** `formatDate`: the age of a review written at `timestamp`, seen at
      `now` (both in milliseconds), in the largest whole unit below a week;
      anything younger than a minute, the future included, is "just now",
      and a week or more shows the date. */
  function FormatDate(now: int, timestamp: int): (r: Stamp)
    ensures r.JustNow? <==> now - timestamp < MinuteMs
    ensures r.MinutesAgo? <==> MinuteMs <= now - timestamp < HourMs
    ensures r.HoursAgo? <==> HourMs <= now - timestamp < DayMs
    ensures r.DaysAgo? <==> DayMs <= now - timestamp < WeekMs
    ensures r.OnDate? <==> WeekMs <= now - timestamp
    ensures r.MinutesAgo? ==> 1 <= r.minutes <= 59
    ensures r.MinutesAgo? ==> r.minutes * MinuteMs <= now - timestamp < (r.minutes + 1) * MinuteMs
    ensures r.HoursAgo? ==> 1 <= r.hours <= 23
    ensures r.HoursAgo? ==> r.hours * HourMs <= now - timestamp < (r.hours + 1) * HourMs
    ensures r.DaysAgo? ==> 1 <= r.days <= 6
    ensures r.DaysAgo? ==> r.days * DayMs <= now - timestamp < (r.days + 1) * DayMs
    ensures r.OnDate? ==> r.timestamp == timestamp
  {
    var diff := now - timestamp;
    if diff < MinuteMs then JustNow
    else if diff < HourMs then MinutesAgo(diff / MinuteMs)
    else if diff < DayMs then HoursAgo(diff / HourMs)
    else if diff < WeekMs then DaysAgo(diff / DayMs)
    else OnDate(timestamp)
  }

  /** The least age, in milliseconds, that a stamp can stand for. */
  function AgeFloor(s: Stamp): int {
    match s
    case JustNow => 0
    case MinutesAgo(n) => n * MinuteMs
    case HoursAgo(n) => n * HourMs
    case DaysAgo(n) => n * DayMs
    case OnDate(_) => WeekMs
  }

  /** An older review never shows a smaller age than a newer one. */
  lemma FormatDateMonotone(now: int, t1: int, t2: int)
    requires t2 <= t1
    ensures AgeFloor(FormatDate(now, t1)) <= AgeFloor(FormatDate(now, t2))
  {
  }

  /** Every age below a week is shown as the whole number of its unit:
      `n` units plus any remainder within the unit reads back as `n`. */
  lemma FormatDateReadsBack(now: int, n: nat, rest: nat)
    ensures 1 <= n <= 59 && rest < MinuteMs ==>
      FormatDate(now, now - (n * MinuteMs + rest)) == MinutesAgo(n)
    ensures 1 <= n <= 23 && rest < HourMs ==>
      FormatDate(now, now - (n * HourMs + rest)) == HoursAgo(n)
    ensures 1 <= n <= 6 && rest < DayMs ==>
      FormatDate(now, now - (n * DayMs + rest)) == DaysAgo(n)
  {
  }

  const MinutesAgoSuffix: string := " minutes ago"
  const HoursSuffix: string := " hours ago"
  const DaysSuffix: string := " days ago"
  const JustNowText: string := "Just now"

  /** The text of a relative stamp; the calendar date of an old review is
      formatted by the platform and has no text here. */
  function StampText(s: Stamp): (r: Option<string>)
    ensures r.None? <==> s.OnDate?
    ensures s.MinutesAgo? ==> r == Some(NatToString(s.minutes) + MinutesAgoSuffix)
    ensures s.HoursAgo? ==> r == Some(NatToString(s.hours) + HoursSuffix)
    ensures s.DaysAgo? ==> r == Some(NatToString(s.days) + DaysSuffix)
    ensures s.JustNow? ==> r == Some(JustNowText)
  {
    match s
    case JustNow => Some(JustNowText)
    case MinutesAgo(n) => Some(NatToString(n) + MinutesAgoSuffix)
    case HoursAgo(n) => Some(NatToString(n) + HoursSuffix)
    case DaysAgo(n) => Some(NatToString(n) + DaysSuffix)
    case OnDate(_) => None
  }

  /** A digit run followed by a text that starts with a non-digit splits
      in exactly one way. */
  lemma DigitsThenText(d1: string, s1: string, d2: string, s2: string)
    requires AllDigits(d1) && AllDigits(d2)
    requires |s1| > 0 && |s2| > 0 && !IsDigit(s1[0]) && !IsDigit(s2[0])
    requires d1 + s1 == d2 + s2
    ensures d1 == d2 && s1 == s2
  {
    var t := d1 + s1;
    assert forall i :: 0 <= i < |d1| ==> t[i] == d1[i];
    assert forall i :: 0 <= i < |d2| ==> t[i] == d2[i];
    assert !IsDigit(t[|d1|]) && !IsDigit(t[|d2|]);
    assert |d1| == |d2|;
    assert d1 == t[..|d1|] && d2 == t[..|d2|];
  }

  /** Different stamps never show the same text, so the text determines
      the age that was shown. */
  lemma StampTextInjective(a: Stamp, b: Stamp)
    requires StampText(a).Some? && StampText(a) == StampText(b)
    ensures a == b
  {
    if !a.JustNow? { RelativeTextStartsWithDigit(a); }
    if !b.JustNow? { RelativeTextStartsWithDigit(b); }
    if !a.JustNow? && !b.JustNow? {
      var da := NatToString(AgeCount(a));
      var db := NatToString(AgeCount(b));
      DigitsThenText(da, Suffix(a), db, Suffix(b));
      assert DigitsValue(da) == AgeCount(a) && DigitsValue(db) == AgeCount(b);
      assert Suffix(a)[1] == Suffix(b)[1];
    }
  }

  /** A relative age is written with its number first. */
  lemma RelativeTextStartsWithDigit(s: Stamp)
    requires !s.JustNow? && !s.OnDate?
    ensures IsDigit(StampText(s).value[0])
  {
    var d := NatToString(AgeCount(s));
    assert StampText(s).value[0] == d[0];
  }

  /** The number a relative stamp counts. */
  function AgeCount(s: Stamp): nat
    requires !s.JustNow? && !s.OnDate?
  {
    match s
    case MinutesAgo(n) => n
    case HoursAgo(n) => n
    case DaysAgo(n) => n
  }

  /** The unit words after the number. */
  function Suffix(s: Stamp): (r: string)
    requires !s.JustNow? && !s.OnDate?
    ensures StampText(s) == Some(NatToString(AgeCount(s)) + r)
    ensures |r| > 1 && r[0] == ' '
  {
    match s
    case MinutesAgo(_) => MinutesAgoSuffix
    case HoursAgo(_) => HoursSuffix
    case DaysAgo(_) => DaysSuffix
  }

  // ---------------------------------------------------------------------
  // Buttons

  /** The delete button shows exactly on the viewer's own reviews; a
      signed-out viewer sees it on none. */
  function DeleteVisible(review: Review, currentUserId: Option<string>): (r: bool)
    ensures currentUserId.None? ==> !r
    ensures r <==> currentUserId.Some? && currentUserId.value == review.userId
  {
    currentUserId == Some(review.userId)
  }

  /** Deleting through the button removes one of the viewer's own reviews,
      so the review counter the store decrements is the author's and stays
      accurate. */
  lemma DeleteButtonKeepsCounter(st: Store, review: Review)
    requires review.id in st.reviews && st.reviews[review.id] == review
    requires DeleteVisible(review, CurrentUid(st))
    requires ReviewCounterAccurate(st, review.userId)
    ensures ReviewCounterAccurate(DeleteReview(st, review.id, review.movieId, true, true, true, true).store,
                                  review.userId)
  {
    DeleteReviewKeepsCounter(st, review.id, review.movieId);
  }

  /** The heart is filled exactly when a signed-in viewer is among the
      review's likers. */
  function IsLiked(review: Review, currentUserId: Option<string>): (r: bool)
    ensures currentUserId.None? ==> !r
    ensures r <==> currentUserId.Some? && currentUserId.value in review.likedBy
  {
    match currentUserId
    case None => false
    case Some(uid) => uid in review.likedBy
  }

  /** Tapping the heart of the stored review flips it: once the list is
      reloaded, the heart shows the opposite state. */
  lemma ToggleFlipsHeart(st: Store, shown: Review)
    requires st.currentUser.Some? && shown.id in st.reviews && st.reviews[shown.id] == shown
    ensures var r := ToggleLike(st, shown, true);
      shown.id in r.reviews &&
      IsLiked(r.reviews[shown.id], CurrentUid(r)) == !IsLiked(shown, CurrentUid(st))
  {
  }

  // ---------------------------------------------------------------------
  // List diffing

  /** Two rows are the same item when their review ids agree. */
  function SameItem(a: Review, b: Review): (r: bool)
    ensures r <==> a.id == b.id
  {
    a.id == b.id
  }

  /** Two rows need no redraw when the reviews are equal in every field. */
  function SameContents(a: Review, b: Review): (r: bool)
    ensures r <==> a == b
  {
    a == b
  }

  /** Equal contents imply the same item, and item identity is an
      equivalence. */
  lemma SameItemIsEquivalence(a: Review, b: Review, c: Review)
    ensures SameContents(a, b) ==> SameItem(a, b)
    ensures SameItem(a, a)
    ensures SameItem(a, b) ==> SameItem(b, a)
    ensures SameItem(a, b) && SameItem(b, c) ==> SameItem(a, c)
  {
  }

  /** A like or an unlike keeps the row the same item but changes its
      contents, so the list redraws that row in place. */
  lemma LikeRedrawsInPlace(r: Review, userId: string)
    ensures SameItem(Liked(r, userId), r) && !SameContents(Liked(r, userId), r)
    ensures SameItem(Unliked(r, userId), r) && !SameContents(Unliked(r, userId), r)
  {
    assert Liked(r, userId).likes != r.likes;
    assert Unliked(r, userId).likes != r.likes;
  }
}

=== FILE: sign_up.dfy ===
/** The sign-up screen: the four-field validator, the trimmed inputs it
    sees, and the message shown when account creation fails. */
module SignUp {
  import opened Options
  import opened KtText
  import opened AuthFailures

  /** The four input fields as typed. */
  datatype Form = Form(name: string, email: string, password: string, confirmPassword: string)

  /** The fields with surrounding whitespace removed, as the button
      handler reads them. */
  function Trimmed(f: Form): (r: Form)
    ensures r.name == Trim(f.name) && r.email == Trim(f.email)
    ensures r.password == Trim(f.password) && r.confirmPassword == Trim(f.confirmPassword)
  {
    Form(Trim(f.name), Trim(f.email), Trim(f.password), Trim(f.confirmPassword))
  }

  const NameRequired: string := "Name is required"
  const EmailRequired: string := "Email is required"
  const EmailMalformed: string := "Invalid email format"
  const PasswordRequired: string := "Password is required"
  const PasswordTooShort: string := "Password must be at least 6 characters"
  const ConfirmRequired: string := "Please confirm password"
  const PasswordsDiffer: string := "Passwords do not match"

  /** The least accepted password length, in UTF-16 code units. */
  const MinPasswordLength: nat := 6

  /** The error lines under the four fields after a validation. */
  datatype Errors = Errors(name: Label, email: Label, password: Label, confirmPassword: Label)

  function NameLabel(name: string): (r: Label)
    ensures r == Shows(NameRequired) <==> name == ""
    ensures r == Cleared <==> name != ""
  {
    if name == "" then Shows(NameRequired) else Cleared
  }

  /** An empty email is reported as missing before its format is looked
      at; `isEmail` stands for the platform's email address pattern. */
  function EmailLabel(email: string, isEmail: string -> bool): (r: Label)
    ensures r == Shows(EmailRequired) <==> email == ""
    ensures r == Shows(EmailMalformed) <==> email != "" && !isEmail(email)
    ensures r == Cleared <==> email != "" && isEmail(email)
  {
    if email == "" then Shows(EmailRequired)
    else if !isEmail(email) then Shows(EmailMalformed)
    else Cleared
  }

  /** An empty password is reported as missing before its length. */
  function PasswordLabel(password: string): (r: Label)
    ensures r == Shows(PasswordRequired) <==> password == ""
    ensures r == Shows(PasswordTooShort) <==> password != "" && Utf16Length(password) < MinPasswordLength
    ensures r == Cleared <==> Utf16Length(password) >= MinPasswordLength
  {
    if password == "" then Shows(PasswordRequired)
    else if Utf16Length(password) < MinPasswordLength then Shows(PasswordTooShort)
    else Cleared
  }

  /** An empty confirmation is reported as missing before any mismatch. */
  function ConfirmLabel(password: string, confirmPassword: string): (r: Label)
    ensures r == Shows(ConfirmRequired) <==> confirmPassword == ""
    ensures r == Shows(PasswordsDiffer) <==> confirmPassword != "" && password != confirmPassword
    ensures r == Cleared <==> confirmPassword != "" && password == confirmPassword
  {
    if confirmPassword == "" then Shows(ConfirmRequired)
    else if password != confirmPassword then Shows(PasswordsDiffer)
    else Cleared
  }

  /** `validateInput`: every field is checked, none stops the others, and
      each gets its own verdict. */
  function Validate(f: Form, isEmail: string -> bool): (r: Errors)
    ensures r.name == NameLabel(f.name)
    ensures r.email == EmailLabel(f.email, isEmail)
    ensures r.password == PasswordLabel(f.password)
    ensures r.confirmPassword == ConfirmLabel(f.password, f.confirmPassword)
  {
    Errors(NameLabel(f.name), EmailLabel(f.email, isEmail), PasswordLabel(f.password),
           ConfirmLabel(f.password, f.confirmPassword))
  }

  /** The validator's answer: no field shows an error. */
  function Passes(e: Errors): (ok: bool)
    ensures ok <==> e.name == Cleared && e.email == Cleared && e.password == Cleared && e.confirmPassword == Cleared
  {
    e.name == Cleared && e.email == Cleared && e.password == Cleared && e.confirmPassword == Cleared
  }

  /** Validation passes exactly for a name, an email of the right shape, a
      password of at least six code units, and a matching confirmation. */
  lemma PassesIff(f: Form, isEmail: string -> bool)
    ensures Passes(Validate(f, isEmail)) <==>
      (f.name != "" && f.email != "" && isEmail(f.email) &&
       Utf16Length(f.password) >= MinPasswordLength && f.confirmPassword == f.password)
  {
  }

  /** A field's verdict does not depend on the fields it does not read:
      changing the name, say, leaves the other three lines as they were. */
  lemma FieldsIndependent(f: Form, g: Form, isEmail: string -> bool)
    ensures f.name == g.name ==> Validate(f, isEmail).name == Validate(g, isEmail).name
    ensures f.email == g.email ==> Validate(f, isEmail).email == Validate(g, isEmail).email
    ensures f.password == g.password ==> Validate(f, isEmail).password == Validate(g, isEmail).password
    ensures f.password == g.password && f.confirmPassword == g.confirmPassword ==>
      Validate(f, isEmail).confirmPassword == Validate(g, isEmail).confirmPassword
  {
  }

  /** Every failing field is reported at once: a form with all four fields
      empty shows four "required" lines. */
  lemma EmptyFormReportsEveryField(isEmail: string -> bool)
    ensures Validate(Form("", "", "", ""), isEmail) ==
      Errors(Shows(NameRequired), Shows(EmailRequired), Shows(PasswordRequired), Shows(ConfirmRequired))
  {
  }

  /** The sign-up button: the trimmed name, email and password handed to
      account creation, or nothing when validation fails. */
  function Submit(raw: Form, isEmail: string -> bool): (r: Option<(string, string, string)>)
    ensures r.Some? <==> Passes(Validate(Trimmed(raw), isEmail))
    ensures r.Some? ==> r.value == (Trim(raw.name), Trim(raw.email), Trim(raw.password))
  {
    var f := Trimmed(raw);
    if Passes(Validate(f, isEmail)) then Some((f.name, f.email, f.password)) else None
  }

  /** Surrounding whitespace never matters: the form as typed and the form
      trimmed beforehand are treated alike. */
  lemma SubmitIgnoresSurroundingSpace(raw: Form, isEmail: string -> bool)
    ensures Submit(Trimmed(raw), isEmail) == Submit(raw, isEmail)
  {
    TrimIdempotent(raw.name);
    TrimIdempotent(raw.email);
    TrimIdempotent(raw.password);
    TrimIdempotent(raw.confirmPassword);
  }

  /** A password of spaces only counts as missing, not as too short. */
  lemma BlankPasswordIsMissing(raw: Form, isEmail: string -> bool)
    requires forall i :: 0 <= i < |raw.password| ==> IsWhitespace(raw.password[i])
    ensures Validate(Trimmed(raw), isEmail).password == Shows(PasswordRequired)
    ensures Submit(raw, isEmail).None?
  {
    TrimEmptyIff(raw.password);
  }

  const EmailInUse: string := "This email is already in use."
  const PasswordTooWeak: string := "Password is too weak."
  const SignUpFallback: string := "Sign up failed. Please try again."

  /** The message shown when account creation throws. */
  function FailureMessage(e: Failure): (r: string)
    ensures e.kind == UserCollision ==> r == EmailInUse
    ensures e.kind == WeakPassword ==> r == PasswordTooWeak
    ensures e.kind != UserCollision && e.kind != WeakPassword ==> r == e.message.OrElse(SignUpFallback)
  {
    match e.kind
    case UserCollision => EmailInUse
    case WeakPassword => PasswordTooWeak
    case _ => e.message.OrElse(SignUpFallback)
  }

  /** The two recognised failures show a fixed text whatever the server
      said; every other failure shows the server's text when it has one. */
  lemma FailureMessageSource(e: Failure, other: Option<string>)
    ensures (e.kind == UserCollision || e.kind == WeakPassword) ==>
      FailureMessage(e) == FailureMessage(e.(message := other))
    ensures e.kind != UserCollision && e.kind != WeakPassword && e.message.Some? ==>
      FailureMessage(e) == e.message.value
    ensures e.kind != UserCollision && e.kind != WeakPassword && e.message.None? ==>
      FailureMessage(e) == SignUpFallback
  {
  }
}
